=== FILE: README.md ===
# Zenth calculator core in Dafny

A model of the logic inside Zenth's two Tk calculators, `Zenth.py` and
`scientific_calculator.py`. Each calculator has three parts.

- **The `=` pipeline** (Zenth). `=` works on the entry line in stages:
  - it strips commas;
  - it rewrites `^` as `**`, `%` as `/100` and `π` as the decimal text of pi;
  - it wraps every numeric literal as a `Decimal`;
  - it evaluates the text as a Python expression, normalises the result and
    formats it.

  The model follows the same stages:
  - `Rewrite.Clean` for the rewriting;
  - `Literals.Scan` for the literal regex;
  - `Lexer.Lex` and `Parser.Parse` for the arithmetic part of Python's
    expression syntax: numbers, `+ - * / **`, unary signs and parentheses;
  - `Evaluator.Eval` over exact rationals (`real`);
  - `Display.Format` for the normalised display text, with the half-even
    rounding of a whole-number result to 100 significant digits;
  - `Engine.Calculate` for the success path with its history entry, and the
    `Error` path.
- **The button editor** of a tab:
  - C, DEL, `±`, `π` and plain keys (`Editing`, `ZenthKeys`, `Scientific`);
  - in Zenth, also `x!` (`Factorial`), exact on Python's big integers up to
    the 4300-digit cap on integer text, and `sqrt` on the buffer.
- **The session.** This covers:
  - the append-only history with its clear button;
  - the tab strip: new tab, close, reopen from a LIFO stack of closed tabs,
    rename, and Ctrl-Tab cycling with a preview index (`Notebook`,
    `ZenthSession`, `Scientific`).

Things the model cannot compute are parameters:
- The inexact parts of Python's `decimal` module live in an `Oracle` value:
  - non-integral powers;
  - the text of a non-integral final result that needs more than 100
    significant digits;
  - the square-root text.
- The scientific calculator's float `eval` is a `FloatEval` function parameter.

Every property is stated for all oracles and all evaluators.

The Tk notebook's behaviour is modelled by `Notebook.Book`:
- pages with stable ids, names and bodies;
- a selected index;
- `forget` of the selected tab selects its right neighbour, or else its left
  one.

## Model

| member | source | states |
|---|---|---|
| Engine.Calculate | Zenth.py:264-286 | `=` logs nothing exactly when evaluation fails or the result cannot be formatted (an integer past the 4300-digit cap). Then the entry line is `Error` and the previous line is kept. On success the entry line is `Format` of the evaluated value, the history entry is `expr = shown`, where `expr` is the comma-free text, and the previous line is `expr =`. |
| Rewrite.StripCommas | Zenth.py:266 | The logged expression has no commas, and text without commas is unchanged. |
| Rewrite.CleanIsExpandAll | Zenth.py:268-269 | The three whole-text replacements equal a per-character expansion. `^` becomes `**`, `%` becomes `/100`, `π` becomes the pi text, and every other character stays in order. |
| Rewrite.CleanRemovesSpecials | Zenth.py:266-269 | After the rewrite no `^`, `%`, `π` or `,` is left. |
| Rewrite.PercentIsTextualDivision | Zenth.py:268 | A trailing `%` is the text `/100` appended to whatever precedes it. |
| Rewrite.PiTextShape | Zenth.py:269 | The pi text is `3.` followed by digits, so it is one literal needing no rewriting. |
| Literals.Scan | Zenth.py:271 | Dropping the wrappers gives back the input. Every wrapped piece is a literal, and every unwrapped character is not a digit. |
| Literals.ScanTwoPoints | Zenth.py:271 | `1.2.3` is cut into the literals `1.2` and `.3`. |
| Engine.TwoPointsFail | Zenth.py:271-286 | `=` on `1.2.3` shows `Error` and logs nothing. |
| Engine.EmptyBufferFails | Zenth.py:273-286 | `=` on an empty buffer shows `Error` and logs nothing. |
| Engine.ForeignCharacterFails | Zenth.py:271-273 | An ASCII character that is neither arithmetic nor rewritten, nor a line break, backslash or `#`, makes evaluation fail. This covers names such as `sqrt(9)` and syntax such as `5!`. |
| Engine.DivisionByZeroText | Zenth.py:273 | `a/b`, where `b` is a zero literal, fails. |
| Lexer.LexOnlyArithmetic | Zenth.py:273 | Lexing succeeds only on pieces made of digits, points, blanks and `+ - * / ( )`. |
| Lexer.LexNumbers | Zenth.py:271-273 | Each number token carries the value of the literal it was cut from, in order. |
| Parser.ParseOfShow | Zenth.py:273 | Printing an expression tree with Python's precedence and parsing it back gives the same tree. |
| Evaluator.EvalAfterParseOfShow | Zenth.py:273 | Printing an expression and reading it back does not change its value. |
| Parser.NegationBindsLooserThanPower | Zenth.py:273 | `-a**b` parses as `-(a**b)`. |
| Parser.PowerIsRightAssociative | Zenth.py:273 | `a**b**c` parses as `a**(b**c)`. |
| Parser.SubtractionIsLeftAssociative | Zenth.py:273 | `a-b-c` parses as `(a-b)-c`. |
| Parser.ProductBindsTighterThanSum | Zenth.py:273 | `a+b*c` and `a+b/c` group the product first. |
| Parser.JuxtapositionFails | Zenth.py:273 | A number followed directly by a number or `(` does not parse. |
| Engine.NegatedPowerText | Zenth.py:268-273 | `-a^b` evaluates as the negation of `a**b`. |
| Engine.PercentOfAddend | Zenth.py:268-280 | `a+b%` evaluates to `a + b/100`, not to a percentage of `a`. |
| Evaluator.PowerReciprocal | Zenth.py:273 | For nonzero `x` and integer `n >= 1`, `x**n` and `x**-n` both evaluate, and in exact arithmetic they multiply to 1. |
| Evaluator.PowerOfSum | Zenth.py:273 | Integer powers add exponents: `x**(m+n) = x**m * x**n`. |
| Display.Format | Zenth.py:275-280 | An integral result is first rounded to 100 significant digits, as `normalize()` does. Formatting fails exactly when that integer has more than 4300 digits, where `f"{int(v):,}"` raises. Otherwise the text is shown so that `int()` reads the rounded integer back once the commas are removed. A plain non-integral result is shown in text that reads back as the same value. Otherwise the text contains an exponent `E`. |
| Display.PlainReadsAs | Zenth.py:280 | The digits, sign and point position of a normalised decimal read back as the value. |
| Grouping.GroupInt | Zenth.py:278 | `f"{n:,}"` is a sign followed by well-formed 3-digit groups, and removing the commas gives `str(n)`. |
| Grouping.GroupIntRoundTrip | Zenth.py:278 | The grouped text with its commas removed reads back as `n`, and `int()` with its digit cap reads it back whenever `n` fits the cap. |
| Text.IntCallOfIntString | Zenth.py:236 | `int(str(n))` is `n` when `n` has at most 4300 digits, and raises beyond that. |
| Grouping.GroupIntInjective | Zenth.py:278 | Different integers are shown as different texts. |
| Engine.EqualsIsIdempotent | Zenth.py:266-280 | `=` pressed again on a shown integral or plain result shows the same text. A shown integer has already been rounded, so rounding it again changes nothing. |
| Display.RoundMagnitude | Zenth.py:275 | `normalize()` of a whole number at precision 100. A number with at most 100 significant digits is kept. Otherwise the result is positive, has at most 100 significant digits and lies within half a unit of the 100th digit; on a tie its 100th digit is even (`ROUND_HALF_EVEN`). |
| Display.RoundedQuotient | Zenth.py:275 | The rounding count is `m / p` or one more, and its multiple of `p` lies within `p/2` of `m`. When it lies exactly `p/2` away, the count is even. |
| Display.RoundToPrecision | Zenth.py:275 | A rounded whole number has at most 100 significant digits, and one that already fits is unchanged. A longer number keeps its sign and moves by at most half a unit of its 100th digit; on a tie that digit is even. |
| ZenthKeys.EqualsAfterFactorial | Zenth.py:264-280 | `=` after `x!` shows n! rounded to 100 significant digits, or `Error` past the cap. When n! has more than 100 significant digits (from 81! on), the text changes. |
| ZenthKeys.Press | Zenth.py:219-262 | Only `=` can log, only `C` and `=` touch the previous line, and `=` is `calculate_result`. |
| ZenthKeys.EditingKeys | Zenth.py:221-227 | `C` empties both lines. DEL undoes a one-character key. `±` twice is the identity exactly when the buffer does not start with `--`. |
| Editing.DropLast | Zenth.py:224 | DEL removes exactly the last character, and an empty buffer stays empty. |
| Editing.ToggleTwice | Zenth.py:225-227 | `±` twice gives the buffer back if and only if it does not start with `--`. |
| Editing.Append | Zenth.py:261-262 | A plain key's text is added at the end and the buffer is kept as a prefix. |
| ZenthKeys.PlusMinusNegates | Zenth.py:225-227 | `±` on a literal makes `=` compute the negated value. |
| ZenthKeys.PlusMinusRestores | Zenth.py:225-227 | `±` on a negated literal gives back the literal's value. |
| ZenthKeys.PiKeyLikePiChar | Zenth.py:228 | Appending the pi digits evaluates exactly like appending the `π` character. |
| ZenthKeys.SquareRootText | Zenth.py:230-233 | `sqrt` shows `Error` when `Decimal()` refuses the buffer or reads a negative number, and otherwise shows the square-root text of the buffer. |
| ZenthKeys.DecimalOperandRejects | Zenth.py:230-233 | `Decimal()` refuses a buffer holding an ASCII character that is not whitespace, a letter, a digit, a sign, a point or an underscore. |
| ZenthKeys.SquareRootOfUnderscored | Zenth.py:230-233 | `Decimal()` drops an underscore between digits, so `sqrt` on `a_b` reads the number `ab` and shows its square-root text. |
| ZenthKeys.SquareRootOfGrouped | Zenth.py:230-233 | `sqrt` right after `=` has shown an integer of 1,000 or more gives `Error`, because of the comma. |
| ZenthKeys.SquareRootOfNegative | Zenth.py:230-233 | `sqrt` on a negative result shown in plain notation gives `Error`. |
| ZenthKeys.DecimalOperandOfShown | Zenth.py:230-233 | `Decimal()` reads back every plain result `=` shows. |
| Factorial.ProductLoop | Zenth.py:241-243 | The `range(2, n+1)` product loop computes n!. |
| ZenthKeys.FactorialShows | Zenth.py:234-246 | When n! has at most 4300 digits, `x!` on `str(n)` shows n! grouped with commas, and that text read back, by `int()` without commas or by `=`, is n!. |
| ZenthKeys.FactorialFails | Zenth.py:234-246 | `x!` gives `Error` if and only if `int()` refuses the buffer, reads a negative number, or reads an n whose n! has more than 4300 digits. |
| ZenthKeys.FactorialTwiceFails | Zenth.py:234-246 | From 7 on, a second `x!` gives `Error`: the first result holds a comma, or is `Error` itself. |
| ZenthKeys.FactorialTwiceSmall | Zenth.py:234-246 | Below 7, a second `x!` computes (n!)!. |
| ZenthSession.Start | Zenth.py:543 | The window opens with one empty tab `Calc 1`, no closed tabs, no history and Ctrl up. |
| ZenthSession.AddToHistory | Zenth.py:588-590 | The history gains exactly the entry at its end, and nothing else changes. |
| ZenthSession.ClearHistory | Zenth.py:591-594 | The history is empty, and nothing else changes. |
| ZenthSession.EqualsLogs | Zenth.py:282-286 | On the selected tab, a `=` whose evaluation or formatting fails leaves the history alone and shows `Error`. A successful one appends the single entry `expr = shown`. |
| ZenthSession.HistoryAppendOnly | Zenth.py:588-594 | Without a clear, every run of events only extends the history. |
| ZenthSession.AddTab | Zenth.py:731-733 | The new empty tab `Calc n+1` goes last and is selected. The other tabs, the closed stack and the history are kept. |
| ZenthSession.CloseTab | Zenth.py:734-739 | With no tabs nothing happens. Otherwise the selected tab goes on top of the closed stack and leaves the strip, which Tk then reselects. |
| Notebook.ForgetCurrent | Zenth.py:739 | Forgetting the selected page shifts the later pages down, removes exactly that page, and selects its right neighbour or else its left one. |
| ZenthSession.Reopen | Zenth.py:741-748 | With nothing closed nothing changes. Otherwise the top of the stack is popped, appended and selected. |
| ZenthSession.CloseThenReopen | Zenth.py:734-748 | Close then reopen selects the same tab again, leaves the same set of tabs and the same closed stack, and is the identity on the last tab. |
| ZenthSession.ReopenIsLastIn | Zenth.py:741-748 | Two reopens bring back the last two closed tabs in LIFO order, and the one closed earlier ends up selected. |
| ZenthSession.CtrlPress | Zenth.py:750-755 | Ctrl is held exactly when there is a tab, and then the preview index is the selected tab. |
| ZenthSession.CtrlRelease | Zenth.py:757-762 | Release drops Ctrl. When the preview is shown with a valid index, that tab is selected and the preview closes; otherwise the tabs are unchanged. |
| ZenthSession.CycleTabs | Zenth.py:764-775 | Without Ctrl or with fewer than 2 tabs nothing changes. Otherwise the preview is shown and its index moves to `(i+1) mod n`. |
| ZenthSession.CtrlTabSwitches | Zenth.py:750-775 | Holding Ctrl, pressing Tab k times and releasing selects tab `(c+k) mod n`. |
| ZenthSession.RenameTab | Zenth.py:800-804 | A non-blank answer renames the selected tab to its stripped text. Otherwise nothing changes. |
| Text.StripIsSlice | Zenth.py:804 | `strip()` leaves a slice of the answer with only whitespace cut from its two ends. |
| Notebook.RenameTwice | Zenth.py:800-804 | Renaming twice with the same answer is renaming once, and the new name has no surrounding whitespace. |
| Notebook.TabName | Zenth.py:733 | A tab name is `Calc ` followed by a number that `int()` reads back as the count. |
| ZenthSession.RunKeepsValid | Zenth.py:731-804 | Every sequence of events keeps the selected index in range and keeps tab ids distinct across open and closed tabs. |
| Scientific.SciPress | scientific_calculator.py:175-208 | Only `=` logs. `C` empties the buffer. `π` appends `str(math.pi)` and a plain key appends its text, keeping the buffer as a prefix. |
| Scientific.SciEditingKeys | scientific_calculator.py:178-186 | DEL undoes a one-character key and leaves an empty buffer empty. `±` twice is the identity exactly when the buffer does not start with `--`. |
| Rewrite.SciCleanIsPointwise | scientific_calculator.py:212 | The scientific rewrite maps `^` to `**` and `%` to `/100` character by character, and keeps every other character. |
| Scientific.SciCalculate | scientific_calculator.py:210-218 | Nothing is logged exactly when the evaluator fails, and then the display is `Error`. On success the display is the result and the entry is `rewritten = result`. |
| Scientific.SciLogsRewritten | scientific_calculator.py:212-215 | The logged expression is the rewritten text, character by character. |
| Scientific.SciPowerLogged | scientific_calculator.py:212-215 | `2^3` is logged as `2**3 = 8`. |
| Scientific.SciStart | scientific_calculator.py:333 | The window opens with one empty tab `Calc 1` and no history. |
| Scientific.SciAddToHistory | scientific_calculator.py:351-356 | The entry is appended at the end, and nothing else changes. |
| Scientific.SciClearHistory | scientific_calculator.py:358-363 | The history is empty and the tabs are unchanged. |
| Scientific.SciStepHistory | scientific_calculator.py:351-363 | Only `=` adds to the history, one entry at most, and only clear removes entries. |
| Notebook.AddPage | scientific_calculator.py:565-570 | The new page `Calc n+1` is appended and selected, the earlier pages are a prefix, and validity is kept. |
| Scientific.SciCloseTab | scientific_calculator.py:572-576 | With no tabs nothing happens. Otherwise the selected tab is forgotten and nothing is kept for reopening. |
| Scientific.SciCycleRound | scientific_calculator.py:578-583 | With at least 2 tabs, the next tab is `(c+1) mod n`, and n presses come back to the start. |
| Notebook.CycleRoundTrip | scientific_calculator.py:578-583 | Cycling as many times as there are tabs is the identity. |
| Scientific.SciRenameTab | scientific_calculator.py:585-593 | A non-blank answer renames the selected tab to its stripped text. Otherwise nothing changes. |
| Scientific.SciRunKeepsValid | scientific_calculator.py:565-593 | Every sequence of events keeps the tab strip consistent. |

## Left out

- Intermediate results are never rounded. Python's `decimal` rounds every operation to 100 significant digits (Zenth.py:434); the model computes exact rationals. So `1/3*3` shows `0.` followed by 100 nines in the source and `1` in the model. Only the final `normalize()` of a whole-number result is rounded, half-even, as the source rounds it.
- Evaluator.PowerReciprocal: exact arithmetic only. In the source `3**-1` is rounded, and `3**-1*3` is `0.` followed by 100 nines, not 1.
- Evaluator.PowerOfSum: exact arithmetic only, for the same reason.
- Display.Format: a non-integral value with more than 100 significant digits takes its text from the oracle, even when its rounding is a whole number. The source shows a 150-nine literal `0.99…9` as `1`.
- Non-integral powers, the text of an inexact quotient, and the `sqrt` result text come from the `Oracle` parameter. The model does not know their values.
- `Decimal(math.pi)` is a constant digit string of the right shape (`3.` followed by digits). Only its shape is proved.
- `Decimal()` is modelled for whitespace, a sign, ASCII digits, one point and underscores, which it drops wherever they stand. `int()` is modelled for whitespace, a sign, ASCII digits and single underscores between digits, with its 4300-digit cap.
- ZenthKeys.DecimalOperandRejects: stated only for ASCII characters that are not letters. `Decimal()` also reads exponents (`1e5`), `Infinity`, `NaN` and `sNaN` in any letter case, and the decimal digits of other scripts; the model refuses all of these.
- ZenthKeys.SquareRootText: on a buffer in one of those spellings the model shows `Error`. The source shows the root, or `Error` for `-Infinity` and `sNaN`.
- ZenthKeys.FactorialFails: `int()` also reads the decimal digits of other scripts (`٣` is 3). The model's `int()` reads ASCII digits only, so on such a buffer it shows `Error` where the source computes the factorial.
- ZenthKeys.FactorialFails: time and memory are not modelled. The model shows `Error` at once for an n whose n! is past the digit cap. The source first runs the whole `range(2, n + 1)` product (Zenth.py:241-243), which for a buffer such as `100000000` keeps the window busy for a very long time. If memory runs out first, the `MemoryError` is not among the exceptions Zenth.py:245 catches, and the buffer keeps its text.
- The 4300-digit cap on integer text is CPython's default since 3.11 (`sys.int_info.default_max_str_digits`). It can be changed at start-up; the model uses the default.
- `0` raised to a negative power is modelled as a failure. Decimal would return `Infinity`, and `int(Infinity)` then raises unless a later step hides it.
- Python expression forms outside `+ - * / **`, unary signs and parentheses are modelled as failures, even where `eval` would accept them: `//`, comparisons, keywords such as `True`, string literals and attribute access.
- Lexer.Lex: line breaks, backslash continuations and `#` comments are refused. Python's tokenizer ignores a line break inside parentheses or at either end of the text, so `1\n` and `(1+\n2)` evaluate, and it skips everything after `#`.
- Literals.Scan: `\d` is taken as the ASCII digits `0-9`. Python's `re` matches the decimal digits of every script, and `Decimal()` reads them, so `٣+1` evaluates to 4 in the source and fails in the model.
- Engine.ForeignCharacterFails: a statement about the modelled subset. Through the forms left out above, a buffer holding such a character can still evaluate in the source: `decimal.Decimal(True)` shows 1.
- Engine.Calculate: Decimal overflow is not modelled. With the default context (`Emax` 999999), an intermediate result of magnitude 10^1000000 or more raises `Overflow`. So `10^1000000/10^999999` shows `Error` in the source and 10 in the model. An integral final result that large fails in the model too, at the 4300-digit cap.
- Engine.Calculate: Python's parser and compiler limits are not modelled. CPython refuses more than 200 open parentheses at once ("too many nested parentheses"), and the `decimal.Decimal(` wrapper adds one level. So 200 `(`, then `1`, then 200 `)` shows `Error` in the source and `1` in the model; 199 of each shows `1` in both. Much deeper nesting also fails in the source and evaluates in the model: ten thousand unary minus signs overflow the parser's stack, whose `MemoryError` Zenth.py:285 catches like any other exception.
- The sin, cos, tan, log and ln keys in both files, and the float `sqrt` of the scientific calculator, are not modelled: they are floating point.
- The scientific calculator's float result is the `FloatEval` parameter. Only the rewrite, the history entry and the error path are modelled.
- The history window's listbox, notifications, clipboard, themes, layout, sidebar, the unit converter and multi-window handling are left out: they are UI only.
- Tab widgets are pages with ids. The rename dialog is its answer (`Option<string>`), and the Ctrl-Tab preview window is a flag.
- Scientific.SciCloseTab and ZenthSession.CloseTab do not model the case where no tab is selected while tabs exist. Tk never produces that state, and `Valid` excludes it.

=== FILE: display.dfy ===
/** How a result is shown: `result.normalize()`, then an integral value as
    `f"{int(v):,}"` and any other value as `str(v)`. */
module Display {
  import opened Wrappers
  import opened Text
  import opened Grouping
  import opened Literals
  import opened Evaluator

  /** `decimal.getcontext().prec`. */
  const PRECISION: nat := 100

  /** The most digits after the point a finite Decimal can have at this
      precision: `-Etiny`, with `Etiny = Emin - prec + 1` and the default
      `Emin = -999999`. */
  const MAX_SCALE: nat := 999999 + PRECISION - 1

  function Zeros(n: nat): (z: string)
    ensures |z| == n && AllDigits(z) && ValueOf(z) == 0
  {
    if n == 0 then []
    else
      var z := Zeros(n - 1) + "0";
      assert z[..|z| - 1] == Zeros(n - 1);
      z
  }

  /** Zeros in front do not change what digits read as. */
  lemma LeadingZeros(n: nat, d: string)
    requires AllDigits(d)
    ensures AllDigits(Zeros(n) + d) && ValueOf(Zeros(n) + d) == ValueOf(d)
  {
    ValueOfAppend(Zeros(n), d);
  }

  lemma {:induction false} MantissaDigits(d: string)
    requires AllDigits(d)
    ensures Mantissa(d) == d
  {
    if d != [] {
      MantissaDigits(d[1..]);
      assert d == [d[0]] + d[1..];
    }
  }

  lemma {:induction false} MantissaAfterPoint(b: string)
    requires AllDigits(b)
    ensures Mantissa("." + b) == b
  {
    assert ("." + b)[1..] == b;
    MantissaDigits(b);
  }

  /** Digits, a point, digits: the point is dropped from the mantissa and
      the scale counts the digits after it. */
  lemma {:induction false} PointText(a: string, b: string)
    requires AllDigits(a) && AllDigits(b)
    ensures forall i :: 0 <= i < |a + "." + b| ==> IsDigit((a + "." + b)[i]) || (a + "." + b)[i] == '.'
    ensures Mantissa(a + "." + b) == a + b
    ensures Scale(a + "." + b) == |b|
    ensures |a| + |b| > 0 ==> IsLiteral(a + "." + b)
  {
    var t := a + "." + b;
    assert forall i :: 0 <= i < |t| ==> (i == |a| <==> t[i] == '.') && (IsDigit(t[i]) || t[i] == '.') by {
      forall i | 0 <= i < |t| ensures (i == |a| <==> t[i] == '.') && (IsDigit(t[i]) || t[i] == '.') {
        if i < |a| { assert t[i] == a[i]; } else if i > |a| { assert t[i] == b[i - |a| - 1]; }
      }
    }
    if a == [] {
      assert t == "." + b;
      MantissaAfterPoint(b);
    } else {
      assert t[1..] == a[1..] + "." + b;
      PointText(a[1..], b);
      assert a == [a[0]] + a[1..];
    }
    if |a| + |b| > 0 {
      if |a| > 0 { assert IsDigit(t[0]); } else { assert IsDigit(t[|a| + 1]); }
    }
  }

  /** `0.` then zeros then the digits: a literal worth the digits with the
      point moved left past the zeros and the digits. */
  lemma ZeroPointText(digits: string, b: string)
    requires AllDigits(digits) && AllDigits(b) && ValueOf("0" + b) == ValueOf(digits)
    ensures IsLiteral("0" + "." + b)
    ensures LiteralValue("0" + "." + b) == Unshift(ValueOf(digits) as real, |b|)
  {
    PointValue("0", b);
  }

  /** Digits, a point, digits: a literal worth all the digits with the
      point moved left past the second group. */
  lemma PointValue(a: string, b: string)
    requires AllDigits(a) && AllDigits(b) && |a| + |b| > 0
    ensures IsLiteral(a + "." + b)
    ensures LiteralValue(a + "." + b) == Unshift(ValueOf(a + b) as real, |b|)
  {
    PointText(a, b);
    LiteralValueFrom(a + "." + b, ValueOf(a + b), |b|);
  }

  lemma LiteralValueFrom(t: string, m: nat, k: nat)
    requires IsLiteral(t) && ValueOf(Mantissa(t)) == m && Scale(t) == k
    ensures LiteralValue(t) == Unshift(m as real, k)
  {
  }

  lemma ZeroPrefix(b: string)
    requires AllDigits(b)
    ensures AllDigits("0" + b) && ValueOf("0" + b) == ValueOf(b)
  {
    ValueOfAppend("0", b);
    assert ValueOf("0") == 0 by { assert "0"[..0] == []; }
  }

  /** The digits with a point inserted after the first `k`: a literal worth
      the digits shifted right by the rest. */
  lemma SplitPlainText(digits: string, k: nat)
    requires AllDigits(digits) && 0 < k < |digits|
    ensures IsLiteral(digits[..k] + "." + digits[k..])
    ensures LiteralValue(digits[..k] + "." + digits[k..])
      == Unshift(ValueOf(digits) as real, |digits| - k)
  {
    var a, b := digits[..k], digits[k..];
    assert AllDigits(a) && AllDigits(b) by {
      DigitsSlice(digits, 0, k);
      DigitsSlice(digits, k, |digits|);
    }
    PointValue(a, b);
    assert ValueOf(a + b) == ValueOf(digits) by {
      assert a + b == digits;
    }
  }

  lemma DigitsSlice(d: string, i: nat, j: nat)
    requires AllDigits(d) && i <= j <= |d|
    ensures AllDigits(d[i..j])
  {
    forall k | 0 <= k < j - i ensures IsDigit(d[i..j][k]) {
      assert d[i..j][k] == d[i + k];
    }
  }

  /** `str()` of a normalised Decimal without its sign, given the
      coefficient's digits and a negative exponent. Plain notation when the
      point lands no more than six places left of the first digit,
      scientific notation with one digit before the point otherwise. In
      plain notation the text is a literal worth the coefficient scaled by
      the exponent; scientific notation carries an exponent marker. */
  function UnsignedText(digits: string, exp: int): (t: string)
    requires |digits| > 0 && AllDigits(digits) && exp < 0
    ensures exp + |digits| > -6 ==>
      IsLiteral(t) && LiteralValue(t) == Unshift(ValueOf(digits) as real, -exp)
    ensures exp + |digits| <= -6 ==> 'E' in t
  {
    var leftDigits := exp + |digits|;
    if leftDigits > -6 then
      if leftDigits <= 0 then
        var b := Zeros(-leftDigits) + digits;
        assert AllDigits(b) && ValueOf("0" + b) == ValueOf(digits) by {
          LeadingZeros(-leftDigits, digits);
          ZeroPrefix(b);
        }
        ZeroPointText(digits, b);
        "0" + "." + b
      else
        SplitPlainText(digits, leftDigits);
        digits[..leftDigits] + "." + digits[leftDigits..]
    else
      var e := DigitsOf(1 - leftDigits);
      var t := digits[..1] + (if |digits| > 1 then "." + digits[1..] else "") + "E-" + e;
      assert t[|t| - |e| - 2] == 'E';
      t
  }

  /** `str()` of a normalised non-integral Decimal. */
  function DecimalText(negative: bool, digits: string, exp: int): string
    requires |digits| > 0 && AllDigits(digits) && exp < 0
  {
    (if negative then "-" else "") + UnsignedText(digits, exp)
  }

  /** `x` with its point moved `k` places right is a whole number. */
  predicate IntegralAt(x: real, k: nat)
  {
    IsIntegral(Shift(x, k))
  }

  /** The least scale from `k` up to `MAX_SCALE` at which `x` with its
      point moved is a whole number. */
  function LeastScale(x: real, k: nat): (r: Option<nat>)
    ensures r.Some? ==> k <= r.value <= MAX_SCALE && IntegralAt(x, r.value)
    ensures r.Some? ==> forall i :: k <= i < r.value ==> !IntegralAt(x, i)
    ensures r.None? ==> forall i :: k <= i <= MAX_SCALE ==> !IntegralAt(x, i)
    decreases MAX_SCALE + 1 - k
  {
    if k > MAX_SCALE then None
    else if IntegralAt(x, k) then Some(k)
    else LeastScale(x, k + 1)
  }

  /** A finite Decimal: sign, coefficient digits and exponent. */
  datatype Coefficient = Coefficient(negative: bool, digits: string, exp: int)

  /** What the coefficient of `x` reads as, with its sign. */
  function Signed(c: Coefficient): real
    requires AllDigits(c.digits) && c.exp <= 0
  {
    var v := Unshift(ValueOf(c.digits) as real, -c.exp);
    if c.negative then -v else v
  }

  /** `x.normalize()` for a non-integral `x`: the coefficient without
      trailing zeros, when it fits in the working precision. */
  function Normalised(x: real): (r: Option<Coefficient>)
    requires !IsIntegral(x)
    ensures r.Some? ==>
      && 0 < |r.value.digits| <= PRECISION && AllDigits(r.value.digits) && r.value.exp < 0
      && r.value.digits[0] != '0' && r.value.digits[|r.value.digits| - 1] != '0'
      && r.value.negative == (x < 0.0)
      && Signed(r.value) == x
  {
    match LeastScale(x, 1)
    case None => None
    case Some(k) =>
      var c := Shift(x, k).Floor;
      var digits := DigitsOf(if c < 0 then -c else c);
      if |digits| <= PRECISION then
        assert k == 1 || !IntegralAt(x, k - 1);
        NormalisedValue(x, k, c, digits);
        Some(Coefficient(c < 0, digits, -(k as int)))
      else None
  }

  lemma NormalisedValue(x: real, k: nat, c: int, digits: string)
    requires !IsIntegral(x) && k >= 1
    requires k == 1 || !IntegralAt(x, k - 1)
    requires IntegralAt(x, k) && c == Shift(x, k).Floor
    requires digits == DigitsOf(if c < 0 then -c else c)
    ensures c != 0 && (c < 0 <==> x < 0.0)
    ensures digits[|digits| - 1] != '0'
    ensures Signed(Coefficient(c < 0, digits, -(k as int))) == x
  {
    ShiftSign(x, k);
    assert c as real == Shift(x, k);
    SignedOfShift(x, k, c, digits);
    assert !IsIntegral(Shift(x, k - 1));
    TrailingDigit(Shift(x, k - 1), c, digits);
  }

  /** A whole number that is ten times a number that is not whole does not
      end in 0. */
  lemma TrailingDigit(y: real, c: int, digits: string)
    requires !IsIntegral(y) && c as real == 10.0 * y
    requires digits == DigitsOf(if c < 0 then -c else c)
    ensures digits[|digits| - 1] != '0'
  {
    if digits[|digits| - 1] == '0' {
      var q := ValueOf(digits[..|digits| - 1]);
      assert (if c < 0 then -c else c) == q * 10;
      var signed: int := if c < 0 then -(q as int) else q;
      WholeIsIntegral(y, signed);
    }
  }

  /** Moving the point of the signed coefficient back gives `x`. */
  lemma SignedOfShift(x: real, k: nat, c: int, digits: string)
    requires c as real == Shift(x, k)
    requires digits == DigitsOf(if c < 0 then -c else c)
    ensures Signed(Coefficient(c < 0, digits, -(k as int))) == x
  {
    UnshiftShift(x, k);
    if c < 0 {
      UnshiftNegate((-c) as real, k);
    }
  }

  lemma WholeIsIntegral(y: real, n: int)
    requires y == n as real
    ensures IsIntegral(y)
  {
  }

  /** The point of `x`'s normalised text lands fewer than six places left
      of its first digit, so `str()` writes it without an exponent. */
  predicate PlainNotation(x: real)
  {
    && !IsIntegral(x)
    && Normalised(x).Some?
    && Normalised(x).value.exp + |Normalised(x).value.digits| > -6
  }

  /** `t` is a literal worth `x`, after a minus sign when `x` is negative. */
  predicate ReadsAs(t: string, x: real)
  {
    if x < 0.0 then |t| > 0 && t[0] == '-' && IsLiteral(t[1..]) && LiteralValue(t[1..]) == -x
    else IsLiteral(t) && LiteralValue(t) == x
  }

  /** The significant digits of a coefficient: its digits once the
      trailing zeros, which `normalize()` strips, are gone. */
  function SignificantDigits(m: nat): nat
  {
    if m > 0 && m % 10 == 0 then SignificantDigits(m / 10) else |DigitsOf(m)|
  }

  lemma {:induction false} SignificantWithin(m: nat)
    ensures SignificantDigits(m) <= |DigitsOf(m)|
  {
    if m > 0 && m % 10 == 0 {
      SignificantWithin(m / 10);
    }
  }

  /** Trailing zeros added to a nonzero number are not significant. */
  lemma {:induction false} SignificantScaled(q: nat, k: nat)
    requires q > 0
    ensures SignificantDigits(q * Pow10(k)) == SignificantDigits(q)
  {
    if k > 0 {
      var x := q * Pow10(k - 1);
      assert q * Pow10(k) == x * 10;
      assert (x * 10) % 10 == 0 && (x * 10) / 10 == x;
      SignificantScaled(q, k - 1);
    }
  }

  lemma {:induction false} BelowPow(m: nat)
    ensures m < Pow10(|DigitsOf(m)|)
  {
    if m >= 10 {
      BelowPow(m / 10);
    }
  }

  lemma {:induction false} Pow10Add(a: nat, b: nat)
    ensures Pow10(a + b) == Pow10(a) * Pow10(b)
  {
    if a > 0 {
      Pow10Add(a - 1, b);
    }
  }

  lemma {:induction false} Pow10Mono(a: nat, b: nat)
    requires a <= b
    ensures Pow10(a) <= Pow10(b)
  {
    if a < b {
      Pow10Mono(a, b - 1);
    }
  }

  lemma MulLe(a: nat, b: nat, c: nat)
    requires a <= b
    ensures a * c <= b * c
  {
  }

  /** How far apart two numbers are. */
  function Distance(a: int, b: int): nat
  {
    if a >= b then a - b else b - a
  }

  /** How many `p`s `m` rounds to, a tie going to the even count:
      Decimal's default `ROUND_HALF_EVEN`. That many `p`s is a multiple
      of `p` nearest to `m`, and the even one of two equally near. */
  function RoundedQuotient(m: nat, p: nat): (n: nat)
    requires p >= 1
    ensures m / p <= n <= m / p + 1
    ensures 2 * Distance(n * p, m) <= p
    ensures 2 * Distance(n * p, m) == p ==> n % 2 == 0
  {
    var q := m / p;
    var rem := m % p;
    DivMod(m, p);
    NearestMultiple(m, p, q, rem);
    if 2 * rem > p || (2 * rem == p && q % 2 == 1) then q + 1 else q
  }

  lemma DivMod(m: nat, p: nat)
    requires p >= 1
    ensures m == (m / p) * p + m % p && 0 <= m % p < p
  {
  }

  /** The two multiples of `p` around `m` lie the remainder below it and
      `p` less the remainder above it. */
  lemma NearestMultiple(m: nat, p: nat, q: nat, rem: nat)
    requires m == q * p + rem && rem < p
    ensures Distance(q * p, m) == rem
    ensures Distance((q + 1) * p, m) == p - rem
  {
    assert (q + 1) * p == q * p + p;
  }

  /** Multiplying by `p` and dividing by it again gives the number back. */
  lemma MulDiv(n: nat, p: nat)
    requires p >= 1
    ensures (n * p) / p == n
  {
    var x := n * p;
    DivMod(x, p);
    var q := x / p;
    if q < n {
      MulLe(q + 1, n, p);
      assert false;
    } else if q > n {
      assert false;
    }
  }

  /** Rounding a number below `10^(k+w)` to a multiple of `10^k` leaves at
      most `w` significant digits. */
  lemma RoundedFits(m: nat, k: nat, w: nat)
    requires w >= 1 && m < Pow10(k + w)
    ensures SignificantDigits(RoundedQuotient(m, Pow10(k)) * Pow10(k)) <= w
  {
    var p := Pow10(k);
    var n := RoundedQuotient(m, p);
    assert m / p < Pow10(w) by {
      Pow10Add(k, w);
      DivBelow(m, p, Pow10(w));
    }
    if n == 0 {
      assert n * p == 0;
    } else {
      SignificantScaled(n, k);
      if n < Pow10(w) {
        SignificantWithin(n);
        DigitsBelow(n, w);
      } else {
        assert n == 1 * Pow10(w);
        SignificantScaled(1, w);
      }
    }
  }

  lemma DivBelow(m: nat, p: nat, bound: nat)
    requires p >= 1 && m < bound * p
    ensures m / p < bound
  {
    DivMod(m, p);
    if m / p >= bound {
      MulLe(bound, m / p, p);
    }
  }

  /** How many trailing digits rounding to PRECISION significant digits
      gives up: none for a number with at most PRECISION digits. */
  function DroppedDigits(m: nat): nat
  {
    if |DigitsOf(m)| > PRECISION then |DigitsOf(m)| - PRECISION else 0
  }

  /** A positive number has its leading digit in the place `10^(d-1)`. */
  lemma {:induction false} AbovePow(m: nat)
    requires m > 0
    ensures Pow10(|DigitsOf(m)| - 1) <= m
  {
    if m >= 10 {
      AbovePow(m / 10);
    }
  }

  /** What `normalize()` leaves of a whole number's magnitude at the
      working precision: the number itself when its significant digits
      fit, and otherwise a nearest multiple of the power of ten that keeps
      PRECISION digits from the front, the even one on a tie. */
  function RoundMagnitude(m: nat): (r: nat)
    ensures SignificantDigits(m) <= PRECISION ==> r == m
    ensures SignificantDigits(r) <= PRECISION
    ensures SignificantDigits(m) > PRECISION ==>
      && |DigitsOf(m)| > PRECISION
      && r > 0
      && 2 * Distance(r, m) <= Pow10(DroppedDigits(m))
      && (2 * Distance(r, m) == Pow10(DroppedDigits(m)) ==> (r / Pow10(DroppedDigits(m))) % 2 == 0)
  {
    if SignificantDigits(m) <= PRECISION then m
    else
      SignificantWithin(m);
      var k := |DigitsOf(m)| - PRECISION;
      BelowPow(m);
      RoundedFits(m, k, PRECISION);
      RoundedAt(m, k);
      RoundedQuotient(m, Pow10(k)) * Pow10(k)
  }

  /** Rounding a positive number at a place below its leading digit: a
      positive multiple of the place, nearest to the number, and an even
      count of it on a tie. */
  lemma RoundedAt(m: nat, k: nat)
    requires m > 0 && k < |DigitsOf(m)|
    ensures var p := Pow10(k);
      var r := RoundedQuotient(m, p) * p;
      && r > 0
      && 2 * Distance(r, m) <= p
      && (2 * Distance(r, m) == p ==> (r / p) % 2 == 0)
  {
    var p := Pow10(k);
    var n := RoundedQuotient(m, p);
    assert (n * p) / p == n by { MulDiv(n, p); }
    assert n > 0 by { RoundedPositive(m, k); }
    assert n * p > 0 by { MulLe(1, n, p); }
  }

  /** Rounding at a place below the leading digit keeps a positive count. */
  lemma RoundedPositive(m: nat, k: nat)
    requires m > 0 && k < |DigitsOf(m)|
    ensures RoundedQuotient(m, Pow10(k)) > 0
  {
    var p := Pow10(k);
    assert p <= m by {
      AbovePow(m);
      Pow10Mono(k, |DigitsOf(m)| - 1);
    }
    assert m / p >= 1 by {
      DivMod(m, p);
    }
  }

  /** The whole number `normalize()` leaves of a whole number `n`: at most
      PRECISION significant digits, and `n` itself when it has no more;
      otherwise of the same sign, a nearest number with that many
      significant digits, and the one whose last kept digit is even on a
      tie. */
  function RoundToPrecision(n: int): (r: int)
    ensures SignificantDigits(if r < 0 then -r else r) <= PRECISION
    ensures SignificantDigits(if n < 0 then -n else n) <= PRECISION ==> r == n
    ensures var m := if n < 0 then -n else n;
      SignificantDigits(m) > PRECISION ==>
        && (r < 0 <==> n < 0)
        && 2 * Distance(r, n) <= Pow10(DroppedDigits(m))
        && (2 * Distance(r, n) == Pow10(DroppedDigits(m)) ==>
              ((if r < 0 then -r else r) / Pow10(DroppedDigits(m))) % 2 == 0)
  {
    if n < 0 then 0 - RoundMagnitude(-n) else RoundMagnitude(n)
  }

  /** `str(v)` of a non-integral result; a result too long for the working
      precision is rounded, and its text is taken from the oracle. */
  function FractionText(o: Oracle, x: real): string
    requires !IsIntegral(x)
  {
    match Normalised(x)
    case Some(c) => DecimalText(c.negative, c.digits, c.exp)
    case None => o.roundedText(x)
  }

  /** The text shown for a result: an integral value, rounded to the
      working precision, with thousands separators, which `int()` reads
      back once they are removed; any other value as `str()` writes it,
      which in plain notation is the value's literal and otherwise
      carries an exponent. `None` where `f"{int(v):,}"` raises because
      the integer has too many digits. */
  function Format(o: Oracle, x: real): (t: Option<string>)
    ensures t.None? <==> IsIntegral(x) && !FitsStrLimit(RoundToPrecision(x.Floor))
    ensures IsIntegral(x) && t.Some? ==> IntCall(Replace(t.value, ',', "")) == Some(RoundToPrecision(x.Floor))
    ensures PlainNotation(x) ==> t.Some? && ReadsAs(t.value, x)
    ensures !IsIntegral(x) && Normalised(x).Some? && !PlainNotation(x) ==> t.Some? && 'E' in t.value
  {
    if IsIntegral(x) then
      var n := RoundToPrecision(x.Floor);
      if FitsStrLimit(n) then
        GroupIntRoundTrip(n);
        Some(GroupInt(n))
      else None
    else
      var t := FractionText(o, x);
      assert PlainNotation(x) ==> ReadsAs(t, x) by {
        if PlainNotation(x) { PlainReadsAs(x); }
      }
      Some(t)
  }

  /** A shown whole number is its rounded value with separators. */
  lemma FormatWholeShown(o: Oracle, x: real)
    requires IsIntegral(x) && Format(o, x).Some?
    ensures var n := RoundToPrecision(x.Floor);
      Format(o, x).value == GroupInt(n) && FitsStrLimit(n)
  {
  }

  /** A whole number already at the working precision is shown as itself. */
  lemma FormatWhole(o: Oracle, n: int)
    requires SignificantDigits(if n < 0 then -n else n) <= PRECISION && FitsStrLimit(n)
    ensures Format(o, n as real) == Some(GroupInt(n))
  {
    assert IsIntegral(n as real) && (n as real).Floor == n;
  }

  lemma PlainReadsAs(x: real)
    requires PlainNotation(x)
    ensures ReadsAs(DecimalText(Normalised(x).value.negative, Normalised(x).value.digits, Normalised(x).value.exp), x)
  {
    var c := Normalised(x).value;
    var u := UnsignedText(c.digits, c.exp);
    var t := DecimalText(c.negative, c.digits, c.exp);
    var v := Unshift(ValueOf(c.digits) as real, -c.exp);
    assert LiteralValue(u) == v;
    if c.negative {
      assert t[1..] == u;
    } else {
      assert t == u;
    }
  }
}

=== FILE: editing.dfy ===
/** The editing keys both calculators share: DEL, `±` and appending the
    text of a plain key to the entry buffer. */
module Editing {

  /** DEL: `current_text[:-1]`, which is empty again on an empty buffer. */
  function DropLast(t: string): (r: string)
    ensures |t| > 0 ==> |r| == |t| - 1 && t == r + [t[|t| - 1]]
    ensures |t| == 0 ==> r == []
  {
    if t == [] then [] else t[..|t| - 1]
  }

  /** A plain key appends its text to the end of the buffer. */
  function Append(t: string, key: string): (r: string)
    ensures |r| == |t| + |key|
    ensures r[..|t|] == t && r[|t|..] == key
  {
    t + key
  }

  /** DEL takes back the last typed character and nothing else. */
  lemma DropLastUndoesAppend(t: string, c: char)
    ensures DropLast(Append(t, [c])) == t
  {
    assert (t + [c])[..|t|] == t;
  }

  /** `±`: a leading `-` is removed, otherwise one is put in front. */
  function ToggleSign(t: string): (r: string)
    ensures t == ['-'] + r || r == ['-'] + t
  {
    if |t| > 0 && t[0] == '-' then t[1..] else "-" + t
  }

  /** The buffer starts with two minus signs. */
  predicate DoubleMinus(t: string)
  {
    |t| >= 2 && t[0] == '-' && t[1] == '-'
  }

  /** Pressing `±` twice gives back the buffer, unless it starts with `--`. */
  lemma ToggleTwice(t: string)
    ensures ToggleSign(ToggleSign(t)) == t <==> !DoubleMinus(t)
  {
    if |t| > 0 && t[0] == '-' {
      if DoubleMinus(t) {
        assert |ToggleSign(ToggleSign(t))| == |t| - 2;
      } else {
        assert ToggleSign(t) == t[1..];
        assert ['-'] + t[1..] == t;
      }
    } else {
      assert ToggleSign(t) == ['-'] + t;
      assert (['-'] + t)[1..] == t;
    }
  }
}

=== FILE: engine.dfy ===
/** The `=` key of a calculator tab: the display text has its commas
    removed, is rewritten (`^`, `%`, `π`), has every numeric literal
    wrapped as a Decimal, and is evaluated; the result is normalised and
    shown, and `expression = result` goes to the history. Any exception
    shows `Error` instead. */
module Engine {
  import opened Wrappers
  import opened Text
  import opened Grouping
  import opened Rewrite
  import opened Literals
  import opened Lexer
  import opened Parser
  import opened Evaluator
  import opened Display

  /** A tab's two display lines: the entry line and the line above it that
      repeats the last evaluated expression. */
  datatype Calc = Calc(buffer: string, previous: string)

  /** The display after a key press, and the history line it logs, if any. */
  datatype Outcome = Outcome(screen: Calc, logged: Option<string>)

  const ERROR := "Error"

  /** What `eval` returns for the display text, before normalisation. */
  function Value(o: Oracle, buffer: string): Result<real>
  {
    var ps := Scan(Clean(StripCommas(buffer)));
    var ts :- Lex(ps);
    var e :- Parse(ts);
    Eval(o, e)
  }

  /** `=`: on success the entry line shows the formatted result, the line
      above shows the comma-free expression followed by ` =`, and the
      history gains `expression = result`; when evaluation or formatting
      raises, only the entry line changes, to `Error`. */
  function Calculate(o: Oracle, c: Calc): (r: Outcome)
    ensures r.logged.None? <==> Value(o, c.buffer).Err? || Format(o, Value(o, c.buffer).value).None?
    ensures r.logged.None? ==> r.screen == Calc(ERROR, c.previous)
    ensures r.logged.Some? ==>
      && Format(o, Value(o, c.buffer).value) == Some(r.screen.buffer)
      && r.screen.previous == StripCommas(c.buffer) + " ="
      && r.logged.value == StripCommas(c.buffer) + " = " + r.screen.buffer
      && ',' !in StripCommas(c.buffer)
  {
    match Value(o, c.buffer)
    case Err(_) => Outcome(Calc(ERROR, c.previous), None)
    case Ok(x) =>
      match Format(o, x)
      case None => Outcome(Calc(ERROR, c.previous), None)
      case Some(shown) =>
        var expr := StripCommas(c.buffer);
        Outcome(Calc(shown, expr + " ="), Some(expr + " = " + shown))
  }

  lemma ParseNumber(v: real)
    ensures Parse([Num(v)]) == Ok(Const(v))
  {
    TermNum(v, []);
    FromTerm([Num(v)] + [], Const(v), []);
    assert [Num(v)] + [] == [Num(v)];
  }

  lemma ParseNegatedNumber(v: real)
    ensures Parse([Minus, Num(v)]) == Ok(Unary(Neg, Const(v)))
  {
    var ts := [Minus, Num(v)];
    FactorNum(v, []);
    assert ts[1..] == [Num(v)] + [];
    assert ParseFactor(ts) == Ok(Parsed(Unary(Neg, Const(v)), []));
    FromFactor(ts, Unary(Neg, Const(v)), []);
  }

  /** A literal holds only digits and points. */
  lemma LiteralIsPlain(u: string)
    requires IsLiteral(u)
    ensures ',' !in u && '^' !in u && '%' !in u && PI_CHAR !in u && '-' !in u
  {
    assert forall i :: 0 <= i < |u| ==> IsDigit(u[i]) || u[i] == '.';
  }

  /** The pipeline, one stage at a time. */
  lemma ValueByStages(o: Oracle, buffer: string, ps: seq<Piece>, ts: seq<Token>, e: Expr)
    requires Scan(Clean(StripCommas(buffer))) == ps
    requires Lex(ps) == Ok(ts) && Parse(ts) == Ok(e)
    ensures Value(o, buffer) == Eval(o, e)
  {
  }

  /** Text with none of the characters the rewriting touches reaches the
      scanner unchanged. */
  lemma UntouchedText(t: string)
    requires ',' !in t && '^' !in t && '%' !in t && PI_CHAR !in t
    ensures Clean(StripCommas(t)) == t
  {
    CleanKeepsPlainText(t);
  }

  /** Text that reads as a number evaluates to that number. */
  lemma ValueOfReadable(o: Oracle, t: string, x: real)
    requires ReadsAs(t, x)
    ensures Value(o, t) == Ok(x)
  {
    if x < 0.0 {
      assert t == ['-'] + t[1..];
      NegativeReadable(o, t, t[1..], -x);
    } else {
      PositiveReadable(o, t);
    }
  }

  lemma PositiveReadable(o: Oracle, t: string)
    requires IsLiteral(t)
    ensures Value(o, t) == Ok(LiteralValue(t))
  {
    var v := LiteralValue(t);
    assert Value(o, t) == Eval(o, Const(v)) by {
      LiteralIsPlain(t);
      UntouchedText(t);
      ScanLiteral(t);
      LexSingle(t);
      ParseNumber(v);
      ValueByStages(o, t, [Lit(t)], [Num(v)], Const(v));
    }
  }

  lemma NegativeReadable(o: Oracle, t: string, u: string, v: real)
    requires IsLiteral(u) && t == ['-'] + u && v == LiteralValue(u)
    ensures Value(o, t) == Ok(-v)
  {
    assert Value(o, t) == Eval(o, Unary(Neg, Const(v))) by {
      ScanNegative(u);
      LexNegative(u);
      ParseNegatedNumber(v);
      ValueByStages(o, t, [Raw('-'), Lit(u)], [Minus, Num(v)], Unary(Neg, Const(v)));
    }
    EvalNegated(o, v);
  }

  lemma EvalNegated(o: Oracle, v: real)
    ensures Eval(o, Unary(Neg, Const(v))) == Ok(-v)
  {
  }

  /** A minus sign and a literal are scanned as the sign and the literal. */
  lemma ScanNegative(u: string)
    requires IsLiteral(u)
    ensures Scan(Clean(StripCommas(['-'] + u))) == [Raw('-'), Lit(u)]
  {
    var t := ['-'] + u;
    LiteralIsPlain(u);
    assert ',' !in t && '^' !in t && '%' !in t && PI_CHAR !in t;
    UntouchedText(t);
    ScanSignedLiteral('-', u);
  }

  /** ... and lexed as `-` and a number. */
  lemma LexNegative(u: string)
    requires IsLiteral(u)
    ensures WellCut([Raw('-'), Lit(u)])
    ensures Lex([Raw('-'), Lit(u)]) == Ok([Minus, Num(LiteralValue(u))])
  {
    var v := LiteralValue(u);
    LexSingle(u);
    LexOperator('-', [Lit(u)]);
    assert [Raw('-')] + [Lit(u)] == [Raw('-'), Lit(u)];
    assert [Minus] + [Num(v)] == [Minus, Num(v)];
  }

  lemma LexSingle(u: string)
    requires IsLiteral(u)
    ensures WellCut([Lit(u)])
    ensures Lex([Lit(u)]) == Ok([Num(LiteralValue(u))])
  {
    LexLiteral(u, []);
    assert [Lit(u)] + [] == [Lit(u)];
    assert [Num(LiteralValue(u))] + [] == [Num(LiteralValue(u))];
  }

  lemma {:induction false} ScaleOfDigits(d: string)
    requires AllDigits(d)
    ensures Scale(d) == 0
  {
    if d != [] {
      ScaleOfDigits(d[1..]);
    }
  }

  /** The digits of `n` are a literal worth `n`. */
  lemma DigitsReadAs(n: nat)
    ensures IsLiteral(DigitsOf(n)) && LiteralValue(DigitsOf(n)) == n as real
  {
    var d := DigitsOf(n);
    assert IsDigit(d[0]);
    MantissaDigits(d);
    ScaleOfDigits(d);
  }

  /** `str(n)` reads as `n`. */
  lemma IntStringReadsAs(n: int)
    ensures ReadsAs(IntString(n), n as real)
  {
    if n < 0 {
      DigitsReadAs(-n);
      assert IntString(n)[1..] == DigitsOf(-n);
    } else {
      DigitsReadAs(n);
      assert IntString(n) == DigitsOf(n);
    }
  }

  /** `int(x)` with thousands separators evaluates to `x`. */
  lemma ValueOfGrouped(o: Oracle, n: int)
    ensures Value(o, GroupInt(n)) == Ok(n as real)
  {
    var s := IntString(n);
    IntStringReadsAs(n);
    ValueOfReadable(o, s, n as real);
    assert ',' !in s by {
      if n < 0 { LiteralIsPlain(s[1..]); assert s == ['-'] + s[1..]; } else { LiteralIsPlain(s); }
    }
    assert StripCommas(GroupInt(n)) == StripCommas(s);
  }

  /** Pressing `=` on a shown result that is a whole number or a decimal in
      plain notation shows the same text again. */
  lemma EqualsIsIdempotent(o: Oracle, x: real, previous: string)
    requires IsIntegral(x) || PlainNotation(x)
    requires Format(o, x).Some?
    ensures Calculate(o, Calc(Format(o, x).value, previous)).screen.buffer == Format(o, x).value
  {
    if IsIntegral(x) {
      var n := RoundToPrecision(x.Floor);
      FormatWholeShown(o, x);
      WholeEqualsIdempotent(o, n, previous);
    } else {
      PlainEqualsIdempotent(o, x, previous);
    }
  }

  lemma PlainEqualsIdempotent(o: Oracle, x: real, previous: string)
    requires PlainNotation(x)
    ensures Format(o, x).Some?
    ensures Calculate(o, Calc(Format(o, x).value, previous)).screen.buffer == Format(o, x).value
  {
    var t := Format(o, x).value;
    ValueOfReadable(o, t, x);
    CalculateShows(o, Calc(t, previous), x, t);
  }

  lemma WholeEqualsIdempotent(o: Oracle, n: int, previous: string)
    requires SignificantDigits(if n < 0 then -n else n) <= PRECISION && FitsStrLimit(n)
    ensures Calculate(o, Calc(GroupInt(n), previous)).screen.buffer == GroupInt(n)
  {
    var t := GroupInt(n);
    assert Value(o, t) == Ok(n as real) by { ValueOfGrouped(o, n); }
    assert Format(o, n as real) == Some(t) by { FormatWhole(o, n); }
    CalculateShows(o, Calc(t, previous), n as real, t);
  }

  /** `=` shows `Error` on a value too long to format. */
  lemma CalculateUnformattable(o: Oracle, c: Calc, v: real)
    requires Value(o, c.buffer) == Ok(v) && Format(o, v).None?
    ensures Calculate(o, c).screen.buffer == ERROR
  {
  }

  /** `=` shows the formatted value of the buffer. */
  lemma CalculateShows(o: Oracle, c: Calc, v: real, t: string)
    requires Value(o, c.buffer) == Ok(v) && Format(o, v) == Some(t)
    ensures Calculate(o, c).screen.buffer == t
  {
  }

  /** A numeral written the way `str()` writes a natural number. */
  lemma Numeral(t: string, n: nat)
    requires t == DigitsOf(n)
    ensures IsLiteral(t) && LiteralValue(t) == n as real
  {
    DigitsReadAs(n);
  }

  /** An ASCII character that is neither arithmetic nor one the rewriting
      replaces makes `=` fail: names such as `sqrt` or `e`, `!`, `=` and so
      on are all errors. Line breaks, the backslash and `#` are left out: Python's
      tokenizer reads them as line structure and comments. */
  lemma ForeignCharacterFails(o: Oracle, buffer: string, d: char)
    requires d in buffer && d as int < 0x80 && !ArithmeticChar(d)
    requires d !in {',', '^', '%', '\n', '\r', '\\', '#'}
    ensures Value(o, buffer).Err?
  {
    var s := StripCommas(buffer);
    ReplaceKeeps(buffer, ',', "", d);
    ReplaceKeeps(s, '^', "**", d);
    ReplaceKeeps(Replace(s, '^', "**"), '%', "/100", d);
    ReplaceKeeps(Replace(Replace(s, '^', "**"), '%', "/100"), PI_CHAR, PI_TEXT, d);
    var ps := Scan(Clean(s));
    assert d in Unwrap(ps);
    LexOnlyArithmetic(ps);
    if Lex(ps).Ok? {
      ArithmeticText(ps);
      assert false;
    }
  }

  /** A literal with two points is cut into two literals side by side,
      which do not parse: `=` on `1.2.3` shows `Error`. */
  lemma TwoPointsFail(o: Oracle, c: Calc)
    requires c.buffer == "1.2.3"
    ensures Calculate(o, c) == Outcome(Calc(ERROR, c.previous), None)
  {
    TwoPointsValue(o);
  }

  lemma TwoPointsValue(o: Oracle)
    ensures Value(o, "1.2.3").Err?
  {
    var ts := TwoPointsLex();
    TwoNumbersFail(ts);
  }

  /** The tokens of `1.2.3`: two numbers and nothing between them. */
  lemma TwoPointsLex() returns (ts: seq<Token>)
    ensures Lex(Scan(Clean(StripCommas("1.2.3")))) == Ok(ts)
    ensures |ts| == 2 && ts[0].Num? && ts[1].Num?
  {
    CleanTwoPoints();
    var ps := TwoPointsPieces();
    ts := LexAdjacent(ps[0].text, ps[1].text);
  }

  lemma CleanTwoPoints()
    ensures Clean(StripCommas("1.2.3")) == "1.2.3"
  {
    UntouchedText("1.2.3");
  }

  lemma TwoPointsPieces() returns (ps: seq<Piece>)
    ensures ps == Scan("1.2.3") && |ps| == 2
    ensures ps == [Lit(ps[0].text), Lit(ps[1].text)]
    ensures IsLiteral(ps[0].text) && IsLiteral(ps[1].text)
  {
    ps := Scan("1.2.3");
    ScanTwoPoints();
  }

  /** Two literals side by side lex as two numbers. */
  lemma LexAdjacent(a: string, b: string) returns (ts: seq<Token>)
    requires IsLiteral(a) && IsLiteral(b)
    ensures WellCut([Lit(a), Lit(b)])
    ensures Lex([Lit(a), Lit(b)]) == Ok(ts)
    ensures ts == [Num(LiteralValue(a)), Num(LiteralValue(b))]
  {
    LexSingle(b);
    LexLiteral(a, [Lit(b)]);
    assert [Lit(a)] + [Lit(b)] == [Lit(a), Lit(b)];
    ts := [Num(LiteralValue(a))] + [Num(LiteralValue(b))];
  }

  /** Two numbers side by side do not parse. */
  lemma TwoNumbersFail(ts: seq<Token>)
    requires |ts| == 2 && ts[0].Num? && ts[1].Num?
    ensures Parse(ts).Err?
  {
    JuxtapositionFails(ts[0].value, [ts[1]]);
    assert [Num(ts[0].value)] + [ts[1]] == ts;
  }

  /** `=` on an empty entry line shows `Error` and logs nothing. */
  lemma EmptyBufferFails(o: Oracle, c: Calc)
    requires c.buffer == ""
    ensures Calculate(o, c) == Outcome(Calc(ERROR, c.previous), None)
  {
    assert Clean(StripCommas(c.buffer)) == "" by {
      UntouchedText(c.buffer);
    }
    assert Scan("") == [];
    assert Lex([]) == Ok([]);
    EmptyFails();
  }

  /** The text `a` then `c` then `b`, for two literals and a separator
      between them, is cut as literal, raw character, literal. */
  lemma ScanTwo(a: string, c: char, b: string)
    requires IsLiteral(a) && IsLiteral(b) && Separator(c)
    ensures Scan(a + [c] + b) == [Lit(a), Raw(c), Lit(b)]
  {
    assert Scan(b) == [Lit(b)] by {
      ScanLiteralThen(b, "");
      assert b + "" == b;
    }
    assert Scan(a + ([c] + b)) == [Lit(a), Raw(c)] + Scan(b) by {
      ScanLiteralSep(a, c, b);
    }
    ConsThree(Lit(a), Raw(c), Scan(b), Lit(b));
    SingleMiddle(a, c, b);
  }

  lemma ConsThree<T>(x: T, y: T, r: seq<T>, u: T)
    requires r == [u]
    ensures [x, y] + r == [x, y, u]
  {
  }

  lemma SingleMiddle<T>(a: seq<T>, c: T, b: seq<T>)
    ensures a + [c] + b == a + ([c] + b)
  {
  }

  /** ... and lexed as number, operator, number. */
  lemma LexTwo(a: string, c: char, b: string)
    requires IsLiteral(a) && IsLiteral(b)
    requires IsOperatorChar(c)
    ensures WellCut([Lit(a), Raw(c), Lit(b)])
    ensures Lex([Lit(a), Raw(c), Lit(b)])
         == Ok([Num(LiteralValue(a)), OperatorToken(c), Num(LiteralValue(b))])
  {
    LexSingle(b);
    LexOperator(c, [Lit(b)]);
    LexLiteral(a, [Raw(c), Lit(b)]);
    assert [Raw(c)] + [Lit(b)] == [Raw(c), Lit(b)];
    assert [Lit(a)] + [Raw(c), Lit(b)] == [Lit(a), Raw(c), Lit(b)];
    var va, vb := LiteralValue(a), LiteralValue(b);
    assert [OperatorToken(c)] + [Num(vb)] == [OperatorToken(c), Num(vb)];
    assert [Num(va)] + [OperatorToken(c), Num(vb)] == [Num(va), OperatorToken(c), Num(vb)];
  }

  /** Two literals around an operator character evaluate as that operation. */
  lemma ValueOfTwo(o: Oracle, a: string, c: char, b: string, op: BinOp)
    requires IsLiteral(a) && IsLiteral(b)
    requires IsOperatorChar(c) && OperatorToken(c) == OpToken(op) && Separator(c)
    ensures Value(o, a + [c] + b) == Eval(o, Binary(op, Const(LiteralValue(a)), Const(LiteralValue(b))))
  {
    var t := a + [c] + b;
    assert Clean(StripCommas(t)) == t by {
      LiteralIsPlain(a);
      LiteralIsPlain(b);
      assert ',' !in t && '^' !in t && '%' !in t && PI_CHAR !in t;
      UntouchedText(t);
    }
    ScanTwo(a, c, b);
    LexTwo(a, c, b);
    BinaryNums(LiteralValue(a), op, LiteralValue(b));
    ValueByStages(o, t, [Lit(a), Raw(c), Lit(b)], [Num(LiteralValue(a)), OpToken(op), Num(LiteralValue(b))],
      Binary(op, Const(LiteralValue(a)), Const(LiteralValue(b))));
  }

  /** `a/b` for literals fails when `b` is zero. */
  lemma DivisionByZeroText(o: Oracle, a: string, b: string)
    requires IsLiteral(a) && IsLiteral(b) && LiteralValue(b) == 0.0
    ensures Value(o, a + "/" + b).Err?
  {
    assert a + "/" + b == a + ['/'] + b;
    ValueOfTwo(o, a, '/', b, Div);
  }

  lemma Hundred()
    ensures IsLiteral("100") && LiteralValue("100") == 100.0
  {
    assert DigitsOf(100) == "100";
    DigitsReadAs(100);
  }

  /** A literal and a separator are cut off the front whatever follows. */
  lemma ScanLiteralSep(a: string, c: char, rest: string)
    requires IsLiteral(a) && Separator(c)
    ensures Scan(a + ([c] + rest)) == [Lit(a), Raw(c)] + Scan(rest)
  {
    var r := Scan(rest);
    assert Scan([c] + rest) == [Raw(c)] + r by { ScanRaw(c, rest); }
    assert Scan(a + ([c] + rest)) == [Lit(a)] + Scan([c] + rest) by { ScanLiteralThen(a, [c] + rest); }
    ConsTwo(Lit(a), Raw(c), r);
  }

  lemma ConsTwo<T>(x: T, y: T, r: seq<T>)
    ensures [x] + ([y] + r) == [x, y] + r
  {
  }

  /** Three literals cut and lexed as `a + b <op> h`. */
  lemma ScanThree(a: string, c: char, b: string, d: char, h: string)
    requires IsLiteral(a) && IsLiteral(b) && IsLiteral(h) && Separator(c) && Separator(d)
    ensures Scan(a + ([c] + (b + [d] + h))) == [Lit(a), Raw(c), Lit(b), Raw(d), Lit(h)]
  {
    var rest := b + [d] + h;
    assert Scan(rest) == [Lit(b), Raw(d), Lit(h)] by {
      ScanTwo(b, d, h);
    }
    assert Scan(a + ([c] + rest)) == [Lit(a), Raw(c)] + Scan(rest) by {
      ScanLiteralSep(a, c, rest);
    }
    ConsFive(Lit(a), Raw(c), Scan(rest), Lit(b), Raw(d), Lit(h));
  }

  lemma ConsFive<T>(x: T, y: T, r: seq<T>, u: T, v: T, w: T)
    requires r == [u, v, w]
    ensures [x, y] + r == [x, y, u, v, w]
  {
  }

  lemma LexThree(a: string, c: char, b: string, d: char, h: string)
    requires IsLiteral(a) && IsLiteral(b) && IsLiteral(h)
    requires IsOperatorChar(c) && IsOperatorChar(d) && c != '*' && c != '/'
    ensures Lex([Lit(a), Raw(c), Lit(b), Raw(d), Lit(h)])
         == Ok([Num(LiteralValue(a)), OperatorToken(c), Num(LiteralValue(b)), OperatorToken(d), Num(LiteralValue(h))])
  {
    var ps := [Lit(b), Raw(d), Lit(h)];
    var va, vb, vh := LiteralValue(a), LiteralValue(b), LiteralValue(h);
    var ts := [Num(vb), OperatorToken(d), Num(vh)];
    LexTwo(b, d, h);
    LexOperator(c, ps);
    LexLiteral(a, [Raw(c)] + ps);
    assert [Lit(a)] + ([Raw(c)] + ps) == [Lit(a), Raw(c), Lit(b), Raw(d), Lit(h)];
    assert [Num(va)] + ([OperatorToken(c)] + ts)
        == [Num(va), OperatorToken(c), Num(vb), OperatorToken(d), Num(vh)];
  }

  /** A buffer that cleans to `a+b/h`, where `h` reads as one hundred,
      adds the hundredth part of `b` to `a`. */
  lemma SumOfHundredth(o: Oracle, x: string, a: string, b: string, h: string, va: real, vb: real)
    requires IsLiteral(a) && IsLiteral(b) && IsLiteral(h) && LiteralValue(h) == 100.0
    requires va == LiteralValue(a) && vb == LiteralValue(b)
    requires Clean(StripCommas(x)) == a + (['+'] + (b + ['/'] + h))
    ensures Value(o, x) == Ok(va + vb / 100.0)
  {
    var ps := [Lit(a), Raw('+'), Lit(b), Raw('/'), Lit(h)];
    var ts := [Num(va), Plus, Num(vb), Slash, Num(100.0)];
    var e := Binary(Add, Const(va), Binary(Div, Const(vb), Const(100.0)));
    SumScan(x, a, b, h);
    SumLex(a, b, h, va, vb);
    SumParse(va, vb);
    ValueByStages(o, x, ps, ts, e);
    EvalSumOfHundredth(o, va, vb);
  }

  /** The tree of `a+b/100`. */
  lemma SumParse(va: real, vb: real)
    ensures Parse([Num(va), Plus, Num(vb), Slash, Num(100.0)])
         == Ok(Binary(Add, Const(va), Binary(Div, Const(vb), Const(100.0))))
  {
    ProductBindsTighterThanSum(va, vb, Div, 100.0);
  }

  lemma SumScan(x: string, a: string, b: string, h: string)
    requires IsLiteral(a) && IsLiteral(b) && IsLiteral(h)
    requires Clean(StripCommas(x)) == a + (['+'] + (b + ['/'] + h))
    ensures Scan(Clean(StripCommas(x))) == [Lit(a), Raw('+'), Lit(b), Raw('/'), Lit(h)]
  {
    ScanThree(a, '+', b, '/', h);
  }

  lemma SumLex(a: string, b: string, h: string, va: real, vb: real)
    requires IsLiteral(a) && IsLiteral(b) && IsLiteral(h) && LiteralValue(h) == 100.0
    requires va == LiteralValue(a) && vb == LiteralValue(b)
    ensures Lex([Lit(a), Raw('+'), Lit(b), Raw('/'), Lit(h)])
         == Ok([Num(va), Plus, Num(vb), Slash, Num(100.0)])
  {
    LexThree(a, '+', b, '/', h);
  }



  /** Texts that clean to the same expression have the same value. */
  lemma SameCleanText(o: Oracle, x: string, y: string)
    requires Clean(StripCommas(x)) == Clean(StripCommas(y))
    ensures Value(o, x) == Value(o, y)
  {
  }

  lemma Regroup(a: string, p: string, b: string, q: string, h: string)
    ensures a + p + b + (q + h) == a + (p + (b + q + h))
  {
  }

  lemma SlashHundred()
    ensures "/100" == ['/'] + "100"
  {
  }

  /** The text `a+b` of two literals has nothing to rewrite. */
  lemma PlainSum(a: string, b: string)
    requires IsLiteral(a) && IsLiteral(b)
    ensures Clean(a + "+" + b) == a + "+" + b
    ensures ',' !in a + "+" + b + "%"
  {
    var s := a + "+" + b;
    LiteralIsPlain(a);
    LiteralIsPlain(b);
    assert '^' !in s && '%' !in s && PI_CHAR !in s;
    CleanKeepsPlainText(s);
  }

  lemma CleanPercent(a: string, b: string)
    requires IsLiteral(a) && IsLiteral(b)
    ensures Clean(StripCommas(a + "+" + b + "%")) == a + (['+'] + (b + ['/'] + "100"))
  {
    PlainSum(a, b);
    PercentIsTextualDivision(a + "+" + b);
    SlashHundred();
    Regroup(a, ['+'], b, ['/'], "100");
  }

  /** `a+b%` evaluates as `a + b/100`: the percent sign divides only the
      number in front of it, not the sum, so `50+10%` is 50.1. */
  lemma PercentOfAddend(o: Oracle, a: string, b: string, va: real, vb: real)
    requires IsLiteral(a) && IsLiteral(b)
    requires va == LiteralValue(a) && vb == LiteralValue(b)
    ensures Value(o, a + "+" + b + "%") == Ok(va + vb / 100.0)
  {
    Hundred();
    CleanPercent(a, b);
    SumOfHundredth(o, a + "+" + b + "%", a, b, "100", va, vb);
  }

  lemma Regroup3(p: string, a: string, q: string, b: string)
    ensures p + a + q + b == p + (a + (q + b))
  {
  }

  lemma StarsFront(b: string)
    ensures "**" + b == ['*'] + (['*'] + b)
  {
  }

  /** In `-a^b` only the caret is rewritten, to the power operator. */
  lemma CleanPower(a: string, b: string)
    requires IsLiteral(a) && IsLiteral(b)
    ensures Clean(StripCommas(['-'] + (a + (['^'] + b)))) == ['-'] + (a + ("**" + b))
  {
    assert Clean(['^'] + b) == "**" + b by {
      LiteralIsPlain(b);
      CleanAppend(['^'], b);
      CleanChar('^');
      CleanKeepsPlainText(b);
    }
    assert Clean(a + (['^'] + b)) == a + ("**" + b) by {
      LiteralIsPlain(a);
      CleanAppend(a, ['^'] + b);
      CleanKeepsPlainText(a);
    }
    assert Clean(['-'] + (a + (['^'] + b))) == ['-'] + (a + ("**" + b)) by {
      CleanAppend(['-'], a + (['^'] + b));
      CleanChar('-');
    }
    assert ',' !in ['-'] + (a + (['^'] + b)) by {
      LiteralIsPlain(a);
      LiteralIsPlain(b);
    }
  }

  lemma ScanStars(b: string)
    requires IsLiteral(b)
    ensures Scan("**" + b) == [Raw('*'), Raw('*'), Lit(b)]
  {
    var s2 := ['*'] + b;
    assert Scan(b) == [Lit(b)] by {
      ScanLiteralThen(b, "");
      assert b + "" == b;
    }
    assert Scan(s2) == [Raw('*')] + Scan(b) by { ScanRaw('*', b); }
    assert Scan(['*'] + s2) == [Raw('*')] + Scan(s2) by { ScanRaw('*', s2); }
    ConsTwo(Raw('*'), Raw('*'), Scan(b));
    ConsThree(Raw('*'), Raw('*'), Scan(b), Lit(b));
    StarsFront(b);
  }
  lemma ScanNegatedPower(a: string, b: string)
    requires IsLiteral(a) && IsLiteral(b)
    ensures Scan(['-'] + (a + ("**" + b))) == [Raw('-'), Lit(a), Raw('*'), Raw('*'), Lit(b)]
  {
    var s3 := "**" + b;
    assert Scan(s3) == [Raw('*'), Raw('*'), Lit(b)] by { ScanStars(b); }
    assert Scan(a + s3) == [Lit(a)] + Scan(s3) by { ScanLiteralThen(a, s3); }
    assert Scan(['-'] + (a + s3)) == [Raw('-')] + Scan(a + s3) by { ScanRaw('-', a + s3); }
    ConsTwo(Raw('-'), Lit(a), Scan(s3));
    ConsFive(Raw('-'), Lit(a), Scan(s3), Raw('*'), Raw('*'), Lit(b));
  }

  lemma LexNegatedPower(a: string, b: string)
    requires IsLiteral(a) && IsLiteral(b)
    ensures Lex([Raw('-'), Lit(a), Raw('*'), Raw('*'), Lit(b)])
         == Ok([Minus, Num(LiteralValue(a)), Power, Num(LiteralValue(b))])
  {
    var va, vb := LiteralValue(a), LiteralValue(b);
    var ps := [Lit(a), Raw('*'), Raw('*'), Lit(b)];
    LexSingle(b);
    LexPower([Lit(b)]);
    assert [Raw('*'), Raw('*')] + [Lit(b)] == ps[1..];
    LexLiteral(a, ps[1..]);
    assert [Lit(a)] + ps[1..] == ps;
    LexOperator('-', ps);
    assert [Raw('-')] + ps == [Raw('-'), Lit(a), Raw('*'), Raw('*'), Lit(b)];
    assert [Minus] + ([Num(va)] + ([Power] + [Num(vb)])) == [Minus, Num(va), Power, Num(vb)];
  }

  /** `-a^b` evaluates as `-(a**b)`: the sign applies after the power, so
      `-2^2` is -4. */
  lemma NegatedPowerText(o: Oracle, a: string, b: string)
    requires IsLiteral(a) && IsLiteral(b)
    ensures Value(o, "-" + a + "^" + b)
         == Eval(o, Unary(Neg, Binary(Pow, Const(LiteralValue(a)), Const(LiteralValue(b)))))
  {
    var va, vb := LiteralValue(a), LiteralValue(b);
    var x := "-" + a + "^" + b;
    assert x == ['-'] + (a + (['^'] + b)) by { Regroup3("-", a, "^", b); }
    CleanPower(a, b);
    ScanNegatedPower(a, b);
    LexNegatedPower(a, b);
    NegationBindsLooserThanPower(va, vb);
    ValueByStages(o, x, [Raw('-'), Lit(a), Raw('*'), Raw('*'), Lit(b)],
      [Minus, Num(va), Power, Num(vb)], Unary(Neg, Binary(Pow, Const(va), Const(vb))));
  }
}

=== FILE: evaluator.dfy ===
/** Evaluation of the parsed expression the way Python's `decimal.Decimal`
    arithmetic does it, on exact rationals. Rounding to the 100-digit
    working precision is not modelled; the few `decimal` results that are
    inherently inexact come from an `Oracle`. */
module Evaluator {
  import opened Wrappers
  import opened Parser

  /** Values Python's `decimal` module computes that the model takes as
      given rather than reproducing digit by digit. */
  datatype Oracle = Oracle(
    /** `x ** y` for `x > 0` and a non-integral `y`, rounded to the working
        precision; `None` when it overflows. */
    fracPower: (real, real) -> Option<real>,
    /** `str()` of a normalised non-integral result that does not fit in
        the working precision and so was rounded. */
    roundedText: real -> string,
    /** `str(decimal.Decimal(t).sqrt())` for a buffer `t` that `Decimal()`
        reads as a number that is not negative. */
    sqrtText: string -> string)

  predicate IsIntegral(x: real) { x == x.Floor as real }

  function IntPow(x: real, n: nat): (r: real)
    ensures x != 0.0 ==> r != 0.0
  {
    if n == 0 then 1.0 else x * IntPow(x, n - 1)
  }

  /** `x ** y` on two Decimals. `0 ** 0` and a negative base with a
      non-integral exponent raise `InvalidOperation`; `0 ** y` with `y < 0`
      is an infinity, which the display step cannot turn into an integer. */
  function Power(o: Oracle, x: real, y: real): Result<real>
  {
    if y == 0.0 then
      if x == 0.0 then Err(InvalidOperation) else Ok(1.0)
    else if x == 0.0 then
      if y > 0.0 then Ok(0.0) else Err(Overflow)
    else if IsIntegral(y) then
      if y > 0.0 then Ok(IntPow(x, y.Floor as nat))
      else Ok(1.0 / IntPow(x, (-y).Floor as nat))
    else if x < 0.0 then Err(InvalidOperation)
    else
      match o.fracPower(x, y)
      case Some(v) => Ok(v)
      case None => Err(Overflow)
  }

  /** Post-order evaluation: operands first, then the operator. */
  function Eval(o: Oracle, e: Expr): Result<real>
  {
    match e
    case Const(v) => Ok(v)
    case Unary(op, a) =>
      var x :- Eval(o, a);
      Ok(if op == Neg then -x else x)
    case Binary(op, a, b) =>
      var x :- Eval(o, a);
      var y :- Eval(o, b);
      match op
      case Add => Ok(x + y)
      case Sub => Ok(x - y)
      case Mul => Ok(x * y)
      case Div => if y == 0.0 then Err(DivisionByZero) else Ok(x / y)
      case Pow => Power(o, x, y)
  }

  /** Dividing by anything that evaluates to zero fails, whatever the
      dividend. */
  lemma DivisionByZeroFails(o: Oracle, a: Expr, b: Expr)
    requires Eval(o, b) == Ok(0.0)
    ensures Eval(o, Binary(Div, a, b)).Err?
  {
  }

  /** `a + b/100` adds the hundredth part of `b` to `a`. */
  lemma EvalSumOfHundredth(o: Oracle, a: real, b: real)
    ensures Eval(o, Binary(Add, Const(a), Binary(Div, Const(b), Const(100.0)))) == Ok(a + b / 100.0)
  {
    assert Eval(o, Binary(Div, Const(b), Const(100.0))) == Ok(b / 100.0);
  }

  /** Powers with integral exponents add up: x^m * x^n == x^(m+n). */
  lemma {:induction false} IntPowAdd(x: real, m: nat, n: nat)
    ensures IntPow(x, m + n) == IntPow(x, m) * IntPow(x, n)
  {
    if m > 0 {
      IntPowAdd(x, m - 1, n);
      assert m + n - 1 == (m - 1) + n;
    }
  }

  /** `x ** -n` is the reciprocal of `x ** n` for a non-zero base: a
      negative integral exponent divides instead of multiplying. */
  lemma PowerReciprocal(o: Oracle, x: real, n: nat)
    requires x != 0.0 && n >= 1
    ensures Power(o, x, n as real).Ok? && Power(o, x, -(n as real)).Ok?
    ensures Power(o, x, n as real).value * Power(o, x, -(n as real)).value == 1.0
  {
    PowerOfNat(o, x, n);
    var p := IntPow(x, n);
    assert p != 0.0;
  }

  /** Exponents add under `**` for positive integers, as in exact
      arithmetic. */
  lemma PowerOfSum(o: Oracle, x: real, m: nat, n: nat, p: real, q: real)
    requires x != 0.0 && m >= 1 && n >= 1
    requires Power(o, x, m as real) == Ok(p) && Power(o, x, n as real) == Ok(q)
    ensures Power(o, x, (m + n) as real) == Ok(p * q)
  {
    assert p == IntPow(x, m) by { PowerOfNat(o, x, m); }
    assert q == IntPow(x, n) by { PowerOfNat(o, x, n); }
    assert Power(o, x, (m + n) as real) == Ok(IntPow(x, m + n)) by { PowerOfNat(o, x, m + n); }
    assert IntPow(x, m + n) == p * q by { IntPowAdd(x, m, n); }
  }

  /** An integral exponent `n` or `-n` multiplies or divides by x^n. */
  lemma PowerOfNat(o: Oracle, x: real, n: nat)
    requires x != 0.0 && n >= 1
    ensures Power(o, x, n as real) == Ok(IntPow(x, n))
    ensures Power(o, x, -(n as real)) == Ok(1.0 / IntPow(x, n))
  {
    var y := n as real;
    assert y.Floor == n;
    assert IsIntegral(y);
    assert (-y).Floor == -(n as int);
    assert IsIntegral(-y);
    assert (-(-y)) == y;
  }

  /** The evaluation of a parenthesised print of a tree is the evaluation of
      the tree: parsing the print gives the tree back. */
  lemma EvalAfterParseOfShow(o: Oracle, e: Expr)
    ensures Parse(Show(e)).Ok? && Eval(o, Parse(Show(e)).value) == Eval(o, e)
  {
    ParseOfShow(e);
  }
}

=== FILE: factorial.dfy ===
/** The exact big-integer factorial behind the `x!` key: a plain product
    loop over Python's unbounded integers. */
module Factorial {

  /** The reference definition: n! = 1 * 2 * ... * n, with 0! = 1. */
  function Fact(n: nat): nat
  {
    if n == 0 then 1 else n * Fact(n - 1)
  }

  /** A factorial is never zero, so the product loop never collapses. */
  lemma {:induction false} FactPositive(n: nat)
    ensures Fact(n) >= 1
  {
    if n > 0 {
      FactPositive(n - 1);
    }
  }

  /** Factorials grow: a larger argument never gives a smaller product. */
  lemma {:induction false} FactMonotone(m: nat, n: nat)
    requires m <= n
    ensures Fact(m) <= Fact(n)
  {
    if m < n {
      FactMonotone(m, n - 1);
      FactPositive(n - 1);
      assert Fact(n) == n * Fact(n - 1) >= Fact(n - 1);
    }
  }

  /** n <= n!: the product is at least its last factor. */
  lemma FactAtLeast(n: nat)
    ensures n <= Fact(n)
  {
    if n > 0 {
      FactPositive(n - 1);
      assert n * Fact(n - 1) >= n * 1;
    }
  }

  /** `res = 1; for i in range(2, n + 1): res *= i` computes n!; 0 and 1
      both leave the product at 1. */
  method ProductLoop(n: nat) returns (res: nat)
    ensures res == Fact(n)
  {
    res := 1;
    var i := 2;
    while i <= n
      invariant 2 <= i && (i <= n + 1 || i == 2)
      invariant res == Fact(i - 1)
    {
      res := res * i;
      i := i + 1;
    }
    if n < 2 {
      assert Fact(1) == 1;
    }
  }

  /** 7! = 5040 is the first factorial with four digits. */
  lemma FactSevenAtLeastThousand(n: nat)
    requires n >= 7
    ensures Fact(n) >= 1000
  {
    assert Fact(7) == 5040;
    FactMonotone(7, n);
  }

  /** 6! = 720 still has three digits. */
  lemma FactSixBelowThousand(n: nat)
    requires n <= 6
    ensures Fact(n) < 1000
  {
    assert Fact(6) == 720;
    FactMonotone(n, 6);
  }
}

=== FILE: grouping.dfy ===
/** The `,` thousands separator of Python's format mini-language, used by
    the calculator to show integral results (`f"{n:,}"`). */
module Grouping {
  import opened Wrappers
  import opened Text

  /** `g` is a run of digit groups separated by commas: counted from the
      right, every fourth character is a comma and every other one a digit,
      and the first group is not empty. So the first group has 1-3 digits
      and every later group exactly 3. */
  predicate WellGrouped(g: string)
  {
    && |g| % 4 != 0
    && (forall i :: 0 <= i < |g| ==> (g[i] == ',' <==> (|g| - i) % 4 == 0))
    && (forall i :: 0 <= i < |g| ==> g[i] != ',' ==> IsDigit(g[i]))
  }

  /** Inserts a comma before every third digit counted from the right. */
  function Group(d: string): (g: string)
    requires |d| > 0 && AllDigits(d)
    ensures WellGrouped(g)
    ensures Replace(g, ',', "") == d
    ensures g[0] == d[0]
  {
    if |d| <= 3 then
      NoCommaInDigits(d);
      d
    else
      var h := Group(d[..|d| - 3]);
      var tail := d[|d| - 3..];
      GroupStepShape(h, tail);
      GroupStepText(h, d[..|d| - 3], tail);
      assert d[..|d| - 3] + tail == d;
      h + [','] + tail
  }

  lemma GroupStepShape(h: string, tail: string)
    requires WellGrouped(h) && |tail| == 3 && AllDigits(tail)
    ensures WellGrouped(h + [','] + tail)
  {
    var g := h + [','] + tail;
    forall i | 0 <= i < |g|
      ensures g[i] == ',' <==> (|g| - i) % 4 == 0
      ensures g[i] != ',' ==> IsDigit(g[i])
    {
      if i < |h| {
        assert g[i] == h[i];
        assert |g| - i == (|h| - i) + 4;
      } else if i > |h| {
        assert g[i] == tail[i - |h| - 1];
      }
    }
  }

  lemma GroupStepText(h: string, front: string, tail: string)
    requires Replace(h, ',', "") == front && AllDigits(tail)
    ensures Replace(h + [','] + tail, ',', "") == front + tail
  {
    var x := [','] + tail;
    ReplaceAppend([','], tail, ',', "");
    assert Replace([','], ',', "") == [];
    NoCommaInDigits(tail);
    assert Replace(x, ',', "") == tail;
    ReplaceAppend(h, x, ',', "");
    assert h + [','] + tail == h + x;
  }

  lemma NoCommaInDigits(d: string)
    requires AllDigits(d)
    ensures ',' !in d
  {
    assert forall i :: 0 <= i < |d| ==> d[i] != ',';
  }

  /** Python's `f"{n:,}"`: a minus sign for negative numbers, then the
      grouped digits of the magnitude. Python raises instead when `n` has
      more digits than `FitsStrLimit` allows; the callers check that. */
  function GroupInt(n: int): (g: string)
    ensures |g| > 0
    ensures n < 0 ==> g[0] == '-' && WellGrouped(g[1..])
    ensures n >= 0 ==> WellGrouped(g)
    ensures Replace(g, ',', "") == IntString(n)
  {
    if n < 0 then
      var h := Group(DigitsOf(-n));
      SignedGroupText(h, DigitsOf(-n));
      assert IntString(n) == "-" + DigitsOf(-n);
      assert ("-" + h)[1..] == h;
      "-" + h
    else
      assert IntString(n) == "" + DigitsOf(n);
      assert "" + DigitsOf(n) == DigitsOf(n);
      Group(DigitsOf(n))
  }

  /** A minus sign in front of the grouped digits is kept when the commas go. */
  lemma SignedGroupText(h: string, d: string)
    requires Replace(h, ',', "") == d
    ensures Replace("-" + h, ',', "") == "-" + d
  {
    ReplaceAppend("-", h, ',', "");
    assert Replace("-", ',', "") == "-";
  }

  /** Deleting the separators and reading the text back with `int()` gives
      the number that was formatted. */
  lemma GroupIntRoundTrip(n: int)
    ensures IntText(Replace(GroupInt(n), ',', "")) == Some(n)
    ensures FitsStrLimit(n) ==> IntCall(Replace(GroupInt(n), ',', "")) == Some(n)
  {
    IntTextOfIntString(n);
    if FitsStrLimit(n) {
      IntCallOfIntString(n);
    }
  }

  /** Distinct numbers are shown as distinct texts. */
  lemma GroupIntInjective(m: int, n: int)
    requires GroupInt(m) == GroupInt(n)
    ensures m == n
  {
    GroupIntRoundTrip(m);
    GroupIntRoundTrip(n);
  }

  /** A number of at least 10^k has more than k digits. */
  lemma {:induction false} DigitsAtLeast(n: nat, k: nat)
    requires n >= Pow10(k)
    ensures |DigitsOf(n)| > k
  {
    if k > 0 {
      assert n >= 10 * Pow10(k - 1);
      DigitsAtLeast(n / 10, k - 1);
    }
  }

  /** A number below 10^k, k >= 1, has at most k digits. */
  lemma {:induction false} DigitsBelow(n: nat, k: nat)
    requires k >= 1 && n < Pow10(k)
    ensures |DigitsOf(n)| <= k
  {
    if n >= 10 {
      assert k >= 2;
      DigitsBelow(n / 10, k - 1);
    }
  }

  /** From 1,000 on, the grouped text holds a comma. */
  lemma LargeGroupHasComma(n: nat)
    requires n >= 1000
    ensures ',' in GroupInt(n)
  {
    assert Pow10(3) == 1000;
    DigitsAtLeast(n, 3);
    var d := DigitsOf(n);
    var g := Group(d);
    assert g == Group(d[..|d| - 3]) + [','] + d[|d| - 3..];
    assert g[|Group(d[..|d| - 3])|] == ',';
  }

  /** Below 1,000 the grouped text is the plain `str(n)`. */
  lemma SmallGroupIsPlain(n: nat)
    requires n < 1000
    ensures GroupInt(n) == IntString(n)
  {
    assert Pow10(3) == 1000;
    DigitsBelow(n, 3);
  }
}

=== FILE: lexer.dfy ===
/** How Python's tokenizer reads the scanned text, restricted to the
    arithmetic that can succeed: number literals (already wrapped as
    `decimal.Decimal('…')`), `+ - * / **`, parentheses and blanks. Every
    other character makes `eval` raise. */
module Lexer {
  import opened Wrappers
  import opened Text
  import opened Literals

  datatype Token = Num(value: real) | Plus | Minus | Star | Slash | Power | LParen | RParen

  /** Blanks Python's tokenizer skips between tokens. */
  predicate IsBlank(c: char) { c == ' ' || c == '\t' || c == '\U{c}' }

  /** Characters a token of the modelled subset is made of. */
  predicate IsOperatorChar(c: char) { c in {'+', '-', '*', '/', '(', ')'} }

  /** Characters that start a Python name; `eval` raises `NameError` for
      every name but `decimal`. */
  predicate IsNameChar(c: char) { 'a' <= c <= 'z' || 'A' <= c <= 'Z' || c == '_' }

  /** Every raw character is a blank or an operator character. */
  predicate OnlyArithmetic(ps: seq<Piece>)
  {
    forall i :: 0 <= i < |ps| && ps[i].Raw? ==> IsBlank(ps[i].c) || IsOperatorChar(ps[i].c)
  }

  /** The characters an evaluable text is made of. */
  predicate ArithmeticChar(c: char)
  {
    IsDigit(c) || c == '.' || IsBlank(c) || IsOperatorChar(c)
  }

  /** Pieces that lex are cut from a text made of arithmetic characters
      only. */
  lemma {:induction false} ArithmeticText(ps: seq<Piece>)
    requires WellCut(ps) && OnlyArithmetic(ps)
    ensures forall d :: d in Unwrap(ps) ==> ArithmeticChar(d)
  {
    if ps != [] {
      WellCutTail(ps, 1);
      assert OnlyArithmetic(ps[1..]) by {
        forall i | 0 <= i < |ps[1..]| && ps[1..][i].Raw?
          ensures IsBlank(ps[1..][i].c) || IsOperatorChar(ps[1..][i].c)
        {
          assert ps[1..][i] == ps[i + 1];
        }
      }
      ArithmeticText(ps[1..]);
      UnwrapCons(ps[0], ps[1..]);
      assert ps == [ps[0]] + ps[1..];
      assert forall d :: d in Unwrap([ps[0]]) ==> ArithmeticChar(d) by {
        match ps[0]
        case Raw(c) => assert Unwrap([ps[0]]) == [c] + [];
        case Lit(t) =>
          assert Unwrap([ps[0]]) == t + [];
          assert forall i :: 0 <= i < |t| ==> IsDigit(t[i]) || t[i] == '.';
      }
    }
  }

  /** The values of the literal pieces, in order. */
  function LiteralValues(ps: seq<Piece>): seq<real>
    requires WellCut(ps)
  {
    if ps == [] then []
    else
      WellCutTail(ps, 1);
      (if ps[0].Lit? then [LiteralValue(ps[0].text)] else []) + LiteralValues(ps[1..])
  }

  /** The values of the number tokens, in order. */
  function Numbers(ts: seq<Token>): seq<real>
  {
    if ts == [] then []
    else (if ts[0].Num? then [ts[0].value] else []) + Numbers(ts[1..])
  }

  lemma WellCutTail(ps: seq<Piece>, k: nat)
    requires WellCut(ps) && k <= |ps|
    ensures WellCut(ps[k..])
  {
    assert forall i :: 0 <= i < |ps| - k ==> ps[k..][i] == ps[i + k];
  }

  function Cons(t: Token, r: Result<seq<Token>>): Result<seq<Token>>
  {
    if r.Ok? then Ok([t] + r.value) else r
  }

  function OperatorToken(c: char): Token
    requires IsOperatorChar(c)
  {
    match c
    case '+' => Plus
    case '-' => Minus
    case '*' => Star
    case '/' => Slash
    case '(' => LParen
    case _ => RParen
  }

  /** Turns the pieces into tokens. Two adjacent `*` are one `**`; two
      adjacent `/` would be floor division, which the model treats as a
      failure. */
  function Lex(ps: seq<Piece>): Result<seq<Token>>
    requires WellCut(ps)
    decreases |ps|
  {
    if ps == [] then Ok([])
    else
      WellCutTail(ps, 1);
      match ps[0]
      case Lit(t) => Cons(Num(LiteralValue(t)), Lex(ps[1..]))
      case Raw(c) =>
        if IsBlank(c) then Lex(ps[1..])
        else if c == '*' && |ps| > 1 && ps[1] == Raw('*') then
          WellCutTail(ps, 2);
          Cons(Power, Lex(ps[2..]))
        else if c == '/' && |ps| > 1 && ps[1] == Raw('/') then Err(SyntaxError)
        else if IsOperatorChar(c) then Cons(OperatorToken(c), Lex(ps[1..]))
        else if IsNameChar(c) then Err(NameError)
        else Err(SyntaxError)
  }

  lemma NumbersCons(t: Token, ts: seq<Token>)
    ensures Numbers([t] + ts) == (if t.Num? then [t.value] else []) + Numbers(ts)
  {
    assert ([t] + ts)[1..] == ts;
  }

  /** Every literal becomes exactly one number token, in order, and nothing
      else becomes a number. */
  lemma {:induction false} LexNumbers(ps: seq<Piece>)
    requires WellCut(ps)
    ensures Lex(ps).Ok? ==> Numbers(Lex(ps).value) == LiteralValues(ps)
    decreases |ps|
  {
    if ps != [] && Lex(ps).Ok? {
      WellCutTail(ps, 1);
      var tail := Lex(ps[1..]);
      match ps[0]
      case Lit(t) =>
        LexNumbers(ps[1..]);
        NumbersCons(Num(LiteralValue(t)), tail.value);
      case Raw(c) =>
        assert LiteralValues(ps) == LiteralValues(ps[1..]);
        if IsBlank(c) {
          LexNumbers(ps[1..]);
        } else if c == '*' && |ps| > 1 && ps[1] == Raw('*') {
          WellCutTail(ps, 2);
          LexNumbers(ps[2..]);
          assert ps[1..][1..] == ps[2..];
          assert LiteralValues(ps[1..]) == LiteralValues(ps[2..]);
          NumbersCons(Power, Lex(ps[2..]).value);
        } else {
          LexNumbers(ps[1..]);
          NumbersCons(OperatorToken(c), tail.value);
        }
    }
  }

  /** Lexing succeeds only when every raw character is a blank or an
      operator character: letters, `!`, `=` and the like all fail. */
  lemma {:induction false} LexOnlyArithmetic(ps: seq<Piece>)
    requires WellCut(ps)
    ensures Lex(ps).Ok? ==> OnlyArithmetic(ps)
    decreases |ps|
  {
    if ps != [] && Lex(ps).Ok? {
      WellCutTail(ps, 1);
      LexOnlyArithmetic(ps[1..]);
      if ps[0].Raw? && ps[0].c == '*' && |ps| > 1 && ps[1] == Raw('*') {
        WellCutTail(ps, 2);
        LexOnlyArithmetic(ps[2..]);
        assert OnlyArithmetic(ps[1..]) by {
          forall i | 0 <= i < |ps| - 1 && ps[1..][i].Raw?
            ensures IsBlank(ps[1..][i].c) || IsOperatorChar(ps[1..][i].c)
          {
            if i > 0 { assert ps[1..][i] == ps[2..][i - 1]; }
          }
        }
      }
      forall i | 0 <= i < |ps| && ps[i].Raw?
        ensures IsBlank(ps[i].c) || IsOperatorChar(ps[i].c)
      {
        if i > 0 { assert ps[i] == ps[1..][i - 1]; }
      }
    }
  }

  /** A literal piece becomes a number token. */
  lemma LexLiteral(t: string, ps: seq<Piece>)
    requires IsLiteral(t) && WellCut(ps)
    ensures WellCut([Lit(t)] + ps)
    ensures Lex([Lit(t)] + ps) == Cons(Num(LiteralValue(t)), Lex(ps))
  {
    assert ([Lit(t)] + ps)[1..] == ps;
  }

  /** An operator character becomes its token, unless it is the first of
      `**` or `//`. */
  lemma LexOperator(c: char, ps: seq<Piece>)
    requires IsOperatorChar(c) && WellCut(ps)
    requires c == '*' || c == '/' ==> ps == [] || ps[0] != Raw(c)
    ensures WellCut([Raw(c)] + ps)
    ensures Lex([Raw(c)] + ps) == Cons(OperatorToken(c), Lex(ps))
  {
    assert ([Raw(c)] + ps)[1..] == ps;
  }

  /** Two `*` pieces become one `**` token. */
  lemma LexPower(ps: seq<Piece>)
    requires WellCut(ps)
    ensures WellCut([Raw('*'), Raw('*')] + ps)
    ensures Lex([Raw('*'), Raw('*')] + ps) == Cons(Power, Lex(ps))
  {
    assert ([Raw('*'), Raw('*')] + ps)[2..] == ps;
  }
}

=== FILE: literals.dfy ===
/** The `re.sub(r'(\d+(\.\d*)?|\.\d+)', r"decimal.Decimal('\1')", text)`
    step: the rewritten text is cut into raw characters and numeric
    literals, scanning left to right and taking at each position the
    longest literal that starts there. */
module Literals {
  import opened Text

  /** The strings the pattern `\d+(\.\d*)?|\.\d+` matches: only digits and
      points, at most one point, and at least one digit. */
  predicate IsLiteral(t: string)
  {
    && (forall i :: 0 <= i < |t| ==> IsDigit(t[i]) || t[i] == '.')
    && (forall i, j :: 0 <= i < j < |t| ==> !(t[i] == '.' && t[j] == '.'))
    && (exists i :: 0 <= i < |t| && IsDigit(t[i]))
  }

  lemma NotLiteralBadChar(t: string, i: nat)
    requires i < |t| && !IsDigit(t[i]) && t[i] != '.'
    ensures !IsLiteral(t)
  {
  }

  lemma NotLiteralTwoDots(t: string, i: nat, j: nat)
    requires i < j < |t| && t[i] == '.' && t[j] == '.'
    ensures !IsLiteral(t)
  {
  }

  /** Length of the run of digits at the start of `s`. */
  function DigitRun(s: string): (n: nat)
    ensures n <= |s| && AllDigits(s[..n])
    ensures n < |s| ==> !IsDigit(s[n])
  {
    if s != [] && IsDigit(s[0]) then
      var n := 1 + DigitRun(s[1..]);
      assert s[..n] == [s[0]] + s[1..][..n - 1];
      n
    else 0
  }

  /** Length of the literal the pattern matches at the start of `s`, 0 when
      it does not match there. The match is the longest literal prefix. */
  function MatchLength(s: string): (n: nat)
    ensures n <= |s|
    ensures n > 0 ==> IsLiteral(s[..n])
    ensures forall k :: n < k <= |s| ==> !IsLiteral(s[..k])
  {
    if s == [] then 0
    else if IsDigit(s[0]) then
      var a := DigitRun(s);
      if a < |s| && s[a] == '.' then
        var b := DigitRun(s[a + 1..]);
        var n := a + 1 + b;
        DottedLiteral(s, a, b);
        n
      else
        assert IsLiteral(s[..a]) by { assert IsDigit(s[..a][0]); }
        assert forall k :: a < k <= |s| ==> !IsLiteral(s[..k]) by {
          forall k | a < k <= |s| ensures !IsLiteral(s[..k]) {
            NotLiteralBadChar(s[..k], a);
          }
        }
        a
    else if s[0] == '.' then
      var b := DigitRun(s[1..]);
      LeadingPointLiteral(s, b);
      if b > 0 then 1 + b else 0
    else
      assert forall k :: 0 < k <= |s| ==> !IsLiteral(s[..k]) by {
        forall k | 0 < k <= |s| ensures !IsLiteral(s[..k]) {
          NotLiteralBadChar(s[..k], 0);
        }
      }
      0
  }

  /** Digits, a point, then digits: the first alternative with its optional
      fraction, taken as far as the digits go. */
  lemma DottedLiteral(s: string, a: nat, b: nat)
    requires 0 < a < |s| && s[a] == '.' && AllDigits(s[..a])
    requires b == DigitRun(s[a + 1..])
    ensures IsLiteral(s[..a + 1 + b])
    ensures forall k :: a + 1 + b < k <= |s| ==> !IsLiteral(s[..k])
  {
    var n := a + 1 + b;
    var t := s[..n];
    forall i | 0 <= i < |t| ensures IsDigit(t[i]) || t[i] == '.' {
      if i > a { assert t[i] == s[a + 1..][..b][i - a - 1]; }
    }
    forall i, j | 0 <= i < j < |t| ensures !(t[i] == '.' && t[j] == '.') {
      if j > a { assert t[j] == s[a + 1..][..b][j - a - 1]; }
      else { assert t[i] == s[..a][i]; }
    }
    assert IsDigit(t[0]) by { assert t[0] == s[..a][0]; }
    forall k | n < k <= |s| ensures !IsLiteral(s[..k]) {
      assert s[n] == s[a + 1..][b];
      if s[n] == '.' {
        NotLiteralTwoDots(s[..k], a, n);
      } else {
        NotLiteralBadChar(s[..k], n);
      }
    }
  }

  /** A point followed by digits: the second alternative, which needs at
      least one digit after the point. */
  lemma LeadingPointLiteral(s: string, b: nat)
    requires 0 < |s| && s[0] == '.'
    requires b == DigitRun(s[1..])
    ensures b > 0 ==> IsLiteral(s[..1 + b])
    ensures forall k :: (if b > 0 then 1 + b else 0) < k <= |s| ==> !IsLiteral(s[..k])
  {
    var n := 1 + b;
    var t := s[..n];
    if b > 0 {
      forall i | 0 <= i < |t| ensures IsDigit(t[i]) || t[i] == '.' {
        if i > 0 { assert t[i] == s[1..][..b][i - 1]; }
      }
      forall i, j | 0 <= i < j < |t| ensures !(t[i] == '.' && t[j] == '.') {
        assert t[j] == s[1..][..b][j - 1];
      }
      assert IsDigit(t[1]) by { assert t[1] == s[1..][..b][0]; }
    }
    forall k | (if b > 0 then n else 0) < k <= |s| ensures !IsLiteral(s[..k]) {
      if k == 1 {
        assert !IsDigit(s[..k][0]);
      } else {
        assert s[n] == s[1..][b];
        if s[n] == '.' {
          NotLiteralTwoDots(s[..k], 0, n);
        } else {
          NotLiteralBadChar(s[..k], n);
        }
      }
    }
  }

  /** One piece of the scanned text: a character copied unchanged, or a
      literal that `re.sub` wraps as `decimal.Decimal('…')`. */
  datatype Piece = Raw(c: char) | Lit(text: string)

  /** The text with the wrappers deleted. */
  function Unwrap(ps: seq<Piece>): string
  {
    if ps == [] then []
    else (match ps[0] case Raw(c) => [c] case Lit(t) => t) + Unwrap(ps[1..])
  }

  /** The text `re.sub` hands to `eval`. */
  function Render(ps: seq<Piece>): string
  {
    if ps == [] then []
    else
      (match ps[0]
       case Raw(c) => [c]
       case Lit(t) => "decimal.Decimal('" + t + "')") + Render(ps[1..])
  }

  lemma UnwrapCons(p: Piece, ps: seq<Piece>)
    ensures Unwrap([p] + ps) == Unwrap([p]) + Unwrap(ps)
  {
    assert ([p] + ps)[1..] == ps;
    assert [p][1..] == [];
  }

  /** Every literal piece is a literal, and no raw piece is a digit. */
  predicate WellCut(ps: seq<Piece>)
  {
    && (forall i :: 0 <= i < |ps| && ps[i].Lit? ==> IsLiteral(ps[i].text))
    && (forall i :: 0 <= i < |ps| && ps[i].Raw? ==> !IsDigit(ps[i].c))
  }

  /** The scan of `s`: copies non-matching characters unchanged and cuts out
      each leftmost, longest literal. Deleting the wrappers gives back `s`. */
  function Scan(s: string): (ps: seq<Piece>)
    ensures Unwrap(ps) == s
    ensures WellCut(ps)
    decreases |s|
  {
    if s == [] then []
    else
      var n := MatchLength(s);
      var m := if n > 0 then n else 1;
      var p := if n > 0 then Lit(s[..n]) else Raw(s[0]);
      FirstPiece(s);
      var rest := Scan(s[m..]);
      ScanJoin(s, m, p, rest);
      [p] + rest
  }

  lemma FirstPiece(s: string)
    requires s != []
    ensures var n := MatchLength(s);
            var p := if n > 0 then Lit(s[..n]) else Raw(s[0]);
            Unwrap([p]) == s[..if n > 0 then n else 1] && WellCut([p])
  {
    var n := MatchLength(s);
    assert IsDigit(s[0]) ==> IsLiteral(s[..1]) by {
      if IsDigit(s[0]) { assert s[..1][0] == s[0]; }
    }
    if n > 0 {
      assert Unwrap([Lit(s[..n])]) == s[..n] + [];
    } else {
      assert Unwrap([Raw(s[0])]) == [s[0]] + [];
    }
  }

  lemma ScanJoin(s: string, m: nat, p: Piece, rest: seq<Piece>)
    requires 0 < m <= |s|
    requires Unwrap([p]) == s[..m] && WellCut([p])
    requires Unwrap(rest) == s[m..] && WellCut(rest)
    ensures Unwrap([p] + rest) == s && WellCut([p] + rest)
  {
    UnwrapCons(p, rest);
    assert s == s[..m] + s[m..];
    var ps := [p] + rest;
    forall i | 0 <= i < |ps|
      ensures ps[i].Lit? ==> IsLiteral(ps[i].text)
      ensures ps[i].Raw? ==> !IsDigit(ps[i].c)
    {
      if i == 0 { assert ps[i] == [p][0]; } else { assert ps[i] == rest[i - 1]; }
    }
  }

  /** `1.2.3` is cut as `1.2` then `.3`: two literals side by side. */
  lemma ScanTwoPoints()
    ensures Scan("1.2.3") == [Lit("1.2"), Lit(".3")]
  {
    var s := "1.2.3";
    assert DigitRun(s) == 1;
    assert DigitRun(s[2..]) == 1;
    assert MatchLength(s) == 3;
    assert s[3..] == ".3";
    assert DigitRun(s[3..][1..]) == 1;
    assert MatchLength(s[3..]) == 2;
    assert s[3..][2..] == [];
    assert s[..3] == "1.2";
    assert s[3..][..2] == ".3";
    assert Scan(s[3..][2..]) == [];
    assert Scan(s[3..]) == [Lit(".3")] + [];
  }

  /** The literal with its point removed. */
  function Mantissa(t: string): (m: string)
    requires forall i :: 0 <= i < |t| ==> IsDigit(t[i]) || t[i] == '.'
    ensures AllDigits(m)
  {
    if t == [] then []
    else (if t[0] == '.' then [] else [t[0]]) + Mantissa(t[1..])
  }

  /** How many characters follow the point; 0 when there is none. */
  function Scale(t: string): nat
  {
    if t == [] then 0 else if t[0] == '.' then |t| - 1 else Scale(t[1..])
  }

  /** The number `decimal.Decimal(t)` denotes for a literal `t`. */
  function LiteralValue(t: string): real
    requires IsLiteral(t)
  {
    Unshift(ValueOf(Mantissa(t)) as real, Scale(t))
  }

  /** A whole literal is matched whole. */
  lemma MatchLengthOfLiteral(t: string)
    requires IsLiteral(t)
    ensures MatchLength(t) == |t|
  {
    assert t[..|t|] == t;
  }

  /** A literal is scanned as one piece. */
  lemma ScanLiteral(t: string)
    requires IsLiteral(t)
    ensures Scan(t) == [Lit(t)]
  {
    MatchLengthOfLiteral(t);
    assert t[..|t|] == t && t[|t|..] == [];
  }

  /** A sign followed by a literal is scanned as the raw sign then the literal. */
  lemma ScanSignedLiteral(c: char, t: string)
    requires c == '-' || c == '+'
    requires IsLiteral(t)
    ensures Scan([c] + t) == [Raw(c), Lit(t)]
  {
    var s := [c] + t;
    assert !IsLiteral(s[..1]) by { assert s[..1][0] == c; }
    assert MatchLength(s) == 0;
    assert s[1..] == t;
    ScanLiteral(t);
  }

  /** A character that can neither start nor continue a literal. */
  predicate Separator(c: char) { !IsDigit(c) && c != '.' }

  /** A separator is copied as a raw piece. */
  lemma ScanRaw(c: char, rest: string)
    requires Separator(c)
    ensures Scan([c] + rest) == [Raw(c)] + Scan(rest)
  {
    var s := [c] + rest;
    assert MatchLength(s) == 0;
    assert s[1..] == rest;
  }

  /** A literal followed by a separator (or by nothing) is cut whole. */
  lemma ScanLiteralThen(t: string, rest: string)
    requires IsLiteral(t)
    requires rest == [] || Separator(rest[0])
    ensures Scan(t + rest) == [Lit(t)] + Scan(rest)
  {
    var s := t + rest;
    var n := MatchLength(s);
    assert s[..|t|] == t;
    assert n >= |t|;
    if n > |t| {
      assert s[..n][|t|] == rest[0];
      NotLiteralBadChar(s[..n], |t|);
    }
    assert s[n..] == rest;
  }
}

=== FILE: notebook.dfy ===
/** The tab strip both calculators keep in a Tk notebook: pages with a
    widget identity, a label and the calculator they hold, one of them
    selected. */
module Notebook {
  import opened Wrappers
  import opened Text

  /** One tab: `id` stands for the widget's identity (two tabs may carry
      the same label), `name` is the tab text, `body` the calculator. */
  datatype Page<T> = Page(id: nat, name: string, body: T)

  /** `current` is the selected index; it is 0 while there are no tabs.
      `nextId` is the identity the next created widget gets. */
  datatype Book<T> = Book(pages: seq<Page<T>>, current: nat, nextId: nat)

  /** The selection points at a tab whenever there is one. */
  predicate Selected<T>(b: Book<T>)
  {
    if b.pages == [] then b.current == 0 else b.current < |b.pages|
  }

  /** No widget is in the sequence twice. */
  predicate DistinctIds<T>(ps: seq<Page<T>>)
  {
    forall i, j :: 0 <= i < j < |ps| ==> ps[i].id != ps[j].id
  }

  /** Every widget in the sequence was created before identity `k`. */
  predicate IdsBelow<T>(ps: seq<Page<T>>, k: nat)
  {
    forall i :: 0 <= i < |ps| ==> ps[i].id < k
  }

  predicate Valid<T>(b: Book<T>)
  {
    Selected(b) && DistinctIds(b.pages) && IdsBelow(b.pages, b.nextId)
  }

  /** A notebook with no tabs. */
  function Empty<T>(): (r: Book<T>)
    ensures Valid(r) && r.pages == []
  {
    Book([], 0, 0)
  }

  /** The label of a new tab: `Calc {len(tabs) + 1}`. */
  function TabName(k: nat): (r: string)
    ensures |r| > 5 && r[..5] == "Calc " && IntText(r[5..]) == Some(k)
  {
    IntTextOfIntString(k);
    "Calc " + IntString(k)
  }

  /** `notebook.add(widget)` followed by `notebook.select(widget)`: the page
      goes to the end and becomes the selected one. */
  function Attach<T>(b: Book<T>, p: Page<T>): (r: Book<T>)
    ensures |r.pages| == |b.pages| + 1 && r.pages[..|b.pages|] == b.pages
    ensures Selected(r) && r.pages[r.current] == p
    ensures r.nextId == b.nextId
  {
    assert (b.pages + [p])[..|b.pages|] == b.pages;
    b.(pages := b.pages + [p], current := |b.pages|)
  }

  /** `add_tab`: a fresh widget labelled `Calc {n+1}` is attached and
      selected; the tabs already there are kept as they are. */
  function AddPage<T>(b: Book<T>, body: T): (r: Book<T>)
    ensures Selected(r)
    ensures |r.pages| == |b.pages| + 1 && r.pages[..|b.pages|] == b.pages
    ensures r.pages[r.current] == Page(b.nextId, TabName(|b.pages| + 1), body)
    ensures Valid(b) ==> Valid(r)
  {
    var p := Page(b.nextId, TabName(|b.pages| + 1), body);
    var r := Attach(b, p).(nextId := b.nextId + 1);
    assert Valid(b) ==> Valid(r) by {
      if Valid(b) {
        FreshKeepsApart(b.pages, p, b.nextId);
      }
    }
    r
  }

  /** A widget created after all others can join them. */
  lemma FreshKeepsApart<T>(ps: seq<Page<T>>, p: Page<T>, k: nat)
    requires DistinctIds(ps) && IdsBelow(ps, k) && p.id == k
    ensures DistinctIds(ps + [p]) && IdsBelow(ps + [p], k + 1)
  {
    var qs := ps + [p];
    forall i, j | 0 <= i < j < |qs| ensures qs[i].id != qs[j].id {
      assert qs[i] == ps[i];
    }
  }

  /** The index Tk selects after the selected tab `c` of `n` tabs is
      forgotten: the tab that moves into its place, or the new last tab
      when `c` was the last one. */
  function NearestAfterForget(c: nat, n: nat): (r: nat)
    requires c < n
    ensures n > 1 ==> r < n - 1
    ensures n == 1 ==> r == 0
    ensures c < n - 1 ==> r == c
    ensures c == n - 1 && n > 1 ==> r == c - 1
  {
    if c < n - 1 then c else if c > 0 then c - 1 else 0
  }

  /** `notebook.forget(selected)`: the selected tab leaves the notebook and
      the selection moves to its neighbour. */
  function ForgetCurrent<T>(b: Book<T>): (r: Book<T>)
    requires Selected(b) && b.pages != []
    ensures |r.pages| == |b.pages| - 1 && Selected(r) && r.nextId == b.nextId
    ensures forall i :: 0 <= i < b.current ==> r.pages[i] == b.pages[i]
    ensures forall i :: b.current <= i < |r.pages| ==> r.pages[i] == b.pages[i + 1]
    ensures multiset(r.pages) + multiset{b.pages[b.current]} == multiset(b.pages)
    ensures b.current + 1 < |b.pages| ==> r.pages[r.current] == b.pages[b.current + 1]
    ensures b.current + 1 == |b.pages| > 1 ==> r.pages[r.current] == b.pages[b.current - 1]
  {
    RemoveAt(b.pages, b.current);
    b.(pages := Without(b.pages, b.current), current := NearestAfterForget(b.current, |b.pages|))
  }

  /** The sequence with the element at `c` taken out. */
  function Without<T>(ps: seq<T>, c: nat): seq<T>
    requires c < |ps|
  {
    ps[..c] + ps[c + 1..]
  }

  /** Taking out one element closes the gap and loses only that element. */
  lemma RemoveAt<T>(ps: seq<T>, c: nat)
    requires c < |ps|
    ensures |Without(ps, c)| == |ps| - 1
    ensures forall i :: 0 <= i < c ==> Without(ps, c)[i] == ps[i]
    ensures forall i :: c <= i < |ps| - 1 ==> Without(ps, c)[i] == ps[i + 1]
    ensures multiset(Without(ps, c)) + multiset{ps[c]} == multiset(ps)
  {
    assert ps == ps[..c] + [ps[c]] + ps[c + 1..];
  }

  /** Forgetting a tab keeps the widgets apart and created. */
  lemma ForgetKeepsValid<T>(b: Book<T>)
    requires Valid(b) && b.pages != []
    ensures Valid(ForgetCurrent(b))
  {
    var r := ForgetCurrent(b);
    forall i, j | 0 <= i < j < |r.pages| ensures r.pages[i].id != r.pages[j].id {
      var i' := if i < b.current then i else i + 1;
      var j' := if j < b.current then j else j + 1;
      assert r.pages[i] == b.pages[i'] && r.pages[j] == b.pages[j'];
    }
    forall i | 0 <= i < |r.pages| ensures r.pages[i].id < r.nextId {
      assert r.pages[i] == b.pages[if i < b.current then i else i + 1];
    }
  }

  /** `rename_current_tab`: the dialog's answer is applied, stripped, to the
      selected tab when there is one and the answer is not blank; `None` is
      a cancelled dialog. */
  function Rename<T>(b: Book<T>, answer: Option<string>): (r: Book<T>)
    ensures |r.pages| == |b.pages| && r.current == b.current && r.nextId == b.nextId
    ensures forall i :: 0 <= i < |b.pages| ==>
              r.pages[i].id == b.pages[i].id && r.pages[i].body == b.pages[i].body
    ensures forall i :: 0 <= i < |b.pages| && i != b.current ==> r.pages[i] == b.pages[i]
    ensures Applies(b, answer) ==> r.pages[b.current].name == Strip(answer.value)
    ensures !Applies(b, answer) ==> r == b
  {
    if Applies(b, answer) then
      var p := b.pages[b.current];
      b.(pages := b.pages[b.current := p.(name := Strip(answer.value))])
    else b
  }

  /** The rename takes effect: a tab is selected and the answer holds
      something besides whitespace. */
  predicate Applies<T>(b: Book<T>, answer: Option<string>)
  {
    b.current < |b.pages| && answer.Some? && Strip(answer.value) != []
  }

  /** A renamed tab never carries surrounding whitespace, and renaming again
      with the same answer changes nothing. */
  lemma RenameTwice<T>(b: Book<T>, answer: Option<string>)
    ensures Rename(Rename(b, answer), answer) == Rename(b, answer)
    ensures Applies(b, answer) ==>
      var n := Rename(b, answer).pages[b.current].name;
      n != [] && !IsSpace(n[0]) && !IsSpace(n[|n| - 1])
  {
    if Applies(b, answer) {
      var r := Rename(b, answer);
      assert r.pages[b.current] == b.pages[b.current].(name := Strip(answer.value));
      assert Rename(r, answer).pages == r.pages;
    }
  }

  /** Selecting the next tab round the strip; one tab or none stays put. */
  function Cycle<T>(b: Book<T>): (r: Book<T>)
    ensures r.pages == b.pages && r.nextId == b.nextId
    ensures |b.pages| < 2 ==> r == b
    ensures Selected(b) ==> Selected(r)
  {
    if |b.pages| < 2 then b else b.(current := (b.current + 1) % |b.pages|)
  }

  /** `k` presses of the cycling key. */
  function CycleTimes<T>(b: Book<T>, k: nat): Book<T>
  {
    if k == 0 then b else Cycle(CycleTimes(b, k - 1))
  }

  /** `k` presses move the selection `k` places round the strip... */
  lemma {:induction false} CycleTimesMoves<T>(b: Book<T>, k: nat)
    requires Selected(b) && |b.pages| >= 2
    ensures CycleTimes(b, k).pages == b.pages && CycleTimes(b, k).nextId == b.nextId
    ensures CycleTimes(b, k).current == (b.current + k) % |b.pages|
  {
    if k > 0 {
      CycleTimesMoves(b, k - 1);
      var n := |b.pages|;
      ModNext(b.current + k - 1, n);
    }
  }

  /** ... so as many presses as there are tabs come back to the start. */
  lemma CycleRoundTrip<T>(b: Book<T>)
    requires Selected(b)
    ensures CycleTimes(b, |b.pages|) == b
  {
    if |b.pages| >= 2 {
      CycleTimesMoves(b, |b.pages|);
      ModOf(b.current + |b.pages|, |b.pages|, 1, b.current);
    } else {
      CycleTimesStill(b, |b.pages|);
    }
  }

  lemma {:induction false} CycleTimesStill<T>(b: Book<T>, k: nat)
    requires |b.pages| < 2
    ensures CycleTimes(b, k) == b
  {
    if k > 0 {
      CycleTimesStill(b, k - 1);
    }
  }

  /** One step of the modular successor. */
  lemma ModNext(a: nat, n: nat)
    requires n >= 1
    ensures (a % n + 1) % n == (a + 1) % n
  {
    var q, r := a / n, a % n;
    assert a == q * n + r;
    if r + 1 < n {
      ModOf(a + 1, n, q, r + 1);
      ModOf(r + 1, n, 0, r + 1);
    } else {
      assert a + 1 == (q + 1) * n + 0;
      ModOf(a + 1, n, q + 1, 0);
      ModOf(r + 1, n, 1, 0);
    }
  }

  /** The remainder is the `r` of any `q * n + r` with `0 <= r < n`. */
  lemma ModOf(x: nat, n: nat, q: nat, r: nat)
    requires n >= 1 && r < n && x == q * n + r
    ensures x % n == r
  {
    var q', r' := x / n, x % n;
    assert q' * n + r' == q * n + r;
    if q' > q {
      MulAtLeast(q' - q, n);
    } else if q' < q {
      MulAtLeast(q - q', n);
    }
  }

  lemma MulAtLeast(k: nat, n: nat)
    requires k >= 1
    ensures k * n >= n
  {
  }

  /** The selected tab's calculator is replaced; everything else stays. */
  function SetBody<T>(b: Book<T>, body: T): (r: Book<T>)
    requires Selected(b) && b.pages != []
    ensures |r.pages| == |b.pages| && r.current == b.current && r.nextId == b.nextId
    ensures r.pages[r.current].body == body
    ensures r.pages[r.current].id == b.pages[b.current].id
    ensures r.pages[r.current].name == b.pages[b.current].name
    ensures forall i :: 0 <= i < |b.pages| && i != b.current ==> r.pages[i] == b.pages[i]
  {
    b.(pages := b.pages[b.current := b.pages[b.current].(body := body)])
  }
}

=== FILE: parser.dfy ===
/** Python's expression grammar for the arithmetic subset, with Python's
    precedence: `**` binds tightest and is right-associative, a unary sign
    on its left applies to the whole power (`-2**2` is `-(2**2)`), `* /`
    bind tighter than `+ -`, and binary operators otherwise associate to
    the left.

      expr   := term (('+' | '-') term)*
      term   := factor (('*' | '/') factor)*
      factor := ('+' | '-') factor | power
      power  := atom ['**' factor]
      atom   := NUMBER | '(' expr ')'
*/
module Parser {
  import opened Wrappers
  import opened Lexer

  datatype BinOp = Add | Sub | Mul | Div | Pow
  datatype UnOp = Neg | Pos
  datatype Expr = Const(v: real) | Unary(uop: UnOp, e: Expr) | Binary(bop: BinOp, l: Expr, r: Expr)

  /** A parsed prefix and the tokens after it. */
  datatype Parsed = Parsed(e: Expr, rest: seq<Token>)

  function ParseExpr(ts: seq<Token>): (r: Result<Parsed>)
    ensures r.Ok? ==> |r.value.rest| < |ts|
    decreases |ts|, 4
  {
    var lhs :- ParseTerm(ts);
    ExprTail(lhs.e, lhs.rest)
  }

  function ExprTail(lhs: Expr, ts: seq<Token>): (r: Result<Parsed>)
    ensures r.Ok? ==> |r.value.rest| <= |ts|
    decreases |ts|, 5
  {
    if |ts| > 0 && (ts[0] == Plus || ts[0] == Minus) then
      var rhs :- ParseTerm(ts[1..]);
      ExprTail(Binary(if ts[0] == Plus then Add else Sub, lhs, rhs.e), rhs.rest)
    else Ok(Parsed(lhs, ts))
  }

  function ParseTerm(ts: seq<Token>): (r: Result<Parsed>)
    ensures r.Ok? ==> |r.value.rest| < |ts|
    decreases |ts|, 3
  {
    var lhs :- ParseFactor(ts);
    TermTail(lhs.e, lhs.rest)
  }

  function TermTail(lhs: Expr, ts: seq<Token>): (r: Result<Parsed>)
    ensures r.Ok? ==> |r.value.rest| <= |ts|
    decreases |ts|, 5
  {
    if |ts| > 0 && (ts[0] == Star || ts[0] == Slash) then
      var rhs :- ParseFactor(ts[1..]);
      TermTail(Binary(if ts[0] == Star then Mul else Div, lhs, rhs.e), rhs.rest)
    else Ok(Parsed(lhs, ts))
  }

  function ParseFactor(ts: seq<Token>): (r: Result<Parsed>)
    ensures r.Ok? ==> |r.value.rest| < |ts|
    decreases |ts|, 2
  {
    if |ts| > 0 && (ts[0] == Plus || ts[0] == Minus) then
      var operand :- ParseFactor(ts[1..]);
      Ok(Parsed(Unary(if ts[0] == Plus then Pos else Neg, operand.e), operand.rest))
    else ParsePower(ts)
  }

  function ParsePower(ts: seq<Token>): (r: Result<Parsed>)
    ensures r.Ok? ==> |r.value.rest| < |ts|
    decreases |ts|, 1
  {
    var base :- ParseAtom(ts);
    if |base.rest| > 0 && base.rest[0] == Power then
      var exponent :- ParseFactor(base.rest[1..]);
      Ok(Parsed(Binary(Pow, base.e, exponent.e), exponent.rest))
    else Ok(base)
  }

  function ParseAtom(ts: seq<Token>): (r: Result<Parsed>)
    ensures r.Ok? ==> |r.value.rest| < |ts|
    decreases |ts|, 0
  {
    if |ts| == 0 then Err(SyntaxError)
    else match ts[0]
      case Num(v) => Ok(Parsed(Const(v), ts[1..]))
      case LParen =>
        var inner :- ParseExpr(ts[1..]);
        if |inner.rest| > 0 && inner.rest[0] == RParen then Ok(Parsed(inner.e, inner.rest[1..]))
        else Err(SyntaxError)
      case _ => Err(SyntaxError)
  }

  /** The whole token sequence must be one expression. */
  function Parse(ts: seq<Token>): Result<Expr>
  {
    var p :- ParseExpr(ts);
    if p.rest == [] then Ok(p.e) else Err(SyntaxError)
  }

  function OpToken(op: BinOp): Token
  {
    match op
    case Add => Plus
    case Sub => Minus
    case Mul => Star
    case Div => Slash
    case Pow => Power
  }

  /** Prints a tree with every operand in parentheses. */
  function Show(e: Expr): seq<Token>
  {
    match e
    case Const(v) => [Num(v)]
    case Unary(op, a) => [if op == Pos then Plus else Minus] + ([LParen] + Show(a) + [RParen])
    case Binary(op, a, b) => ([LParen] + Show(a) + [RParen]) + [OpToken(op)] + ([LParen] + Show(b) + [RParen])
  }

  function Paren(e: Expr): seq<Token>
  {
    [LParen] + Show(e) + [RParen]
  }

  /** What may follow a complete expression: nothing, or a closing parenthesis. */
  predicate EndsExpr(rest: seq<Token>) { rest == [] || rest[0] == RParen }

  lemma AtomParen(a: Expr, rest: seq<Token>)
    ensures ParseAtom(Paren(a) + rest) == Ok(Parsed(a, rest))
    decreases a, 2
  {
    var ts := Paren(a) + rest;
    assert ts[0] == LParen;
    assert ts[1..] == Show(a) + ([RParen] + rest);
    ParseShow(a, [RParen] + rest);
    assert ([RParen] + rest)[1..] == rest;
  }

  lemma PowerParen(a: Expr, rest: seq<Token>)
    requires rest == [] || rest[0] != Power
    ensures ParsePower(Paren(a) + rest) == Ok(Parsed(a, rest))
    decreases a, 3
  {
    AtomParen(a, rest);
  }

  lemma FactorParen(a: Expr, rest: seq<Token>)
    requires rest == [] || rest[0] != Power
    ensures ParseFactor(Paren(a) + rest) == Ok(Parsed(a, rest))
    decreases a, 4
  {
    assert (Paren(a) + rest)[0] == LParen;
    PowerParen(a, rest);
  }

  lemma TermParen(a: Expr, rest: seq<Token>)
    requires rest == [] || rest[0] !in {Power, Star, Slash}
    ensures ParseTerm(Paren(a) + rest) == Ok(Parsed(a, rest))
    decreases a, 5
  {
    FactorParen(a, rest);
  }

  lemma FromTerm(ts: seq<Token>, e: Expr, rest: seq<Token>)
    requires ParseTerm(ts) == Ok(Parsed(e, rest)) && EndsExpr(rest)
    ensures ParseExpr(ts) == Ok(Parsed(e, rest))
  {
  }

  lemma FromFactor(ts: seq<Token>, e: Expr, rest: seq<Token>)
    requires ParseFactor(ts) == Ok(Parsed(e, rest)) && EndsExpr(rest)
    ensures ParseExpr(ts) == Ok(Parsed(e, rest))
  {
    assert ParseTerm(ts) == Ok(Parsed(e, rest));
    FromTerm(ts, e, rest);
  }

  /** Reading back a printed tree gives the tree and leaves what follows it. */
  lemma ParseShow(e: Expr, rest: seq<Token>)
    requires EndsExpr(rest)
    ensures ParseExpr(Show(e) + rest) == Ok(Parsed(e, rest))
    decreases e, 1
  {
    var ts := Show(e) + rest;
    match e
    case Const(v) =>
      assert ts[1..] == rest;
      assert ParseAtom(ts) == Ok(Parsed(e, rest));
      assert ParseFactor(ts) == Ok(Parsed(e, rest));
      FromFactor(ts, e, rest);
    case Unary(op, a) =>
      ShowUnary(op, a, rest);
    case Binary(op, a, b) =>
      if op == Pow {
        ShowPower(a, b, rest);
      } else if op == Mul || op == Div {
        ShowProduct(op, a, b, rest);
      } else {
        ShowSum(op, a, b, rest);
      }
  }

  lemma ShowUnary(op: UnOp, a: Expr, rest: seq<Token>)
    requires EndsExpr(rest)
    ensures ParseExpr(Show(Unary(op, a)) + rest) == Ok(Parsed(Unary(op, a), rest))
    decreases Unary(op, a), 0
  {
    var e := Unary(op, a);
    var ts := Show(e) + rest;
    assert ts[0] == (if op == Pos then Plus else Minus);
    assert ts[1..] == Paren(a) + rest;
    FactorParen(a, rest);
    assert ParseFactor(ts) == Ok(Parsed(e, rest));
    FromFactor(ts, e, rest);
  }

  lemma ShowPower(a: Expr, b: Expr, rest: seq<Token>)
    requires EndsExpr(rest)
    ensures ParseExpr(Show(Binary(Pow, a, b)) + rest) == Ok(Parsed(Binary(Pow, a, b), rest))
    decreases Binary(Pow, a, b), 0
  {
    var e := Binary(Pow, a, b);
    var ts := Show(e) + rest;
    var x := [Power] + Paren(b) + rest;
    assert ts == Paren(a) + x;
    assert x[1..] == Paren(b) + rest;
    AtomParen(a, x);
    FactorParen(b, rest);
    assert ParsePower(ts) == Ok(Parsed(e, rest));
    assert ParseFactor(ts) == Ok(Parsed(e, rest));
    FromFactor(ts, e, rest);
  }

  lemma ShowProduct(op: BinOp, a: Expr, b: Expr, rest: seq<Token>)
    requires op == Mul || op == Div
    requires EndsExpr(rest)
    ensures ParseExpr(Show(Binary(op, a, b)) + rest) == Ok(Parsed(Binary(op, a, b), rest))
    decreases Binary(op, a, b), 0
  {
    var e := Binary(op, a, b);
    var ts := Show(e) + rest;
    var x := [OpToken(op)] + Paren(b) + rest;
    assert ts == Paren(a) + x;
    assert x[1..] == Paren(b) + rest;
    FactorParen(a, x);
    FactorParen(b, rest);
    assert TermTail(a, x) == TermTail(e, rest);
    assert ParseTerm(ts) == Ok(Parsed(e, rest));
    FromTerm(ts, e, rest);
  }

  lemma ShowSum(op: BinOp, a: Expr, b: Expr, rest: seq<Token>)
    requires op == Add || op == Sub
    requires EndsExpr(rest)
    ensures ParseExpr(Show(Binary(op, a, b)) + rest) == Ok(Parsed(Binary(op, a, b), rest))
    decreases Binary(op, a, b), 0
  {
    var e := Binary(op, a, b);
    var ts := Show(e) + rest;
    var x := [OpToken(op)] + Paren(b) + rest;
    assert ts == Paren(a) + x;
    assert x[1..] == Paren(b) + rest;
    TermParen(a, x);
    TermParen(b, rest);
    assert ExprTail(a, x) == ExprTail(e, rest);
  }

  /** The parser inverts the printer. */
  lemma ParseOfShow(e: Expr)
    ensures Parse(Show(e)) == Ok(e)
  {
    ParseShow(e, []);
    assert Show(e) + [] == Show(e);
  }

  lemma AtomNum(v: real, rest: seq<Token>)
    ensures ParseAtom([Num(v)] + rest) == Ok(Parsed(Const(v), rest))
  {
    assert ([Num(v)] + rest)[1..] == rest;
  }

  lemma FactorNum(v: real, rest: seq<Token>)
    requires rest == [] || rest[0] != Power
    ensures ParsePower([Num(v)] + rest) == Ok(Parsed(Const(v), rest))
    ensures ParseFactor([Num(v)] + rest) == Ok(Parsed(Const(v), rest))
  {
    AtomNum(v, rest);
  }

  lemma TermNum(v: real, rest: seq<Token>)
    requires rest == [] || rest[0] !in {Power, Star, Slash}
    ensures ParseTerm([Num(v)] + rest) == Ok(Parsed(Const(v), rest))
  {
    FactorNum(v, rest);
  }

  /** `a ** b` at the start of a factor, `rest` not continuing the exponent. */
  lemma PowerNums(a: real, b: real, rest: seq<Token>)
    requires rest == [] || rest[0] != Power
    ensures ParseFactor([Num(a), Power, Num(b)] + rest)
         == Ok(Parsed(Binary(Pow, Const(a), Const(b)), rest))
  {
    var ts := [Num(a), Power, Num(b)] + rest;
    AtomNum(a, [Power, Num(b)] + rest);
    assert ts == [Num(a)] + ([Power, Num(b)] + rest);
    assert ([Power, Num(b)] + rest)[1..] == [Num(b)] + rest;
    FactorNum(b, rest);
  }

  /** A unary minus on the left of `**` negates the whole power:
      `-a**b` is `-(a**b)`. */
  lemma NegationBindsLooserThanPower(a: real, b: real)
    ensures Parse([Minus, Num(a), Power, Num(b)])
         == Ok(Unary(Neg, Binary(Pow, Const(a), Const(b))))
  {
    var ts := [Minus, Num(a), Power, Num(b)];
    PowerNums(a, b, []);
    assert ts[1..] == [Num(a), Power, Num(b)] + [];
    assert ParseFactor(ts) == Ok(Parsed(Unary(Neg, Binary(Pow, Const(a), Const(b))), []));
    FromFactor(ts, Unary(Neg, Binary(Pow, Const(a), Const(b))), []);
  }

  /** The exponent may carry its own sign: `a**-b` is `a**(-b)`. */
  lemma SignedExponent(a: real, b: real)
    ensures Parse([Num(a), Power, Minus, Num(b)])
         == Ok(Binary(Pow, Const(a), Unary(Neg, Const(b))))
  {
    var ts := [Num(a), Power, Minus, Num(b)];
    var e := Binary(Pow, Const(a), Unary(Neg, Const(b)));
    AtomNum(a, ts[1..]);
    assert ts == [Num(a)] + ts[1..];
    assert ts[1..][1..] == [Minus, Num(b)];
    FactorNum(b, []);
    assert [Minus, Num(b)][1..] == [Num(b)] + [];
    assert ParseFactor([Minus, Num(b)]) == Ok(Parsed(Unary(Neg, Const(b)), []));
    assert ParsePower(ts) == Ok(Parsed(e, []));
    FromFactor(ts, e, []);
  }

  /** `**` associates to the right: `a**b**c` is `a**(b**c)`. */
  lemma PowerIsRightAssociative(a: real, b: real, c: real)
    ensures Parse([Num(a), Power, Num(b), Power, Num(c)])
         == Ok(Binary(Pow, Const(a), Binary(Pow, Const(b), Const(c))))
  {
    var ts := [Num(a), Power, Num(b), Power, Num(c)];
    var e := Binary(Pow, Const(a), Binary(Pow, Const(b), Const(c)));
    AtomNum(a, ts[1..]);
    assert ts == [Num(a)] + ts[1..];
    assert ts[1..][1..] == [Num(b), Power, Num(c)] + [];
    PowerNums(b, c, []);
    assert ParsePower(ts) == Ok(Parsed(e, []));
    FromFactor(ts, e, []);
  }

  /** `-` associates to the left: `a-b-c` is `(a-b)-c`. */
  lemma SubtractionIsLeftAssociative(a: real, b: real, c: real)
    ensures Parse([Num(a), Minus, Num(b), Minus, Num(c)])
         == Ok(Binary(Sub, Binary(Sub, Const(a), Const(b)), Const(c)))
  {
    var ts := [Num(a), Minus, Num(b), Minus, Num(c)];
    TermNum(a, ts[1..]);
    assert ts == [Num(a)] + ts[1..];
    TermNum(b, [Minus, Num(c)]);
    assert ts[1..][1..] == [Num(b)] + [Minus, Num(c)];
    TermNum(c, []);
    assert [Minus, Num(c)][1..] == [Num(c)] + [];
    var ab := Binary(Sub, Const(a), Const(b));
    assert ExprTail(ab, [Minus, Num(c)]) == Ok(Parsed(Binary(Sub, ab, Const(c)), []));
    assert ExprTail(Const(a), ts[1..]) == ExprTail(ab, [Minus, Num(c)]);
  }

  /** `/` associates to the left: `a/b/c` is `(a/b)/c`. */
  lemma DivisionIsLeftAssociative(a: real, b: real, c: real)
    ensures Parse([Num(a), Slash, Num(b), Slash, Num(c)])
         == Ok(Binary(Div, Binary(Div, Const(a), Const(b)), Const(c)))
  {
    var ts := [Num(a), Slash, Num(b), Slash, Num(c)];
    var e := Binary(Div, Binary(Div, Const(a), Const(b)), Const(c));
    FactorNum(a, ts[1..]);
    assert ts == [Num(a)] + ts[1..];
    FactorNum(b, [Slash, Num(c)]);
    assert ts[1..][1..] == [Num(b)] + [Slash, Num(c)];
    FactorNum(c, []);
    assert [Slash, Num(c)][1..] == [Num(c)] + [];
    var ab := Binary(Div, Const(a), Const(b));
    assert TermTail(ab, [Slash, Num(c)]) == Ok(Parsed(e, []));
    assert TermTail(Const(a), ts[1..]) == TermTail(ab, [Slash, Num(c)]);
    assert ParseTerm(ts) == Ok(Parsed(e, []));
    FromTerm(ts, e, []);
  }

  /** `*` and `/` bind tighter than `+`: `a+b*c` is `a+(b*c)`. */
  lemma ProductBindsTighterThanSum(a: real, b: real, op: BinOp, c: real)
    requires op == Mul || op == Div
    ensures Parse([Num(a), Plus, Num(b), OpToken(op), Num(c)])
         == Ok(Binary(Add, Const(a), Binary(op, Const(b), Const(c))))
  {
    var ts := [Num(a), Plus, Num(b), OpToken(op), Num(c)];
    TermNum(a, ts[1..]);
    assert ts == [Num(a)] + ts[1..];
    var u := ts[1..][1..];
    assert u == [Num(b)] + [OpToken(op), Num(c)];
    FactorNum(b, [OpToken(op), Num(c)]);
    FactorNum(c, []);
    assert [OpToken(op), Num(c)][1..] == [Num(c)] + [];
    var bc := Binary(op, Const(b), Const(c));
    assert TermTail(Const(b), [OpToken(op), Num(c)]) == TermTail(bc, []);
    assert ParseTerm(u) == Ok(Parsed(bc, []));
    assert ExprTail(Const(a), ts[1..]) == ExprTail(Binary(Add, Const(a), bc), []);
  }

  /** One operator between two numbers. */
  lemma BinaryNums(a: real, op: BinOp, b: real)
    ensures Parse([Num(a), OpToken(op), Num(b)]) == Ok(Binary(op, Const(a), Const(b)))
  {
    var ts := [Num(a), OpToken(op), Num(b)];
    var e := Binary(op, Const(a), Const(b));
    if op == Pow {
      PowerNums(a, b, []);
      assert ts == [Num(a), Power, Num(b)] + [];
      FromFactor(ts, e, []);
    } else if op == Mul || op == Div {
      FactorNum(a, ts[1..]);
      assert ts == [Num(a)] + ts[1..];
      FactorNum(b, []);
      assert ts[1..][1..] == [Num(b)] + [];
      assert TermTail(Const(a), ts[1..]) == TermTail(e, []);
      FromTerm(ts, e, []);
    } else {
      TermNum(a, ts[1..]);
      assert ts == [Num(a)] + ts[1..];
      TermNum(b, []);
      assert ts[1..][1..] == [Num(b)] + [];
      assert ExprTail(Const(a), ts[1..]) == ExprTail(e, []);
    }
  }

  /** Two numbers side by side, as in `2(3)` or `1.2.3`, are not an expression. */
  lemma JuxtapositionFails(a: real, rest: seq<Token>)
    requires rest != [] && (rest[0].Num? || rest[0] == LParen)
    ensures Parse([Num(a)] + rest).Err?
  {
    TermNum(a, rest);
    assert ParseExpr([Num(a)] + rest) == Ok(Parsed(Const(a), rest));
  }

  /** The empty expression is not an expression. */
  lemma EmptyFails()
    ensures Parse([]).Err?
  {
  }
}

=== FILE: rewrite.dfy ===
/** The textual rewrite the "=" key applies to the buffer before handing it
    to Python's `eval`: commas are dropped, `^` becomes `**`, `%` becomes
    `/100` and `π` becomes the decimal text of pi. */
module Rewrite {
  import opened Text

  /** The `π` character a user can type or paste into the buffer. */
  const PI_CHAR: char := '\U{3c0}'

  /** `str(decimal.Decimal(math.pi))`: the exact decimal expansion of the
      binary double nearest to pi. */
  const PI_TEXT: string := "3." + PI_FRACTION

  /** Written in short pieces: the verifier reads a long string constant
      only as a whole. */
  const PI_FRACTION: string :=
    "1415926535" + "8979311599" + "7963468544" + "1851615905" + "76171875"

  /** The pi text is a digit, a point and more digits. */
  lemma PiTextShape()
    ensures |PI_TEXT| > 2 && PI_TEXT[0] == '3' && PI_TEXT[1] == '.' && AllDigits(PI_TEXT[2..])
    ensures ',' !in PI_TEXT && '^' !in PI_TEXT && '%' !in PI_TEXT && PI_CHAR !in PI_TEXT
  {
    assert AllDigits(PI_FRACTION);
    assert PI_TEXT[2..] == PI_FRACTION;
    forall i | 0 <= i < |PI_TEXT|
      ensures IsDigit(PI_TEXT[i]) || PI_TEXT[i] == '.'
    {
      if i >= 2 { assert PI_TEXT[i] == PI_FRACTION[i - 2]; }
    }
  }

  /** The buffer without its thousands separators. */
  function StripCommas(s: string): (r: string)
    ensures ',' !in r
    ensures ',' !in s ==> r == s
  {
    Replace(s, ',', "")
  }

  /** The three replacements, applied one after another on the whole text. */
  function Clean(expr: string): string
  {
    Replace(Replace(Replace(expr, '^', "**"), '%', "/100"), PI_CHAR, PI_TEXT)
  }

  /** What one character turns into; every character not named here is kept. */
  function Expand(c: char): (r: string)
    ensures c !in {'^', '%', PI_CHAR} ==> r == [c]
  {
    if c == '^' then "**"
    else if c == '%' then "/100"
    else if c == PI_CHAR then PI_TEXT
    else [c]
  }

  /** The one-pass reference: each character expanded in place, left to right. */
  function ExpandAll(s: string): string
  {
    if s == [] then [] else Expand(s[0]) + ExpandAll(s[1..])
  }

  lemma {:induction false} ExpandAllAppend(a: string, b: string)
    ensures ExpandAll(a + b) == ExpandAll(a) + ExpandAll(b)
  {
    if a == [] {
      assert a + b == b;
    } else {
      assert (a + b)[1..] == a[1..] + b;
      ExpandAllAppend(a[1..], b);
    }
  }

  lemma CleanAppend(a: string, b: string)
    ensures Clean(a + b) == Clean(a) + Clean(b)
  {
    ReplaceAppend(a, b, '^', "**");
    ReplaceAppend(Replace(a, '^', "**"), Replace(b, '^', "**"), '%', "/100");
    ReplaceAppend(Replace(Replace(a, '^', "**"), '%', "/100"),
                  Replace(Replace(b, '^', "**"), '%', "/100"), PI_CHAR, PI_TEXT);
  }

  lemma CleanChar(c: char)
    ensures Clean([c]) == Expand(c)
  {
    var s1 := Replace([c], '^', "**");
    var s2 := Replace(s1, '%', "/100");
    if c == '^' {
      assert s1 == "**";
      assert '%' !in s1 && PI_CHAR !in s1;
    } else if c == '%' {
      assert s1 == [c];
      assert s2 == "/100";
      assert PI_CHAR !in s2;
    } else if c == PI_CHAR {
      assert s1 == [c] && s2 == [c];
      assert Replace(s2, PI_CHAR, PI_TEXT) == PI_TEXT + [];
    } else {
      assert s1 == [c] && s2 == [c];
    }
  }

  /** Applying the three replacements in sequence is the same as expanding
      every character in a single pass: no replacement text contains a
      pattern that a later replacement looks for. */
  lemma {:induction false} CleanIsExpandAll(s: string)
    ensures Clean(s) == ExpandAll(s)
  {
    if s != [] {
      assert s == [s[0]] + s[1..];
      CleanAppend([s[0]], s[1..]);
      CleanChar(s[0]);
      CleanIsExpandAll(s[1..]);
    }
  }

  /** After the rewrite none of `^`, `%`, `π` is left, and no comma either
      once the commas were stripped. */
  lemma CleanRemovesSpecials(buffer: string)
    ensures '^' !in Clean(buffer) && '%' !in Clean(buffer) && PI_CHAR !in Clean(buffer)
    ensures ',' !in Clean(StripCommas(buffer))
  {
    PiTextShape();
    var expr := StripCommas(buffer);
    var s1 := Replace(expr, '^', "**");
    var s2 := Replace(s1, '%', "/100");
    assert ',' !in "**" && ',' !in "/100";
    ReplaceAbsent(expr, '^', "**", ',');
    ReplaceAbsent(s1, '%', "/100", ',');
    ReplaceAbsent(s2, PI_CHAR, PI_TEXT, ',');
    var b1 := Replace(buffer, '^', "**");
    var b2 := Replace(b1, '%', "/100");
    assert '^' !in "/100";
    ReplaceAbsent(b1, '%', "/100", '^');
    ReplaceAbsent(b2, PI_CHAR, PI_TEXT, '^');
    ReplaceAbsent(b2, PI_CHAR, PI_TEXT, '%');
  }

  /** Text with none of the three special characters goes through unchanged. */
  lemma CleanKeepsPlainText(s: string)
    requires '^' !in s && '%' !in s && PI_CHAR !in s
    ensures Clean(s) == s
  {
  }

  /** `%` is a purely textual `/100` on whatever precedes it. */
  lemma PercentIsTextualDivision(s: string)
    ensures Clean(s + "%") == Clean(s) + "/100"
  {
    CleanAppend(s, "%");
    CleanChar('%');
    assert "%" == ['%'];
  }

  /** The rewrite of the scientific_calculator.py variant: only `^` and `%`. */
  function SciClean(s: string): (r: string)
    ensures '^' !in r && '%' !in r
  {
    var s1 := Replace(s, '^', "**");
    assert '%' !in "**" && '^' !in "/100";
    ReplaceAbsent(s1, '%', "/100", '^');
    Replace(s1, '%', "/100")
  }

  function SciExpand(c: char): string
  {
    if c == '^' then "**" else if c == '%' then "/100" else [c]
  }

  /** The scientific variant's two replacements, character by character. */
  lemma {:induction false} SciCleanIsPointwise(s: string)
    ensures s != [] ==> SciClean(s) == SciExpand(s[0]) + SciClean(s[1..])
  {
    if s != [] {
      assert s == [s[0]] + s[1..];
      ReplaceAppend([s[0]], s[1..], '^', "**");
      ReplaceAppend(Replace([s[0]], '^', "**"), Replace(s[1..], '^', "**"), '%', "/100");
      var s1 := Replace([s[0]], '^', "**");
      if s[0] == '^' {
        assert s1 == "**";
        assert '%' !in s1;
      } else if s[0] == '%' {
        assert s1 == "%";
        assert Replace(s1, '%', "/100") == "/100";
      } else {
        assert s1 == [s[0]];
      }
    }
  }
}

=== FILE: scientific.dfy ===
/** The scientific calculator variant: the same editing keys and tab strip
    as Zenth, but `=` hands the rewritten text to a float evaluator, logs
    the rewritten expression, and there is no previous-result line and no
    closed-tab stack. */
module Scientific {
  import opened Wrappers
  import opened Text
  import opened Rewrite
  import opened Editing
  import opened Notebook

  /** `str(math.pi)`, which the `π` key appends. */
  const MATH_PI: string := "3.14159265" + "3589793"

  const SCI_ERROR: string := "Error"

  /** The buttons this model covers; `Plain` carries every other key's text. */
  datatype SciKey =
    | Clear
    | Delete
    | PlusMinus
    | Pi
    | Equals
    | Plain(text: string)

  /** Python's float `eval` of the rewritten text with `math` and `pi` in
      scope: the text the display shows for the result (an integral float
      shown as an int), or `None` when `eval` raises. */
  type FloatEval = string -> Option<string>

  /** The display after a key, and the history entry it logs, if any. */
  datatype SciOutcome = SciOutcome(buffer: string, logged: Option<string>)

  /** `calculate_result`: `^` becomes `**` and `%` becomes `/100`; on
      success the history gets the rewritten expression and the result and
      the display shows the result; on any exception the display shows
      `Error` and nothing is logged. */
  function SciCalculate(ev: FloatEval, buffer: string): (r: SciOutcome)
    ensures r.logged.None? <==> ev(SciClean(buffer)).None?
    ensures r.logged.None? ==> r.buffer == SCI_ERROR
    ensures r.logged.Some? ==>
      && r.buffer == ev(SciClean(buffer)).value
      && r.logged.value == SciClean(buffer) + " = " + r.buffer
      && '^' !in SciClean(buffer) && '%' !in SciClean(buffer)
  {
    var expr := SciClean(buffer);
    match ev(expr)
    case None => SciOutcome(SCI_ERROR, None)
    case Some(shown) => SciOutcome(shown, Some(expr + " = " + shown))
  }

  /** `on_button_click` for the editing keys and `=`. Only `=` logs; `π` and
      plain keys append their text and nothing else. */
  function SciPress(ev: FloatEval, buffer: string, k: SciKey): (r: SciOutcome)
    ensures k != Equals ==> r.logged.None?
    ensures k == Pi ==> |r.buffer| == |buffer| + |MATH_PI| && r.buffer[..|buffer|] == buffer && r.buffer[|buffer|..] == MATH_PI
    ensures k.Plain? ==> |r.buffer| == |buffer| + |k.text| && r.buffer[..|buffer|] == buffer && r.buffer[|buffer|..] == k.text
    ensures k == Clear ==> r.buffer == ""
  {
    match k
    case Clear => SciOutcome("", None)
    case Delete => SciOutcome(DropLast(buffer), None)
    case PlusMinus => SciOutcome(ToggleSign(buffer), None)
    case Pi => SciOutcome(Append(buffer, MATH_PI), None)
    case Equals => SciCalculate(ev, buffer)
    case Plain(t) => SciOutcome(Append(buffer, t), None)
  }

  /** DEL after a one-character key gives the buffer back, an empty buffer
      stays empty, and `±` twice is the identity unless the buffer starts
      with `--`. */
  lemma SciEditingKeys(ev: FloatEval, buffer: string, ch: char)
    ensures SciPress(ev, SciPress(ev, buffer, Plain([ch])).buffer, Delete).buffer == buffer
    ensures SciPress(ev, "", Delete).buffer == ""
    ensures SciPress(ev, SciPress(ev, buffer, PlusMinus).buffer, PlusMinus).buffer == buffer
        <==> !DoubleMinus(buffer)
  {
    DropLastUndoesAppend(buffer, ch);
    ToggleTwice(buffer);
  }

  /** The history names the rewritten expression, each `^` as `**` and each
      `%` as `/100`, every other character in place. */
  lemma SciLogsRewritten(ev: FloatEval, buffer: string)
    requires buffer != [] && ev(SciClean(buffer)).Some?
    ensures var r := SciCalculate(ev, buffer);
            r.logged.Some? &&
            r.logged.value == SciExpand(buffer[0]) + SciClean(buffer[1..]) + " = " + r.buffer
  {
    SciCleanIsPointwise(buffer);
  }

  /** `2^3` is logged as `2**3`, not as typed. */
  lemma SciPowerLogged(ev: FloatEval)
    requires ev("2**3") == Some("8")
    ensures SciCalculate(ev, "2^3").logged == Some("2**3 = 8")
  {
    var expr := SciClean("2^3");
    assert expr == "2**3" by { SciPowerText(); }
    assert expr + " = " + "8" == "2**3 = 8" by { PowerEntry(); }
  }

  lemma PowerEntry()
    ensures "2**3" + " = " + "8" == "2**3 = 8"
  {
  }

  lemma SciPowerText()
    ensures SciClean("2^3") == "2**3"
  {
    assert SciClean("") == "";
    assert SciClean("3") == "3" by {
      SciCleanIsPointwise("3");
      assert "3"[1..] == "";
    }
    assert SciClean("^3") == "**3" by {
      SciCleanIsPointwise("^3");
      assert "^3"[1..] == "3";
    }
    SciCleanIsPointwise("2^3");
    assert "2^3"[1..] == "^3";
  }

  /** The scientific window: its tabs and its history. */
  datatype SciApp = SciApp(book: Book<string>, history: seq<string>)

  /** The window as it opens: one empty tab `Calc 1`, no history. */
  function SciStart(): (r: SciApp)
    ensures Valid(r.book) && |r.book.pages| == 1
    ensures r.book.pages[0] == Page(0, TabName(1), "") && r.history == []
  {
    SciApp(AddPage(Empty(), ""), [])
  }

  /** `add_to_history`. */
  function SciAddToHistory(a: SciApp, entry: string): (r: SciApp)
    ensures |r.history| == |a.history| + 1
    ensures r.history[..|a.history|] == a.history && r.history[|a.history|..] == [entry]
    ensures r.book == a.book
  {
    a.(history := a.history + [entry])
  }

  /** `clear_history`. */
  function SciClearHistory(a: SciApp): (r: SciApp)
    ensures r.history == [] && r.book == a.book
  {
    a.(history := [])
  }

  /** `close_tab`: the selected tab goes; nothing keeps it. */
  function SciCloseTab(a: SciApp): (r: SciApp)
    ensures Valid(a.book) ==> Valid(r.book)
    ensures a.book.pages == [] ==> r == a
    ensures a.book.pages != [] && Selected(a.book) ==>
              r.book == ForgetCurrent(a.book) && r.history == a.history
  {
    if a.book.pages == [] || !Selected(a.book) then a
    else
      assert Valid(a.book) ==> Valid(ForgetCurrent(a.book)) by {
        if Valid(a.book) { ForgetKeepsValid(a.book); }
      }
      a.(book := ForgetCurrent(a.book))
  }

  /** `rename_current_tab`. */
  function SciRenameTab(a: SciApp, answer: Option<string>): (r: SciApp)
    ensures Valid(a.book) ==> Valid(r.book)
    ensures r.history == a.history && |r.book.pages| == |a.book.pages|
    ensures Applies(a.book, answer) ==> r.book.pages[a.book.current].name == Strip(answer.value)
    ensures !Applies(a.book, answer) ==> r == a
  {
    var b := Rename(a.book, answer);
    assert Valid(a.book) ==> Valid(b) by {
      if Valid(a.book) {
        assert forall i :: 0 <= i < |b.pages| ==> b.pages[i].id == a.book.pages[i].id;
      }
    }
    a.(book := b)
  }

  /** A click on the selected tab's calculator. */
  function SciClick(ev: FloatEval, a: SciApp, k: SciKey): (r: SciApp)
    ensures Valid(a.book) ==> Valid(r.book)
    ensures a.book.pages == [] || !Selected(a.book) ==> r == a
    ensures a.book.pages != [] && Selected(a.book) ==>
      var out := SciPress(ev, a.book.pages[a.book.current].body, k);
      && r.book == SetBody(a.book, out.buffer)
      && r.history == a.history + (if out.logged.Some? then [out.logged.value] else [])
  {
    if a.book.pages == [] || !Selected(a.book) then a
    else
      var out := SciPress(ev, a.book.pages[a.book.current].body, k);
      var b := SetBody(a.book, out.buffer);
      assert Valid(a.book) ==> Valid(b) by {
        if Valid(a.book) {
          assert forall i :: 0 <= i < |b.pages| ==> b.pages[i].id == a.book.pages[i].id;
        }
      }
      a.(book := b, history := a.history + (if out.logged.Some? then [out.logged.value] else []))
  }

  datatype SciEvent =
    | SciNewTab
    | SciCloseCurrent
    | SciNextTab
    | SciRenameTo(answer: Option<string>)
    | SciButton(key: SciKey)
    | SciClearLog

  function SciStep(ev: FloatEval, a: SciApp, e: SciEvent): SciApp
  {
    match e
    case SciNewTab => a.(book := AddPage(a.book, ""))
    case SciCloseCurrent => SciCloseTab(a)
    case SciNextTab => a.(book := Cycle(a.book))
    case SciRenameTo(answer) => SciRenameTab(a, answer)
    case SciButton(k) => SciClick(ev, a, k)
    case SciClearLog => SciClearHistory(a)
  }

  function SciRun(ev: FloatEval, a: SciApp, es: seq<SciEvent>): SciApp
    decreases |es|
  {
    if es == [] then a else SciRun(ev, SciStep(ev, a, es[0]), es[1..])
  }

  /** Every sequence of events keeps the tab strip consistent. */
  lemma {:induction false} SciRunKeepsValid(ev: FloatEval, a: SciApp, es: seq<SciEvent>)
    requires Valid(a.book)
    ensures Valid(SciRun(ev, a, es).book)
    decreases |es|
  {
    if es != [] {
      var a' := SciStep(ev, a, es[0]);
      assert Valid(a'.book);
      SciRunKeepsValid(ev, a', es[1..]);
    }
  }

  /** Only `=` adds to the history, one entry at a time, and only
      `clear_history` removes entries. */
  lemma SciStepHistory(ev: FloatEval, a: SciApp, e: SciEvent)
    ensures e != SciClearLog ==> a.history <= SciStep(ev, a, e).history
    ensures e != SciClearLog && e != SciButton(Equals) ==> SciStep(ev, a, e).history == a.history
    ensures |SciStep(ev, a, e).history| <= |a.history| + 1
  {
  }

  /** With two tabs or more, the next-tab key moves one place round the
      strip, and as many presses as there are tabs come back. */
  lemma SciCycleRound(a: SciApp)
    requires Selected(a.book) && |a.book.pages| >= 2
    ensures Cycle(a.book).current == (a.book.current + 1) % |a.book.pages|
    ensures CycleTimes(a.book, |a.book.pages|) == a.book
  {
    CycleRoundTrip(a.book);
  }
}

=== FILE: text.dfy ===
/** Character-level string helpers with the meaning Python gives them:
    `str.replace` with a one-character pattern, `str.strip()`, decimal
    digit strings and the `int(str)` conversion. */
module Text {
  import opened Wrappers

  predicate IsDigit(c: char) { '0' <= c <= '9' }

  predicate AllDigits(s: string) { forall i :: 0 <= i < |s| ==> IsDigit(s[i]) }

  /** Number of occurrences of `c` in `s`. */
  function Count(s: string, c: char): (n: nat)
    ensures n <= |s|
    ensures n == 0 <==> c !in s
  {
    if s == [] then 0 else (if s[0] == c then 1 else 0) + Count(s[1..], c)
  }

  /** Python's `s.replace(c, t)` for a one-character pattern `c`. */
  function Replace(s: string, c: char, t: string): (r: string)
    ensures c !in t ==> c !in r
    ensures c !in s ==> r == s
  {
    if s == [] then [] else (if s[0] == c then t else [s[0]]) + Replace(s[1..], c, t)
  }

  /** Replacing distributes over concatenation: the text left and right of
      any cut is rewritten independently, so untouched characters stay in
      their places and in order. */
  lemma {:induction false} ReplaceAppend(a: string, b: string, c: char, t: string)
    ensures Replace(a + b, c, t) == Replace(a, c, t) + Replace(b, c, t)
  {
    if a == [] {
      assert a + b == b;
    } else {
      assert (a + b)[1..] == a[1..] + b;
      ReplaceAppend(a[1..], b, c, t);
    }
  }

  /** A character that occurs in neither the text nor the replacement does
      not occur in the result. */
  lemma ReplaceAbsent(s: string, c: char, t: string, d: char)
    requires d !in s && d !in t
    ensures d !in Replace(s, c, t)
  {
  }

  /** Every other character of the text survives the replacement. */
  lemma {:induction false} ReplaceKeeps(s: string, c: char, t: string, d: char)
    requires d in s && d != c
    ensures d in Replace(s, c, t)
  {
    if s[0] != d {
      ReplaceKeeps(s[1..], c, t, d);
    }
  }

  /** The characters Python's `str.isspace` accepts. */
  predicate IsSpace(c: char)
  {
    c in {' ', '\t', '\n', '\r', '\U{b}', '\U{c}', '\U{1c}', '\U{1d}', '\U{1e}', '\U{1f}',
          '\U{85}', '\U{a0}', '\U{1680}', '\U{2000}', '\U{2001}', '\U{2002}', '\U{2003}',
          '\U{2004}', '\U{2005}', '\U{2006}', '\U{2007}', '\U{2008}', '\U{2009}', '\U{200a}',
          '\U{2028}', '\U{2029}', '\U{202f}', '\U{205f}', '\U{3000}'}
  }

  /** How many whitespace characters `s` starts with. */
  function LeadingSpaces(s: string): (n: nat)
    ensures n <= |s|
    ensures forall i :: 0 <= i < n ==> IsSpace(s[i])
    ensures n < |s| ==> !IsSpace(s[n])
  {
    if s != [] && IsSpace(s[0]) then
      var m := LeadingSpaces(s[1..]);
      assert forall i :: 1 <= i < m + 1 ==> s[i] == s[1..][i - 1];
      m + 1
    else 0
  }

  function StripLeft(s: string): (r: string)
    ensures |r| <= |s| && r == s[|s| - |r|..]
    ensures r == [] || !IsSpace(r[0])
    ensures forall i :: 0 <= i < |s| - |r| ==> IsSpace(s[i])
  {
    s[LeadingSpaces(s)..]
  }

  function StripRight(s: string): (r: string)
    ensures |r| <= |s| && r == s[..|r|]
    ensures r == [] || !IsSpace(r[|r| - 1])
    ensures forall i :: |r| <= i < |s| ==> IsSpace(s[i])
  {
    if s != [] && IsSpace(s[|s| - 1]) then StripRight(s[..|s| - 1]) else s
  }

  /** Python's `s.strip()`: the slice of `s` left after dropping leading and
      trailing whitespace. */
  function Strip(s: string): (r: string)
    ensures r == [] || (!IsSpace(r[0]) && !IsSpace(r[|r| - 1]))
    ensures |r| <= |s|
    ensures (forall k :: 0 <= k < |s| ==> IsSpace(s[k])) <==> r == []
  {
    var l := StripLeft(s);
    var r := StripRight(l);
    var i := |s| - |l|;
    var j := i + |r|;
    StripSlice(s, l, r, i, j);
    StripBlank(s);
    assert r != [] ==> !IsSpace(r[0]) by { StripFront(l); }
    r
  }

  /** `strip()` removes whitespace from the two ends only: what is left is
      a slice of the text with nothing but whitespace around it. */
  lemma StripIsSlice(s: string) returns (i: nat, j: nat)
    ensures i <= j <= |s| && Strip(s) == s[i..j]
    ensures forall k :: 0 <= k < i ==> IsSpace(s[k])
    ensures forall k :: j <= k < |s| ==> IsSpace(s[k])
  {
    var l := StripLeft(s);
    var r := StripRight(l);
    i := |s| - |l|;
    j := i + |r|;
    StripSlice(s, l, r, i, j);
  }

  /** Dropping trailing spaces from a text that does not start with one
      keeps its first character. */
  lemma StripFront(l: string)
    requires l == [] || !IsSpace(l[0])
    ensures StripRight(l) == [] || StripRight(l)[0] == l[0]
  {
  }

  /** What the two passes of `strip()` leave is a slice of the text with
      only spaces around it. */
  lemma StripSlice(s: string, l: string, r: string, i: int, j: int)
    requires l == StripLeft(s) && r == StripRight(l)
    requires i == |s| - |l| && j == i + |r|
    ensures 0 <= i <= j <= |s| && r == s[i..j]
    ensures forall k :: 0 <= k < i ==> IsSpace(s[k])
    ensures forall k :: j <= k < |s| ==> IsSpace(s[k])
  {
    assert l == s[i..];
    assert r == l[..|r|];
    forall k | j <= k < |s| ensures IsSpace(s[k]) {
      assert s[k] == l[k - i];
    }
  }

  lemma StripBlank(s: string)
    ensures (forall k :: 0 <= k < |s| ==> IsSpace(s[k])) <==> StripRight(StripLeft(s)) == []
  {
    var l := StripLeft(s);
    var r := StripRight(l);
    StripSlice(s, l, r, |s| - |l|, |s| - |l| + |r|);
  }

  function DigitValue(c: char): (v: nat)
    requires IsDigit(c)
    ensures v < 10
  {
    c as int - '0' as int
  }

  function DigitChar(v: nat): (c: char)
    requires v < 10
    ensures IsDigit(c) && DigitValue(c) == v
  {
    ('0' as int + v) as char
  }

  /** The value of a string of decimal digits, most significant first. */
  function ValueOf(d: string): nat
    requires AllDigits(d)
  {
    if d == [] then 0 else ValueOf(d[..|d| - 1]) * 10 + DigitValue(d[|d| - 1])
  }

  /** The decimal digits of `n` without leading zeros (`"0"` for zero), as
      Python's `str(n)` writes a non-negative integer. */
  function DigitsOf(n: nat): (d: string)
    ensures |d| > 0 && AllDigits(d)
    ensures ValueOf(d) == n
    ensures d[0] == '0' ==> n == 0 && d == "0"
  {
    if n < 10 then [DigitChar(n)]
    else
      var d := DigitsOf(n / 10) + [DigitChar(n % 10)];
      assert d[..|d| - 1] == DigitsOf(n / 10);
      d
  }

  /** Digits separated by single underscores, as `int()` accepts them. */
  predicate Underscored(d: string)
  {
    && |d| > 0
    && IsDigit(d[0]) && IsDigit(d[|d| - 1])
    && (forall i :: 0 <= i < |d| ==> IsDigit(d[i]) || d[i] == '_')
    && (forall i :: 0 <= i < |d| - 1 ==> d[i] == '_' ==> d[i + 1] != '_')
  }

  function DropUnderscores(d: string): (r: string)
    requires forall i :: 0 <= i < |d| ==> IsDigit(d[i]) || d[i] == '_'
    ensures AllDigits(r)
    ensures AllDigits(d) ==> r == d
  {
    if d == [] then []
    else (if d[0] == '_' then [] else [d[0]]) + DropUnderscores(d[1..])
  }

  function UnderscoredValue(d: string): nat
    requires Underscored(d)
  {
    ValueOf(DropUnderscores(d))
  }

  /** The information separators U+001C..U+001F: `str.isspace` counts
      them as whitespace, but `int()` does not strip them. */
  predicate IsSeparatorControl(c: char) { '\U{1c}' <= c <= '\U{1f}' }

  /** The number Python's `int(s)` reads from a string: surrounding
      whitespace, an optional sign, then digits that single underscores may
      separate; `None` where Python raises `ValueError`. The cap on the
      number of digits is added by `IntCall`. */
  function IntText(s: string): Option<int>
  {
    if exists i :: 0 <= i < |s| && IsSeparatorControl(s[i]) then None
    else
      var t := Strip(s);
      if |t| > 0 && (t[0] == '-' || t[0] == '+') then
        if Underscored(t[1..]) then
          Some(if t[0] == '-' then -(UnderscoredValue(t[1..]) as int) else UnderscoredValue(t[1..]))
        else None
      else if Underscored(t) then Some(UnderscoredValue(t))
      else None
  }

  /** CPython's default cap on the digits `int()` reads from a string and
      `str()` or a format writes for an int
      (`sys.int_info.default_max_str_digits`). */
  const MAX_STR_DIGITS: nat := 4300

  /** `str(n)` and `f"{n:,}"` do not raise: `n` has at most
      MAX_STR_DIGITS digits. */
  predicate FitsStrLimit(n: int)
  {
    |DigitsOf(if n < 0 then -n else n)| <= MAX_STR_DIGITS
  }

  /** Python's `int(s)`: `IntText`, except that more than MAX_STR_DIGITS
      digits (leading zeros included, underscores not) raise `ValueError`. */
  function IntCall(s: string): Option<int>
  {
    var t := Strip(s);
    var u := if |t| > 0 && (t[0] == '-' || t[0] == '+') then t[1..] else t;
    if Underscored(u) && |DropUnderscores(u)| > MAX_STR_DIGITS then None else IntText(s)
  }

  /** `str(n)` for any integer. */
  function IntString(n: int): string
  {
    (if n < 0 then "-" else "") + DigitsOf(if n < 0 then -n else n)
  }

  /** `int(str(n)) == n`. */
  lemma IntTextOfIntString(n: int)
    ensures IntText(IntString(n)) == Some(n)
  {
    if n < 0 {
      var d := DigitsOf(-n);
      assert IntText("-" + d) == Some(n) by {
        DigitsUnderscored(d);
        DigitNotSpace(d[|d| - 1]);
        NegativeIntText(d);
      }
      assert IntString(n) == "-" + d;
    } else {
      var d := DigitsOf(n);
      assert IntText(d) == Some(n) by { PlainIntText(d); }
      assert IntString(n) == "" + d;
      assert "" + d == d;
    }
  }

  /** `int(str(n)) == n` whenever `str(n)` does not raise; beyond the cap
      `int()` refuses the digits. */
  lemma IntCallOfIntString(n: int)
    ensures IntCall(IntString(n)) == if FitsStrLimit(n) then Some(n) else None
  {
    IntTextOfIntString(n);
    var d := DigitsOf(if n < 0 then -n else n);
    var s := IntString(n);
    assert Strip(s) == s by {
      assert s[|s| - 1] == d[|d| - 1];
      DigitNotSpace(s[0]);
      DigitNotSpace(s[|s| - 1]);
      StripNoop(s);
    }
    var u := if |s| > 0 && (s[0] == '-' || s[0] == '+') then s[1..] else s;
    assert u == d by {
      if n < 0 {
        assert s[1..] == d;
      } else {
        assert s == "" + d;
        assert "" + d == d;
      }
    }
    assert Underscored(d) && DropUnderscores(d) == d by { DigitsUnderscored(d); }
  }

  /** A larger number never has fewer digits. */
  lemma {:induction false} DigitsMonotone(a: nat, b: nat)
    requires a <= b
    ensures |DigitsOf(a)| <= |DigitsOf(b)|
  {
    if a >= 10 {
      DigitsMonotone(a / 10, b / 10);
    }
  }

  /** `int()` of a plain run of digits is its value. */
  lemma PlainIntText(d: string)
    requires |d| > 0 && AllDigits(d)
    ensures IntText(d) == Some(ValueOf(d))
  {
    DigitsUnderscored(d);
    DigitNotSpace(d[0]);
    DigitNotSpace(d[|d| - 1]);
    StripNoop(d);
    assert !(d[0] == '-' || d[0] == '+');
  }

  lemma NegativeIntText(d: string)
    requires Underscored(d) && !IsSpace(d[|d| - 1])
    ensures IntText("-" + d) == Some(-(UnderscoredValue(d) as int))
  {
    var s := "-" + d;
    assert s[|s| - 1] == d[|d| - 1];
    DigitNotSpace('-');
    StripNoop(s);
    var t := Strip(s);
    assert t == s;
    assert t[0] == '-';
    assert t[1..] == d;
  }

  lemma DigitNotSpace(c: char)
    requires IsDigit(c) || c == '-'
    ensures !IsSpace(c)
  {
  }

  lemma DigitsUnderscored(d: string)
    requires |d| > 0 && AllDigits(d)
    ensures Underscored(d) && UnderscoredValue(d) == ValueOf(d)
  {
  }

  lemma StripNoop(s: string)
    requires s != [] && !IsSpace(s[0]) && !IsSpace(s[|s| - 1])
    ensures Strip(s) == s
  {
    assert StripLeft(s) == s;
    assert StripRight(s) == s;
  }

  /** A character that is not whitespace survives `strip()`. */
  lemma StripKeeps(s: string, k: nat) returns (m: nat)
    requires k < |s| && !IsSpace(s[k])
    ensures m < |Strip(s)| && Strip(s)[m] == s[k]
  {
    var l := StripLeft(s);
    var i := |s| - |l|;
    assert k >= i;
    assert l[k - i] == s[k];
    var r := StripRight(l);
    assert Strip(s) == r;
    assert k - i < |r|;
    m := k - i;
  }

  /** `int()` refuses any text holding a character other than whitespace,
      signs, digits and underscores — in particular a `,` or a `.`. */
  lemma IntTextRejects(s: string, k: nat)
    requires k < |s|
    requires !IsSpace(s[k]) && !IsDigit(s[k]) && s[k] !in {'_', '-', '+'}
    ensures IntText(s) == None
  {
    var t := Strip(s);
    var m := StripKeeps(s, k);
    if |t| > 0 && (t[0] == '-' || t[0] == '+') {
      assert m > 0;
      assert t[1..][m - 1] == t[m];
    }
  }

  function Pow10(n: nat): (p: nat)
    ensures p >= 1
  {
    if n == 0 then 1 else 10 * Pow10(n - 1)
  }

  /** Reading digits split anywhere: the left part is shifted by the length
      of the right part. */
  lemma {:induction false} ValueOfAppend(a: string, b: string)
    requires AllDigits(a) && AllDigits(b)
    ensures AllDigits(a + b)
    ensures ValueOf(a + b) == ValueOf(a) * Pow10(|b|) + ValueOf(b)
  {
    assert AllDigits(a + b) by {
      forall i | 0 <= i < |a + b| ensures IsDigit((a + b)[i]) {
        if i < |a| { assert (a + b)[i] == a[i]; } else { assert (a + b)[i] == b[i - |a|]; }
      }
    }
    if b != [] {
      var b' := b[..|b| - 1];
      var d := DigitValue(b[|b| - 1]);
      assert (a + b)[..|a + b| - 1] == a + b';
      assert (a + b)[|a + b| - 1] == b[|b| - 1];
      ValueOfAppend(a, b');
      assert ValueOf(a + b) == ValueOf(a + b') * 10 + d;
      assert ValueOf(b) == ValueOf(b') * 10 + d;
      ShiftDigit(ValueOf(a), Pow10(|b'|), ValueOf(b'), d);
    } else {
      assert a + b == a;
    }
  }

  /** One more digit on the right: `(x·p + y)·10 + d = x·(10·p) + (y·10 + d)`. */
  lemma ShiftDigit(x: nat, p: nat, y: nat, d: nat)
    ensures (x * p + y) * 10 + d == x * (10 * p) + (y * 10 + d)
  {
  }

  /** `x` with its decimal point moved `k` places to the right. */
  function Shift(x: real, k: nat): real
  {
    if k == 0 then x else 10.0 * Shift(x, k - 1)
  }

  /** `y` with its decimal point moved `k` places to the left. */
  function Unshift(y: real, k: nat): real
  {
    if k == 0 then y else Unshift(y, k - 1) / 10.0
  }

  lemma {:induction false} ShiftSign(x: real, k: nat)
    ensures Shift(x, k) == 0.0 <==> x == 0.0
    ensures Shift(x, k) < 0.0 <==> x < 0.0
  {
    if k > 0 {
      ShiftSign(x, k - 1);
    }
  }

  lemma {:induction false} UnshiftNegate(y: real, k: nat)
    ensures Unshift(-y, k) == -Unshift(y, k)
  {
    if k > 0 {
      UnshiftNegate(y, k - 1);
    }
  }

  lemma {:induction false} UnshiftTimesTen(y: real, k: nat)
    ensures Unshift(10.0 * y, k) == 10.0 * Unshift(y, k)
  {
    if k > 0 {
      UnshiftTimesTen(y, k - 1);
    }
  }

  /** Moving the point right and then back left gives the number back. */
  lemma {:induction false} UnshiftShift(x: real, k: nat)
    ensures Unshift(Shift(x, k), k) == x
  {
    if k > 0 {
      calc {
        Unshift(Shift(x, k), k);
        Unshift(10.0 * Shift(x, k - 1), k - 1) / 10.0;
        { UnshiftTimesTen(Shift(x, k - 1), k - 1); }
        10.0 * Unshift(Shift(x, k - 1), k - 1) / 10.0;
        { UnshiftShift(x, k - 1); }
        x;
      }
    }
  }
}

=== FILE: wrappers.dfy ===
/** Failure-carrying wrappers shared by every stage of the calculator model. */
module Wrappers {

  /** A value that may be absent. */
  datatype Option<+T> = None | Some(value: T)

  /** The ways an evaluation of the "=" key can fail. Python raises a
      different exception for each; the calculator collapses all of them
      into the display text `Error`. */
  datatype Failure =
    | SyntaxError        // the rewritten text is not a Python expression of the modelled subset
    | NameError          // a name other than `decimal` is used (only `decimal` is in scope)
    | DivisionByZero     // x / 0, including 0 / 0
    | InvalidOperation   // 0 ** 0, negative ** non-integer
    | Overflow           // an infinite result reaches `int(...)`, or the power oracle overflows

  /** Either a value or the failure that stopped the computation. */
  datatype Result<+T> = Ok(value: T) | Err(error: Failure) {
    predicate IsFailure() { Err? }

    function PropagateFailure<U>(): Result<U>
      requires Err?
    {
      Err(error)
    }

    function Extract(): T
      requires Ok?
    {
      value
    }
  }
}

=== FILE: zenth_keys.dfy ===
/** One click on a button of a Zenth calculator tab: the entry buffer and
    the previous-result line change, and `=` may add a history entry. */
module ZenthKeys {
  import opened Wrappers
  import opened Text
  import opened Grouping
  import opened Rewrite
  import opened Literals
  import opened Evaluator
  import opened Display
  import opened Engine
  import opened Factorial
  import opened Editing

  /** The buttons. `Plain` carries the text of every other key (digits, the
      point, operators, parentheses), which is appended as it is. */
  datatype Key =
    | Clear
    | Delete
    | PlusMinus
    | Pi
    | Equals
    | SquareRoot
    | Bang
    | Plain(text: string)

  /** `decimal.Decimal(text)` for the spellings a calculator buffer holds:
      surrounding whitespace is stripped and every underscore dropped,
      leaving an optional sign and a numeric literal. `None` where the
      constructor raises `InvalidOperation`. */
  function DecimalOperand(text: string): Option<real>
  {
    var s := Replace(Strip(text), '_', "");
    if |s| > 0 && (s[0] == '-' || s[0] == '+') then
      if IsLiteral(s[1..]) then
        Some(if s[0] == '-' then -LiteralValue(s[1..]) else LiteralValue(s[1..]))
      else None
    else if IsLiteral(s) then Some(LiteralValue(s))
    else None
  }

  /** The `sqrt` key: the square root of the buffer read as a Decimal, or
      `Error` when the buffer is not a number or is negative. */
  function SquareRootText(o: Oracle, text: string): (r: string)
    ensures DecimalOperand(text).None? ==> r == ERROR
    ensures DecimalOperand(text).Some? && DecimalOperand(text).value < 0.0 ==> r == ERROR
    ensures DecimalOperand(text).Some? && DecimalOperand(text).value >= 0.0 ==> r == o.sqrtText(text)
  {
    match DecimalOperand(text)
    case None => ERROR
    case Some(x) => if x < 0.0 then ERROR else o.sqrtText(text)
  }

  /** The `x!` key: `int()` of the buffer; a negative number or a text
      `int()` refuses gives `Error`, otherwise n! with thousands separators,
      or `Error` when n! has too many digits to be formatted. */
  function FactorialText(text: string): (r: string)
  {
    match IntCall(text)
    case None => ERROR
    case Some(n) => if n < 0 || !FitsStrLimit(Fact(n)) then ERROR else GroupInt(Fact(n))
  }

  /** `on_button_click`. Only `=` can add to the history; only `C` and `=`
      touch the previous-result line. */
  function Press(o: Oracle, c: Calc, k: Key): (r: Outcome)
    ensures k != Equals ==> r.logged.None?
    ensures k != Equals && k != Clear ==> r.screen.previous == c.previous
    ensures k == Equals ==> r == Calculate(o, c)
  {
    match k
    case Clear => Outcome(Calc("", ""), None)
    case Delete => Outcome(c.(buffer := DropLast(c.buffer)), None)
    case PlusMinus => Outcome(c.(buffer := ToggleSign(c.buffer)), None)
    case Pi => Outcome(c.(buffer := Append(c.buffer, PI_TEXT)), None)
    case Equals => Calculate(o, c)
    case SquareRoot => Outcome(c.(buffer := SquareRootText(o, c.buffer)), None)
    case Bang => Outcome(c.(buffer := FactorialText(c.buffer)), None)
    case Plain(t) => Outcome(c.(buffer := Append(c.buffer, t)), None)
  }

  /** `C` empties both lines; DEL after a plain one-character key gives the
      buffer back; `±` twice is the identity unless the buffer starts `--`. */
  lemma EditingKeys(o: Oracle, c: Calc, ch: char)
    ensures Press(o, c, Clear).screen == Calc("", "")
    ensures Press(o, Press(o, c, Plain([ch])).screen, Delete).screen == c
    ensures Press(o, Press(o, c, PlusMinus).screen, PlusMinus).screen == c
        <==> !DoubleMinus(c.buffer)
  {
    DropLastUndoesAppend(c.buffer, ch);
    ToggleTwice(c.buffer);
  }

  /** `±` on a number literal negates the value `=` will compute... */
  lemma PlusMinusNegates(o: Oracle, t: string, v: real)
    requires IsLiteral(t) && v == LiteralValue(t)
    ensures Value(o, ToggleSign(t)) == Ok(-v)
  {
    ToggleOfLiteral(t);
    NegativeReadable(o, ToggleSign(t), t, v);
  }

  lemma ToggleOfLiteral(t: string)
    requires IsLiteral(t)
    ensures ToggleSign(t) == ['-'] + t
  {
    assert IsDigit(t[0]) || t[0] == '.';
  }

  /** ... and `±` on a negated literal gives the literal back. */
  lemma PlusMinusRestores(o: Oracle, t: string)
    requires IsLiteral(t)
    ensures Value(o, ToggleSign(['-'] + t)) == Ok(LiteralValue(t))
  {
    assert ToggleSign(['-'] + t) == t;
    PositiveReadable(o, t);
  }

  /** Appending the text a character expands to evaluates like appending
      the character itself, when that text needs no rewriting. */
  lemma AppendExpansion(o: Oracle, b: string, ch: char, p: string)
    requires ch != ',' && Expand(ch) == p
    requires ',' !in p && '^' !in p && '%' !in p && PI_CHAR !in p
    ensures Value(o, b + p) == Value(o, b + [ch])
  {
    var s := StripCommas(b);
    assert StripCommas(b + p) == s + p by {
      ReplaceAppend(b, p, ',', "");
    }
    assert StripCommas(b + [ch]) == s + [ch] by {
      ReplaceAppend(b, [ch], ',', "");
    }
    assert Clean(s + p) == Clean(s) + p by {
      CleanAppend(s, p);
      CleanKeepsPlainText(p);
    }
    assert Clean(s + [ch]) == Clean(s) + p by {
      CleanAppend(s, [ch]);
      CleanChar(ch);
    }
  }

  /** The `π` key appends the pi digits, which evaluate exactly like the
      `π` character typed into the buffer. */
  lemma PiKeyLikePiChar(o: Oracle, b: string)
    ensures Value(o, Append(b, PI_TEXT)) == Value(o, b + [PI_CHAR])
  {
    PiTextShape();
    AppendExpansion(o, b, PI_CHAR, PI_TEXT);
  }

  /** The text `int()` reads back from `x!` on `str(n)` is n!, and `=` on
      that display shows the same value, as long as n! fits the digit cap. */
  lemma FactorialShows(o: Oracle, n: nat)
    requires FitsStrLimit(Fact(n))
    ensures IntCall(Replace(FactorialText(IntString(n)), ',', "")) == Some(Fact(n))
    ensures Value(o, FactorialText(IntString(n))) == Ok(Fact(n) as real)
  {
    FactorialOfIntString(n);
    GroupIntRoundTrip(Fact(n));
    ValueOfGrouped(o, Fact(n));
  }

  /** `x!` fails exactly when `int()` refuses the buffer, reads a negative
      number, or reads an n whose n! has too many digits to be formatted. */
  lemma FactorialFails(text: string)
    ensures FactorialText(text) == ERROR <==>
      IntCall(text).None? || IntCall(text).value < 0 || !FitsStrLimit(Fact(IntCall(text).value))
  {
    if IntCall(text).Some? && IntCall(text).value >= 0 && FitsStrLimit(Fact(IntCall(text).value)) {
      var g := GroupInt(Fact(IntCall(text).value));
      assert IsDigit(g[0]) by {
        assert Replace(g, ',', "")[0] == DigitsOf(Fact(IntCall(text).value))[0];
        FirstOfReplaced(g);
      }
      assert ERROR[0] == 'E';
    }
  }

  /** Removing commas from a text that starts with a digit keeps that first
      digit in front. */
  lemma FirstOfReplaced(g: string)
    requires |g| > 0 && IsDigit(g[0])
    ensures |Replace(g, ',', "")| > 0 && Replace(g, ',', "")[0] == g[0]
  {
  }

  /** `x!` twice: from 7! = 5,040 on, the first result holds a comma, which
      `int()` refuses, so the second press shows `Error`; so does `Error`
      itself when n! is past the digit cap... */
  lemma FactorialTwiceFails(n: nat)
    requires n >= 7
    ensures FactorialText(FactorialText(IntString(n))) == ERROR
  {
    var first := FactorialText(IntString(n));
    if FitsStrLimit(Fact(n)) {
      assert first == GroupInt(Fact(n)) by { FactorialOfIntString(n); }
      assert IntText(first) == None by {
        FactSevenAtLeastThousand(n);
        GroupedIntRejected(Fact(n));
      }
    } else {
      assert first == ERROR by { IntCallOfIntString(n); }
      assert IntText(first) == None by { IntTextRejects(ERROR, 0); }
    }
    assert IntCall(first) == None;
  }

  /** `x!` on `str(n)` shows n! with thousands separators when n! fits the
      digit cap. */
  lemma FactorialOfIntString(n: nat)
    requires FitsStrLimit(Fact(n))
    ensures FactorialText(IntString(n)) == GroupInt(Fact(n))
  {
    FactAtLeast(n);
    DigitsMonotone(n, Fact(n));
    IntCallOfIntString(n);
  }

  /** `=` after `x!`: the grouped n! reads back whole, and `normalize()`
      rounds it to the working precision, so once n! has more significant
      digits than that (from 81! on) the shown text changes. */
  lemma EqualsAfterFactorial(o: Oracle, n: nat, previous: string)
    requires FitsStrLimit(Fact(n))
    ensures var r := RoundToPrecision(Fact(n));
      Calculate(o, Calc(FactorialText(IntString(n)), previous)).screen.buffer
        == if FitsStrLimit(r) then GroupInt(r) else ERROR
    ensures SignificantDigits(Fact(n)) > PRECISION ==>
      Calculate(o, Calc(FactorialText(IntString(n)), previous)).screen.buffer != FactorialText(IntString(n))
  {
    var f := Fact(n);
    var r := RoundToPrecision(f);
    var shown := FactorialText(IntString(n));
    var c := Calc(shown, previous);
    assert shown == GroupInt(f) by { FactorialOfIntString(n); }
    assert Value(o, shown) == Ok(f as real) by { ValueOfGrouped(o, f); }
    assert Format(o, f as real) == (if FitsStrLimit(r) then Some(GroupInt(r)) else None) by {
      assert IsIntegral(f as real) && (f as real).Floor == f;
    }
    if FitsStrLimit(r) {
      CalculateShows(o, c, f as real, GroupInt(r));
      if SignificantDigits(f) > PRECISION && GroupInt(r) == shown {
        GroupIntInjective(r, f);
        assert false;
      }
    } else {
      CalculateUnformattable(o, c, f as real);
      ErrorIsNotGrouped(f);
    }
  }

  /** `Error` is never a number shown with thousands separators. */
  lemma ErrorIsNotGrouped(n: int)
    ensures GroupInt(n) != ERROR
  {
    if GroupInt(n) == ERROR {
      GroupIntRoundTrip(n);
      assert false;
    }
  }

  /** `int()` refuses a number shown with thousands separators. */
  lemma GroupedIntRejected(m: nat)
    requires m >= 1000
    ensures IntText(GroupInt(m)) == None
  {
    LargeGroupHasComma(m);
    var g := GroupInt(m);
    var k :| 0 <= k < |g| && g[k] == ',';
    IntTextRejects(g, k);
  }

  /** ... while below 7 the second press computes (n!)!. */
  lemma FactorialTwiceSmall(n: nat)
    requires n <= 6
    ensures FactorialText(FactorialText(IntString(n))) == GroupInt(Fact(Fact(n)))
  {
    var m := Fact(n);
    assert m < 1000 by { FactSixBelowThousand(n); }
    assert FactorialText(IntString(n)) == GroupInt(m) by {
      FactFits(n);
      FactorialOfIntString(n);
    }
    FactorialOfSmallGrouped(m);
  }

  /** Below 1,000 the grouped text has no comma, so `x!` reads it again. */
  lemma FactorialOfSmallGrouped(m: nat)
    requires m < 1000
    ensures FactorialText(GroupInt(m)) == GroupInt(Fact(m))
  {
    var g := GroupInt(m);
    assert g == IntString(m) by { SmallGroupIsPlain(m); }
    assert FitsStrLimit(m) by {
      FactFits(m);
      FactAtLeast(m);
      DigitsMonotone(m, Fact(m));
    }
    assert IntCall(g) == Some(m) by { IntCallOfIntString(m); }
    assert FitsStrLimit(Fact(m)) by { FactFits(m); }
    FactorialOfRead(g, m);
  }

  /** `x!` on a buffer `int()` reads as n, when n! fits the digit cap. */
  lemma FactorialOfRead(text: string, n: nat)
    requires IntCall(text) == Some(n) && FitsStrLimit(Fact(n))
    ensures FactorialText(text) == GroupInt(Fact(n))
  {
  }

  /** m! has fewer than 3m + 2 digits below m = 1000, well inside the cap. */
  lemma FactFits(m: nat)
    requires m < 1000
    ensures FitsStrLimit(Fact(m))
  {
    FactBelowPow(m);
    assert Pow10(3 * m + 1) == 10 * Pow10(3 * m);
    DigitsBelow(Fact(m), 3 * m + 1);
  }

  /** m! <= 1000^m while no factor exceeds 1000. */
  lemma {:induction false} FactBelowPow(m: nat)
    requires m <= 1000
    ensures Fact(m) <= Pow10(3 * m)
  {
    if m > 0 {
      FactBelowPow(m - 1);
      var k := 3 * (m - 1);
      var p := Pow10(k);
      assert Pow10(3 * m) == 1000 * p by {
        assert Pow10(k + 3) == 10 * Pow10(k + 2);
        assert Pow10(k + 2) == 10 * Pow10(k + 1);
        assert Pow10(k + 1) == 10 * p;
      }
      MulBelow(m, Fact(m - 1), 1000, p);
    }
  }

  /** a·b <= c·d for a <= c and b <= d. */
  lemma MulBelow(a: nat, b: nat, c: nat, d: nat)
    requires a <= c && b <= d
    ensures a * b <= c * d
  {
    assert a * b <= c * b;
    assert c * b <= c * d;
  }

  /** `Decimal()` reads back every number `=` shows in plain notation
      without separators. */
  lemma DecimalOperandOfShown(t: string, x: real)
    requires ReadsAs(t, x)
    ensures DecimalOperand(t) == Some(x)
  {
    if x < 0.0 {
      var u := t[1..];
      LiteralEnds(u);
      assert t[|t| - 1] == u[|u| - 1];
      StripNoop(t);
    } else {
      LiteralEnds(t);
      StripNoop(t);
    }
  }

  /** A number literal starts and ends with a digit or a point. */
  lemma LiteralEnds(u: string)
    requires IsLiteral(u)
    ensures |u| > 0 && !IsSpace(u[0]) && !IsSpace(u[|u| - 1]) && u[0] != '-' && u[0] != '+'
  {
    assert IsDigit(u[0]) || u[0] == '.';
    assert IsDigit(u[|u| - 1]) || u[|u| - 1] == '.';
  }

  /** `Decimal()` refuses a text holding an ASCII character that is not
      whitespace, a letter, a digit, a sign, a point or an underscore. */
  lemma DecimalOperandRejects(text: string, k: nat)
    requires k < |text| && text[k] as int < 0x80
    requires !IsSpace(text[k]) && !IsDigit(text[k]) && text[k] !in {'.', '-', '+', '_'}
    requires !('a' <= text[k] <= 'z') && !('A' <= text[k] <= 'Z')
    ensures DecimalOperand(text) == None
  {
    var d := text[k];
    var t := Strip(text);
    var m := StripKeeps(text, k);
    assert d in t;
    ReplaceKeeps(t, '_', "", d);
    var s := Replace(t, '_', "");
    if |s| > 0 && (s[0] == '-' || s[0] == '+') {
      assert d in s[1..];
      var i :| 0 <= i < |s[1..]| && s[1..][i] == d;
      NotLiteralBadChar(s[1..], i);
    } else {
      var i :| 0 <= i < |s| && s[i] == d;
      NotLiteralBadChar(s, i);
    }
  }

  /** `Decimal()` drops underscores wherever they stand, so `sqrt` on
      digits split by an underscore, such as `1_0`, takes the root of the
      joined digits. */
  lemma SquareRootOfUnderscored(o: Oracle, a: string, b: string)
    requires |a| > 0 && |b| > 0 && AllDigits(a) && AllDigits(b)
    ensures AllDigits(a + b) && DecimalOperand(a + "_" + b) == Some(ValueOf(a + b) as real)
    ensures SquareRootText(o, a + "_" + b) == o.sqrtText(a + "_" + b)
  {
    var t := a + "_" + b;
    var d := a + b;
    assert Replace(Strip(t), '_', "") == d by { UnderscoreDropped(a, b); }
    ValueOfAppend(a, b);
    assert IsLiteral(d) && LiteralValue(d) == ValueOf(d) as real by { DigitsLiteral(d); }
    DecimalOperandOfLiteral(t, d);
  }

  lemma UnderscoreDropped(a: string, b: string)
    requires |a| > 0 && |b| > 0 && AllDigits(a) && AllDigits(b)
    ensures Replace(Strip(a + "_" + b), '_', "") == a + b
  {
    var t := a + "_" + b;
    assert Strip(t) == t by {
      assert t[0] == a[0] && t[|t| - 1] == b[|b| - 1];
      DigitNotSpace(a[0]);
      DigitNotSpace(b[|b| - 1]);
      StripNoop(t);
    }
    ReplaceUnderscore(a, b);
  }

  lemma ReplaceUnderscore(a: string, b: string)
    requires AllDigits(a) && AllDigits(b)
    ensures Replace(a + "_" + b, '_', "") == a + b
  {
    var u := a + "_";
    assert Replace(u, '_', "") == a by {
      assert Replace(a, '_', "") == a by { assert '_' !in a; }
      assert Replace("_", '_', "") == [] by { assert "_"[1..] == []; }
      ReplaceAppend(a, "_", '_', "");
    }
    assert Replace(b, '_', "") == b by { assert '_' !in b; }
    ReplaceAppend(u, b, '_', "");
  }

  /** A non-empty run of digits is a literal worth its digits. */
  lemma DigitsLiteral(d: string)
    requires |d| > 0 && AllDigits(d)
    ensures IsLiteral(d) && LiteralValue(d) == ValueOf(d) as real
  {
    assert IsDigit(d[0]);
    MantissaDigits(d);
    ScaleOfDigits(d);
  }

  /** A text that is a literal once stripped and rid of underscores is read
      as that literal. */
  lemma DecimalOperandOfLiteral(text: string, s: string)
    requires Replace(Strip(text), '_', "") == s && IsLiteral(s)
    ensures DecimalOperand(text) == Some(LiteralValue(s))
  {
    LiteralEnds(s);
  }

  /** `sqrt` on a negative result that `=` shows in plain notation fails. */
  lemma SquareRootOfNegative(o: Oracle, t: string, x: real)
    requires ReadsAs(t, x) && x < 0.0
    ensures SquareRootText(o, t) == ERROR
  {
    DecimalOperandOfShown(t, x);
  }

  /** `sqrt` right after `=` has shown an integer of 1,000 or more fails:
      the thousands separator makes `Decimal()` refuse the buffer. */
  lemma SquareRootOfGrouped(o: Oracle, n: nat)
    requires n >= 1000
    ensures SquareRootText(o, GroupInt(n)) == ERROR
  {
    LargeGroupHasComma(n);
    var g := GroupInt(n);
    var k :| 0 <= k < |g| && g[k] == ',';
    DecimalOperandRejects(g, k);
  }
}

=== FILE: zenth_session.dfy ===
/** The Zenth window: its tabs, the stack of closed tabs, the calculation
    history and the Ctrl-Tab preview used to switch tabs. */
module ZenthSession {
  import opened Wrappers
  import opened Text
  import opened Rewrite
  import opened Evaluator
  import opened Display
  import opened Engine
  import opened ZenthKeys
  import opened Notebook

  /** `closed` is the closed-tab stack, top last; each entry keeps the
      widget with the label it had when closed. `preview` is the tab index
      the Ctrl-Tab preview shows and `previewShown` whether that preview
      window exists. */
  datatype App = App(
    book: Book<Calc>,
    closed: seq<Page<Calc>>,
    history: seq<string>,
    ctrl: bool,
    preview: nat,
    previewShown: bool)

  /** Every widget, open or closed, is there once and was created by the
      window; the selection points at an open tab. */
  predicate Valid(a: App)
  {
    && Selected(a.book)
    && DistinctIds(a.book.pages + a.closed)
    && IdsBelow(a.book.pages + a.closed, a.book.nextId)
  }

  /** The window as it opens: one empty tab `Calc 1`, nothing closed, no
      history, Ctrl up and preview index 0. */
  function Start(): (r: App)
    ensures Valid(r)
    ensures |r.book.pages| == 1 && r.book.pages[0].name == TabName(1)
    ensures r.book.pages[0].body == Calc("", "")
    ensures r.closed == [] && r.history == [] && !r.ctrl && !r.previewShown
  {
    var b := AddPage(Empty(), Calc("", ""));
    assert b.pages + [] == b.pages;
    App(b, [], [], false, 0, false)
  }

  /** `add_to_history`: the entry goes to the end. */
  function AddToHistory(a: App, entry: string): (r: App)
    ensures |r.history| == |a.history| + 1 && r.history[..|a.history|] == a.history
    ensures r.history[|a.history|] == entry
    ensures r.(history := a.history) == a
  {
    a.(history := a.history + [entry])
  }

  /** `clear_history`. */
  function ClearHistory(a: App): (r: App)
    ensures r.history == [] && r.(history := a.history) == a
  {
    a.(history := [])
  }

  /** `add_tab`: a new empty calculator, labelled after the number of tabs,
      is added at the end and selected. */
  function AddTab(a: App): (r: App)
    ensures Valid(a) ==> Valid(r)
    ensures r.closed == a.closed && r.history == a.history
    ensures |r.book.pages| == |a.book.pages| + 1
    ensures r.book.pages[..|a.book.pages|] == a.book.pages
    ensures Selected(r.book) && r.book.pages[r.book.current].name == TabName(|a.book.pages| + 1)
    ensures r.book.pages[r.book.current].body == Calc("", "")
  {
    var b := AddPage(a.book, Calc("", ""));
    var r := a.(book := b);
    assert Valid(a) ==> Valid(r) by {
      if Valid(a) {
        FreshInserted(a.book.pages, a.closed, b.pages[b.current], a.book.nextId);
        assert b.pages == a.book.pages + [b.pages[b.current]] by {
          assert b.pages[..|a.book.pages|] == a.book.pages;
        }
      }
    }
    r
  }

  /** `close_tab`: with a tab open, the selected one is pushed on the closed
      stack together with its label and leaves the notebook. */
  function CloseTab(a: App): (r: App)
    ensures Valid(a) ==> Valid(r)
    ensures a.book.pages == [] ==> r == a
    ensures a.book.pages != [] && Selected(a.book) ==>
      && r.closed == a.closed + [a.book.pages[a.book.current]]
      && r.book == ForgetCurrent(a.book)
    ensures r.history == a.history && r.ctrl == a.ctrl && r.preview == a.preview
  {
    if a.book.pages == [] || !Selected(a.book) then a
    else
      var c := a.book.current;
      var r := a.(book := ForgetCurrent(a.book), closed := a.closed + [a.book.pages[c]]);
      assert Valid(a) ==> Valid(r) by {
        if Valid(a) {
          ClosedMoved(a.book, a.closed);
        }
      }
      r
  }

  /** `reopen_closed_tab`: the top of the closed stack goes back, with its
      label and calculator, at the end of the notebook and is selected;
      with an empty stack nothing changes. */
  function Reopen(a: App): (r: App)
    ensures Valid(a) ==> Valid(r)
    ensures a.closed == [] ==> r == a
    ensures a.closed != [] ==>
      && r.book == Attach(a.book, a.closed[|a.closed| - 1])
      && r.closed == a.closed[..|a.closed| - 1]
    ensures r.history == a.history && r.ctrl == a.ctrl && r.preview == a.preview
  {
    if a.closed == [] then a
    else
      var top := a.closed[|a.closed| - 1];
      var r := a.(book := Attach(a.book, top), closed := a.closed[..|a.closed| - 1]);
      assert Valid(a) ==> Valid(r) by {
        if Valid(a) {
          ReopenMoved(a.book, a.closed);
        }
      }
      r
  }

  /** `on_ctrl_press`: the preview starts at the selected tab. With no tab
      the notebook has no current index, and the Ctrl flag drops again. */
  function CtrlPress(a: App): (r: App)
    ensures r.book == a.book && r.closed == a.closed && r.history == a.history
    ensures r.previewShown == a.previewShown
    ensures r.ctrl <==> a.book.pages != []
    ensures a.book.pages != [] ==> r.preview == a.book.current
  {
    if a.book.pages == [] then a.(ctrl := false)
    else a.(ctrl := true, preview := a.book.current)
  }

  /** `on_ctrl_release`: the Ctrl flag drops; if the preview is up, its tab
      is selected and the preview closed. A preview index past the last tab
      makes the selection fail, and the preview stays up. */
  function CtrlRelease(a: App): (r: App)
    ensures !r.ctrl && r.closed == a.closed && r.history == a.history
    ensures r.book.pages == a.book.pages && r.book.nextId == a.book.nextId
    ensures r.preview == a.preview
    ensures a.previewShown && a.preview < |a.book.pages| ==>
              r.book.current == a.preview && !r.previewShown
    ensures !(a.previewShown && a.preview < |a.book.pages|) ==>
              r.book == a.book && r.previewShown == a.previewShown
    ensures Valid(a) ==> Valid(r)
  {
    if a.previewShown && a.preview < |a.book.pages| then
      a.(ctrl := false, book := a.book.(current := a.preview), previewShown := false)
    else a.(ctrl := false)
  }

  /** `cycle_tabs`: only with Ctrl held and two tabs or more. The preview is
      opened if needed, which draws the tab at the old index first: past the
      last tab that drawing fails and the index stays; otherwise the index
      moves to the next tab round the strip. */
  function CycleTabs(a: App): (r: App)
    ensures !a.ctrl || |a.book.pages| < 2 ==> r == a
    ensures r.book == a.book && r.closed == a.closed && r.history == a.history && r.ctrl == a.ctrl
    ensures a.ctrl && |a.book.pages| >= 2 ==> r.previewShown
    ensures a.ctrl && |a.book.pages| >= 2 && (a.previewShown || a.preview < |a.book.pages|) ==>
              r.preview == (a.preview + 1) % |a.book.pages|
    ensures a.ctrl && |a.book.pages| >= 2 && !a.previewShown && a.preview >= |a.book.pages| ==>
              r.preview == a.preview
  {
    var n := |a.book.pages|;
    if !a.ctrl || n < 2 then a
    else if !a.previewShown && a.preview >= n then a.(previewShown := true)
    else a.(previewShown := true, preview := (a.preview + 1) % n)
  }

  /** `rename_current_tab` with the dialog's answer (`None` when cancelled). */
  function RenameTab(a: App, answer: Option<string>): (r: App)
    ensures Valid(a) ==> Valid(r)
    ensures r.closed == a.closed && r.history == a.history
    ensures |r.book.pages| == |a.book.pages| && r.book.current == a.book.current
    ensures Applies(a.book, answer) ==>
              r.book.pages[a.book.current].name == Strip(answer.value)
    ensures !Applies(a.book, answer) ==> r == a
  {
    var r := a.(book := Rename(a.book, answer));
    assert Valid(a) ==> Valid(r) by {
      if Valid(a) {
        SameIds(a.book.pages, r.book.pages, a.closed);
      }
    }
    r
  }

  /** A button click on the selected tab's calculator; the history gains
      the entry `=` logs, if any. */
  function Click(o: Oracle, a: App, k: Key): (r: App)
    ensures Valid(a) ==> Valid(r)
    ensures r.closed == a.closed && r.book.pages == [] <==> a.book.pages == []
    ensures a.book.pages == [] || !Selected(a.book) ==> r == a
    ensures a.book.pages != [] && Selected(a.book) ==>
      var out := Press(o, a.book.pages[a.book.current].body, k);
      && r.book == SetBody(a.book, out.screen)
      && r.history == a.history + (if out.logged.Some? then [out.logged.value] else [])
  {
    if a.book.pages == [] || !Selected(a.book) then a
    else
      var out := Press(o, a.book.pages[a.book.current].body, k);
      var r := a.(book := SetBody(a.book, out.screen),
                  history := a.history + (if out.logged.Some? then [out.logged.value] else []));
      assert Valid(a) ==> Valid(r) by {
        if Valid(a) {
          SameIds(a.book.pages, r.book.pages, a.closed);
        }
      }
      r
  }

  /** What the user can do to the window. */
  datatype Event =
    | NewTab
    | CloseCurrent
    | ReopenLast
    | CtrlDown
    | CtrlUp
    | CtrlTab
    | RenameTo(answer: Option<string>)
    | Button(key: Key)
    | ClearLog

  function Step(o: Oracle, a: App, e: Event): App
  {
    match e
    case NewTab => AddTab(a)
    case CloseCurrent => CloseTab(a)
    case ReopenLast => Reopen(a)
    case CtrlDown => CtrlPress(a)
    case CtrlUp => CtrlRelease(a)
    case CtrlTab => CycleTabs(a)
    case RenameTo(answer) => RenameTab(a, answer)
    case Button(k) => Click(o, a, k)
    case ClearLog => ClearHistory(a)
  }

  function Run(o: Oracle, a: App, es: seq<Event>): App
    decreases |es|
  {
    if es == [] then a else Run(o, Step(o, a, es[0]), es[1..])
  }

  /** Every event keeps the window consistent. */
  lemma StepKeepsValid(o: Oracle, a: App, e: Event)
    requires Valid(a)
    ensures Valid(Step(o, a, e))
  {
  }

  /** ... and so does every sequence of them, from the opening state on. */
  lemma {:induction false} RunKeepsValid(o: Oracle, a: App, es: seq<Event>)
    requires Valid(a)
    ensures Valid(Run(o, a, es))
    decreases |es|
  {
    if es != [] {
      StepKeepsValid(o, a, es[0]);
      RunKeepsValid(o, Step(o, a, es[0]), es[1..]);
    }
  }

  /** The history only grows: without `clear_history` every entry stays in
      place, and each new one was logged by `=`. */
  lemma StepHistory(o: Oracle, a: App, e: Event)
    ensures e != ClearLog ==> a.history <= Step(o, a, e).history
    ensures e != ClearLog && e != Button(Equals) ==> Step(o, a, e).history == a.history
    ensures |Step(o, a, e).history| <= |a.history| + 1
  {
  }

  lemma {:induction false} HistoryAppendOnly(o: Oracle, a: App, es: seq<Event>)
    requires ClearLog !in es
    ensures a.history <= Run(o, a, es).history
    decreases |es|
  {
    if es != [] {
      StepHistory(o, a, es[0]);
      assert ClearLog !in es[1..] by {
        forall i | 0 <= i < |es[1..]| ensures es[1..][i] != ClearLog {
          assert es[1..][i] == es[i + 1];
        }
      }
      HistoryAppendOnly(o, Step(o, a, es[0]), es[1..]);
    }
  }

  /** A successful `=` adds exactly `"{expr} = {result}"`, and one whose
      evaluation or formatting raises adds nothing and shows `Error`. */
  lemma EqualsLogs(o: Oracle, a: App)
    requires Selected(a.book) && a.book.pages != []
    ensures var c := a.book.pages[a.book.current].body;
            var r := Click(o, a, Equals);
            var fails := Value(o, c.buffer).Err? || Format(o, Value(o, c.buffer).value).None?;
            && (fails ==>
                  r.history == a.history && r.book.pages[r.book.current].body.buffer == ERROR)
            && (!fails ==>
                  var shown := r.book.pages[r.book.current].body.buffer;
                  r.history == a.history + [StripCommas(c.buffer) + " = " + shown])
  {
    var c := a.book.pages[a.book.current].body;
    var out := Calculate(o, c);
    assert Press(o, c, Equals) == out;
    var r := Click(o, a, Equals);
    assert r.book == SetBody(a.book, out.screen);
    assert r.book.pages[r.book.current].body == out.screen;
  }

  /** Closing and then reopening gives back the same tab, selected, with its
      label and calculator; the closed stack is as before and no tab is lost
      or duplicated. When the closed tab was the last one the notebook is
      exactly as before. */
  lemma CloseThenReopen(a: App)
    requires Selected(a.book) && a.book.pages != []
    ensures var r := Reopen(CloseTab(a));
            && r.closed == a.closed
            && r.book.pages[r.book.current] == a.book.pages[a.book.current]
            && multiset(r.book.pages) == multiset(a.book.pages)
            && (a.book.current == |a.book.pages| - 1 ==> r.book == a.book)
  {
    var c := CloseTab(a);
    var p := a.book.pages[a.book.current];
    assert c.closed[|c.closed| - 1] == p;
    assert c.closed[..|c.closed| - 1] == a.closed;
    var r := Reopen(c);
    assert r.book.pages == c.book.pages + [p];
    if a.book.current == |a.book.pages| - 1 {
      assert c.book.pages == a.book.pages[..a.book.current];
      assert a.book.pages == a.book.pages[..a.book.current] + [p];
    }
  }

  /** Reopening takes the tabs back in the reverse order of closing. */
  lemma ReopenIsLastIn(a: App, p: Page<Calc>, q: Page<Calc>)
    requires a.closed != [] && |a.closed| >= 2
    requires a.closed[|a.closed| - 2] == p && a.closed[|a.closed| - 1] == q
    ensures var r := Reopen(Reopen(a));
            && r.book.pages == a.book.pages + [q, p]
            && r.book.pages[r.book.current] == p
            && r.closed == a.closed[..|a.closed| - 2]
  {
    var r1 := Reopen(a);
    assert r1.closed[|r1.closed| - 1] == p;
    assert r1.closed[..|r1.closed| - 1] == a.closed[..|a.closed| - 2];
  }

  /** Holding Ctrl, pressing Tab `k` times (at least once) and letting go
      selects the tab `k` places on from the one selected at the start. */
  lemma CtrlTabSwitches(a: App, k: nat)
    requires Selected(a.book) && |a.book.pages| >= 2 && k >= 1
    ensures var r := CtrlRelease(CycleTimesHeld(CtrlPress(a), k));
            && r.book.pages == a.book.pages
            && r.book.current == (a.book.current + k) % |a.book.pages|
            && !r.ctrl && !r.previewShown
  {
    CycleTimesHeldMoves(CtrlPress(a), k);
  }

  /** `k` presses of Tab with Ctrl held. */
  function CycleTimesHeld(a: App, k: nat): App
  {
    if k == 0 then a else CycleTabs(CycleTimesHeld(a, k - 1))
  }

  lemma {:induction false} CycleTimesHeldMoves(a: App, k: nat)
    requires a.ctrl && |a.book.pages| >= 2 && a.preview < |a.book.pages| && k >= 1
    ensures var r := CycleTimesHeld(a, k);
            && r.book == a.book && r.ctrl && r.previewShown
            && r.preview == (a.preview + k) % |a.book.pages|
  {
    if k > 1 {
      CycleTimesHeldMoves(a, k - 1);
      ModNext(a.preview + k - 1, |a.book.pages|);
    }
  }

  /** Inserting a freshly created widget among the known ones keeps them
      apart. */
  lemma FreshInserted(ps: seq<Page<Calc>>, qs: seq<Page<Calc>>, p: Page<Calc>, k: nat)
    requires DistinctIds(ps + qs) && IdsBelow(ps + qs, k) && p.id == k
    ensures DistinctIds(ps + [p] + qs) && IdsBelow(ps + [p] + qs, k + 1)
  {
    var xs, ys := ps + qs, ps + [p] + qs;
    forall i | 0 <= i < |ys| ensures ys[i].id < k + 1 {
      if i != |ps| {
        assert ys[i] == xs[if i < |ps| then i else i - 1];
      }
    }
    forall i, j | 0 <= i < j < |ys| ensures ys[i].id != ys[j].id {
      if i != |ps| && j != |ps| {
        assert ys[i] == xs[if i < |ps| then i else i - 1];
        assert ys[j] == xs[if j < |ps| then j else j - 1];
      } else if i == |ps| {
        assert ys[j] == xs[j - 1];
      } else {
        assert ys[i] == xs[i];
      }
    }
  }

  /** Widgets taken from one place to another keep their identities apart,
      when every new position reads a different old one. */
  lemma Rearranged(xs: seq<Page<Calc>>, ys: seq<Page<Calc>>, f: nat -> nat, k: nat)
    requires DistinctIds(xs) && IdsBelow(xs, k)
    requires forall i :: 0 <= i < |ys| ==> f(i) < |xs| && ys[i] == xs[f(i)]
    requires forall i, j :: 0 <= i < j < |ys| ==> f(i) != f(j)
    ensures DistinctIds(ys) && IdsBelow(ys, k)
  {
  }

  lemma ClosedMoved(b: Book<Calc>, cs: seq<Page<Calc>>)
    requires Selected(b) && b.pages != []
    ensures var xs := b.pages + cs;
            var ys := ForgetCurrent(b).pages + (cs + [b.pages[b.current]]);
            DistinctIds(xs) && IdsBelow(xs, b.nextId) ==> DistinctIds(ys) && IdsBelow(ys, b.nextId)
  {
    MovedToEnd(b.pages, b.current, ForgetCurrent(b).pages, cs, b.nextId);
  }

  /** Taking the page at `c` out of `ps` and putting it after `cs` keeps the
      ids distinct and below `k`. */
  lemma MovedToEnd(ps: seq<Page<Calc>>, c: nat, r: seq<Page<Calc>>, cs: seq<Page<Calc>>, k: nat)
    requires c < |ps| && |r| == |ps| - 1
    requires forall i :: 0 <= i < c ==> r[i] == ps[i]
    requires forall i :: c <= i < |r| ==> r[i] == ps[i + 1]
    ensures var xs := ps + cs;
            var ys := r + (cs + [ps[c]]);
            DistinctIds(xs) && IdsBelow(xs, k) ==> DistinctIds(ys) && IdsBelow(ys, k)
  {
    var xs := ps + cs;
    var ys := r + (cs + [ps[c]]);
    var n := |ps|;
    var f: nat -> nat := i => if i < c then i else if i < n - 1 + |cs| then i + 1 else c;
    forall i | 0 <= i < |ys| ensures f(i) < |xs| && ys[i] == xs[f(i)] {
      if i < c {
        assert ys[i] == r[i] == ps[i] == xs[i];
      } else if i < n - 1 {
        assert ys[i] == r[i] == ps[i + 1] == xs[i + 1];
      } else if i < n - 1 + |cs| {
        assert ys[i] == cs[i - (n - 1)] == xs[i + 1];
      } else {
        assert ys[i] == ps[c] == xs[c];
      }
    }
    assert forall i, j :: 0 <= i < j < |ys| ==> f(i) != f(j);
    if DistinctIds(xs) && IdsBelow(xs, k) {
      Rearranged(xs, ys, f, k);
    }
  }


  lemma ReopenMoved(b: Book<Calc>, cs: seq<Page<Calc>>)
    requires cs != []
    ensures var xs := b.pages + cs;
            var ys := Attach(b, cs[|cs| - 1]).pages + cs[..|cs| - 1];
            DistinctIds(xs) && IdsBelow(xs, b.nextId) ==> DistinctIds(ys) && IdsBelow(ys, b.nextId)
  {
    var xs := b.pages + cs;
    var ys := Attach(b, cs[|cs| - 1]).pages + cs[..|cs| - 1];
    var n, m := |b.pages|, |cs|;
    var f: nat -> nat := i => if i < n then i else if i == n then n + m - 1 else i - 1;
    forall i | 0 <= i < |ys| ensures f(i) < |xs| && ys[i] == xs[f(i)] {
      if i < n {
        assert ys[i] == b.pages[i];
      } else if i > n {
        assert ys[i] == cs[i - n - 1];
      }
    }
    if DistinctIds(xs) && IdsBelow(xs, b.nextId) {
      Rearranged(xs, ys, f, b.nextId);
    }
  }

  /** Changing labels or calculators leaves the identities as they were. */
  lemma SameIds(ps: seq<Page<Calc>>, qs: seq<Page<Calc>>, cs: seq<Page<Calc>>)
    requires |ps| == |qs| && forall i :: 0 <= i < |ps| ==> qs[i].id == ps[i].id
    ensures forall k :: DistinctIds(ps + cs) && IdsBelow(ps + cs, k) ==>
                        DistinctIds(qs + cs) && IdsBelow(qs + cs, k)
  {
    var xs, ys := ps + cs, qs + cs;
    assert forall i :: 0 <= i < |ys| ==> ys[i].id == xs[i].id;
  }
}
